=== FILE: README.md ===
# Personal learning coach — a verified model of its core

The learning coach turns a learner's goal into a curriculum, a daily plan, lessons, quizzes
and progress reports. Most of its text comes from a Gemini model; around that model sits
small deterministic logic: quiz scoring and level classification, the cleaning and checking
of generated replies with their canned fallbacks, curriculum and plan construction, keyword
routing to resource lists, and a JSON-file user store. This project models that logic in
Dafny and proves what it promises.

The repository holds two agent trees that implement different rules and are modelled side by
side, never reconciled:

- the first tree (`agents/`, `tools/`, `models/`, `memory/`): modules `LegacyAiService`,
  `LevelAssessment`, `LegacyPlanning`, `LegacyEvaluation`, `LegacyProfile`, `Research`,
  `GoogleSearch`, `Programs` and `SessionService`;
- the second tree (`src/`): modules `QuizScoring`, `AssessmentAgent`, `AiService`,
  `QuizValidation`, `ContentAgent`, `ContentCurator`, `Curriculum`, `Roadmap`, `Planning`,
  `Progress`, `MemoryStore` and `Users`.

Shared pieces have modules of their own: `Fence` (the "```json" / "```" extraction every
Gemini caller applies), `AgentQuiz` (the quiz entry point two agents share), `DayReports`
(the daily score both evaluators compute), `ResourceCatalogue` (the keyword routing of the two
resource agents), `Routing` (first-match keyword dispatch), `Percentages`, `Tallies`, `Text`
(the Python string built-ins used) and `Wrappers` (`Option`).

What the code receives from outside is a parameter of the model:

- a Gemini reply is an `Option<string>` (`None` when the call raised), and the JSON parser is
  a function-typed parameter returning either "parse failed" or records with optional keys;
- the clock is a `Clock` value (one instant per operation) and SHA-256 is a `hash` function;
- the canned question banks, resource catalogues and lesson bodies are opaque inputs, kept
  only in the shape (counts, keys) a property needs.

Objects whose methods update their own state are classes: the memory bank, the session
service, the quiz scorer with its history, the user manager over its list of user records,
and the agents that hold a memory. Pure selection logic is functions and lemmas.

Two second-tree entry points call AI service methods that do not exist
(`generate_assessment_questions` in `src/agents/assessment_agent.py` and
`generate_curriculum` in `src/agents/roadmap_agent.py`); the resulting `AttributeError` is
caught, so they always return their fallbacks, and the model says so.

## Model

| member | source | states |
|---|---|---|
| QuizScoring.ScoreQuiz | src/tools/quiz_scoring.py:34-50 | the score is 0 for an empty key, else the floor of 100 times the share of key entries whose id is answered with the key's value; it lies in 0..100 |
| QuizScoring.ScoreQuizIgnoresOtherAnswers | src/tools/quiz_scoring.py:43-50 | answers to ids outside the key never change the score |
| QuizScoring.ScoreQuizPerfect | src/tools/quiz_scoring.py:43-50 | a non-empty key scores 100 exactly when every key entry is answered with its value, so the key scores 100 against itself |
| QuizScoring.ScoreQuizCorrectingNeverLowers | src/tools/quiz_scoring.py:43-50 | turning one wrong answer into the key's answer never lowers the score |
| QuizScoring.TopicScoreBounds | src/tools/quiz_scoring.py:85-93 | a topic's correct count never exceeds its question count, so its score is a percentage |
| QuizScoring.TopicsSpec | src/tools/quiz_scoring.py:72-78 | the topic order holds every topic that has a question and each one only once |
| QuizScoring.AnalyzeCounts | src/tools/quiz_scoring.py:95-103 | right plus wrong answers equal the question count; the score is in 0..100 and is 0 for an empty quiz |
| QuizScoring.QuestionHasTopic | src/tools/quiz_scoring.py:73-74 | every question is counted under a topic, an untitled one under "general" |
| QuizScoring.TopicTotalsSum | src/tools/quiz_scoring.py:72-78 | summed over the topic order, the per-topic totals give the number of questions |
| QuizScoring.AnalyzeWeakStrong | src/tools/quiz_scoring.py:85-93 | a topic is weak iff it scores below 60 and strong iff it scores at least 80; no topic is both; both lists keep first-appearance order |
| QuizScoring.GenerateSampleQuiz | src/tools/quiz_scoring.py:108-177 | a topic mentioning Python in any case gets a prefix of the fixed Python questions; any other topic gets exactly `n` generic questions; every question is answerable and the ids are distinct |
| QuizScoring.PythonQuestionsWellFormed | src/tools/quiz_scoring.py:120-161 | every fixed Python question has its answer among its options, and the ids are distinct |
| QuizScoring.Messages | src/tools/quiz_scoring.py:198-202 | one message per topic, in topic order: message i is the message for topic i |
| QuizScoring.Suggestions | src/tools/quiz_scoring.py:179-204 | the band headline first, then one line per weak topic, then one per strong topic |
| QuizScoring.AppendEach | src/tools/quiz_scoring.py:198-202 | the append loop leaves what was there and adds one message per topic, in order |
| QuizScoring.TallyTopics | src/tools/quiz_scoring.py:71-78 | the counting loop yields the correct-answer count and, for each topic in first-appearance order, its question and correct counts |
| QuizScoring.ClassifyTopics | src/tools/quiz_scoring.py:85-93 | the scoring loop yields one score per topic in topic order and the weak (< 60) and strong (>= 80) topics |
| QuizScoring.QuizScorer.constructor | src/tools/quiz_scoring.py:31-32 | a new scorer has an empty history |
| QuizScoring.QuizScorer.AnalyzeQuiz | src/tools/quiz_scoring.py:52-106 | the result is the analysis of the answers against the questions, and it becomes the newest history entry |
| QuizScoring.QuizScorer.GetImprovementSuggestions | src/tools/quiz_scoring.py:179-204 | the list built by the loops is the headline, the weak-topic lines, then the strong-topic lines |
| MemoryStore.MemoryBank.Fresh | src/memory/memory_bank.py:7-12 | a store without a file starts with an empty profile and three empty lists |
| MemoryStore.MemoryBank.Existing | src/memory/memory_bank.py:7-12 | a store over an existing file keeps whatever document it holds |
| MemoryStore.MemoryBank.SaveUserProfile | src/memory/memory_bank.py:24-31 | the profile is replaced and every other slot is unchanged |
| MemoryStore.MemoryBank.GetUserProfile | src/memory/memory_bank.py:29-31 | the stored profile, which `SaveUserProfile` sets and `Fresh` leaves empty |
| MemoryStore.MemoryBank.SaveRecommendations | src/memory/memory_bank.py:33-37 | one entry holding the key and the recommendations is appended, the list being created if missing; nothing else changes |
| MemoryStore.MemoryBank.AppendDailyPlan | src/memory/memory_bank.py:39-43 | the plan is appended, the list being created if missing; nothing else changes |
| MemoryStore.MemoryBank.AppendPerformance | src/memory/memory_bank.py:45-49 | the metrics are appended, the list being created if missing; nothing else changes |
| SessionService.InMemorySessionService.constructor | memory/session_service.py:2-4 | a new session is empty, so every lookup gives its default |
| SessionService.InMemorySessionService.Set | memory/session_service.py:6-13 | a later lookup of the key gives the value; every other key keeps its value |
| SessionService.InMemorySessionService.Get | memory/session_service.py:11-13 | the stored value of a present key, the default for a missing one |
| SessionService.InMemorySessionService.Clear | memory/session_service.py:16-18 | afterwards every lookup gives its default |
| AssessmentAgent.DomainOf | src/agents/assessment_agent.py:43-53 | the first keyword group found in the goal decides the domain; a missing or empty goal gives the general domain |
| AssessmentAgent.BuildProfile | src/agents/assessment_agent.py:32-58 | the goal is copied; the level, style and creation time are the input's when present, else "unknown", "balanced" and the clock reading; the daily time is `daily_time`, else `daily_available_time`, else 1.0; the domain is the goal's |
| AssessmentAgent.Points | src/agents/assessment_agent.py:91-92 | easy weighs 1, medium 2, hard 3 and any other tag 1 |
| AssessmentAgent.TallyConsistent | src/agents/assessment_agent.py:88-104 | earned points never exceed possible points, and each band's hits never exceed its total |
| AssessmentAgent.AllHitsEarnEverything | src/agents/assessment_agent.py:88-104 | when every question is answered correctly the earned weight equals the possible weight |
| AssessmentAgent.Strengths | src/agents/assessment_agent.py:144-150 | "Zor konularda yetkinlik" is listed iff more than 60% of a non-empty hard band is hit, "Temel kavramlar sağlam" iff more than 80% of a non-empty medium band is hit; nothing else is listed, and the hard line comes first |
| AssessmentAgent.Weaknesses | src/agents/assessment_agent.py:152-158 | "Temel eksiklikler var" is listed iff under 50% of a non-empty easy band is hit, "İleri konulara çalışılmalı" iff under 30% of a non-empty hard band is hit; nothing else is listed, and the easy line comes first |
| AssessmentAgent.BandsExclusive | src/agents/assessment_agent.py:144-158 | the hard band is never both a strength and a weakness, and an empty band gives neither its strength nor its weakness |
| AssessmentAgent.ReportBounds | src/agents/assessment_agent.py:107-139 | the score and every band score lie in 0..100 |
| AssessmentAgent.LevelByWeightShare | src/agents/assessment_agent.py:107-121 | the level depends only on the earned share of the possible weight: advanced from 80%, intermediate from 50%, beginner below |
| AssessmentAgent.AllCorrectIsAdvanced | src/agents/assessment_agent.py:88-121 | a non-empty battery answered entirely correctly is advanced with score 100 |
| AssessmentAgent.EmptyBatteryIsBeginner | src/agents/assessment_agent.py:77-79 | an empty battery gives a beginner result with score 0 and no breakdown |
| AssessmentAgent.StaticQuestionAt | src/agents/assessment_agent.py:163-177 | the i-th placeholder has id i+1, has its answer among its options, and is easy for i < 3, medium for 3 <= i < 7 and hard beyond |
| AssessmentAgent.ScoringLoop | src/agents/assessment_agent.py:88-104 | the loop's counters and breakdown dicts equal the tally of the answers against the questions |
| AssessmentAgent.AssessmentAgent.constructor | src/agents/assessment_agent.py:22-30 | the agent keeps the given memory |
| AssessmentAgent.AssessmentAgent.AnalyzeUserProfile | src/agents/assessment_agent.py:32-58 | returns the built profile and, when a memory is set, stores it as that memory's profile |
| AssessmentAgent.AssessmentAgent.CalculateLevel | src/agents/assessment_agent.py:75-139 | the report is the one computed from the tally of the answers |
| AssessmentAgent.AssessmentAgent.StaticAssessment | src/agents/assessment_agent.py:160-178 | exactly `n` placeholder questions (none for negative `n`), the i-th built as above |
| AssessmentAgent.StaticIdsDistinct | src/agents/assessment_agent.py:163-177 | the placeholder ids are 1..n in order, hence distinct |
| LevelAssessment.StaticBank | agents/level_assessment_agent.py:131-145 | a topic mentioning Python in any case gets the Python bank; the generic bank is chosen exactly when no keyword group occurs in the lowercased topic, and it names the topic |
| LevelAssessment.ValidQuestions | agents/level_assessment_agent.py:111-116 | the validation loop keeps exactly the items that carry every required key and whose answer is among their options, in input order |
| LevelAssessment.FromReplyAccepts | agents/level_assessment_agent.py:96-129 | generated questions are used iff the parsed reply is a non-empty list with at least `n // 2` valid items; they are then valid, in reply order, and at most `n`; anything else gives the bank for the topic |
| LevelAssessment.NothingValidAcceptedForTinyBatteries | agents/level_assessment_agent.py:118-119 | with at most one question requested, a non-empty reply without one valid item is accepted and the battery is empty |
| LevelAssessment.GetAssessmentQuestions | agents/level_assessment_agent.py:35-43 | with a model the battery is the one built from its reply, without a model the bank for the topic |
| LevelAssessment.BandOf | agents/level_assessment_agent.py:183-195 | every question is counted in one of the three bands; any tag other than easy or medium counts as hard |
| LevelAssessment.Summary | agents/level_assessment_agent.py:243-252 | the summary names each of the first three weak topics |
| LevelAssessment.BandTotalsSum | agents/level_assessment_agent.py:183-195 | the three band totals add up to the number of questions |
| LevelAssessment.ReportScores | agents/level_assessment_agent.py:204-211 | the overall score is the floor of 100 times the share of correct answers; correct answers never exceed the questions; every score lies in 0..100 |
| LevelAssessment.MissingKeyAndAnswerCountsCorrect | agents/level_assessment_agent.py:175-181 | a question without a "correct" key that the user did not answer counts as correct (both sides default to "") |
| LevelAssessment.NoEasyQuestionsIsBeginner | agents/level_assessment_agent.py:205-217 | a battery without easy questions is always beginner, starting on day 1 |
| LevelAssessment.PerfectSheet | agents/level_assessment_agent.py:205-229 | a perfect sheet is advanced when every band has a question, but beginner when there are easy questions and no medium one |
| LevelAssessment.StrengthsAndWeaknesses | agents/level_assessment_agent.py:231-240 | a seen topic is a strength iff it scores at least 70 and a weakness iff below 50; no topic is both; both lists keep first-appearance order |
| LevelAssessment.CountInBand | agents/level_assessment_agent.py:183-195 | one question raises its band's total by one, and its correct count too when answered correctly |
| LevelAssessment.CountInTopic | agents/level_assessment_agent.py:197-202 | a new topic joins the order once; its total goes up by one, its correct count too when answered correctly, every other topic unchanged |
| LevelAssessment.CountAnswers | agents/level_assessment_agent.py:174-202 | the loop's band counters are the per-band counts of the questions, and the topic dict holds, in first-appearance order, each topic's totals and correct counts |
| LevelAssessment.ClassifyTopics | agents/level_assessment_agent.py:235-240 | the loop yields exactly the strong (>= 70) and weak (< 50) topics in dict order, and one count per topic |
| LevelAssessment.CalculateLevel | agents/level_assessment_agent.py:147-267 | the report is the one computed from the band counts and the per-topic counts of the answers |
| AiService.NewService | src/tools/ai_service.py:13-27 | a given non-empty key wins over the environment's; the service is configured iff either key is non-empty; it has a model iff it is configured, the client library is installed and starting the client did not raise |
| AiService.MockPlan | src/tools/ai_service.py:296-330 | the canned plan is for the requested day, has a theory, a quiz and a practice task (theory and practice equally long, the quiz no longer) and carries the first three resources |
| AiService.PersonalizedPlan | src/tools/ai_service.py:29-83 | the model's plan is used iff a model answered and the stripped, unfenced reply parses, and it is then the parsed value; otherwise the canned plan for the same day and resources |
| AiService.MockQuiz | src/tools/ai_service.py:332-344 | one placeholder per `range(n)` step, numbered from q1, on the topic, answered by its first option and passing the validation check |
| AiService.MockQuizIdsDistinct | src/tools/ai_service.py:332-344 | the placeholder ids never repeat |
| AiService.WithTopic | src/tools/ai_service.py:164-165 | a kept item always has a topic; an item that had one is unchanged, and no other key is touched |
| AiService.ValidItemsSpec | src/tools/ai_service.py:158-168 | validation keeps exactly the items with all required keys whose answer is among their options, in order, changing nothing but a missing topic |
| AiService.ValidateItems | src/tools/ai_service.py:158-168 | the loop's result is the valid items, in order, with topics filled in |
| AiService.GenerateQuizQuestions | src/tools/ai_service.py:85-181 | the questions are those the quiz rule gives for the service and the reply |
| AiService.QuizAccepted | src/tools/ai_service.py:139-181 | generated questions are used iff a model answered with a non-empty list at least `n // 2` of whose items are valid; they are then the first `n` validated items; anything else gives the mock quiz |
| AiService.QuizAlwaysAnswerable | src/tools/ai_service.py:85-181 | whatever the model says, every question handed out has a topic and its answer among its options |
| AiService.EmptyQuizForTinyRequests | src/tools/ai_service.py:170-171 | with at most one question asked for, a non-empty reply without a single valid item is accepted and the quiz is empty |
| AiService.AnalyzePerformance | src/tools/ai_service.py:183-218 | without a model or without history the canned analysis; otherwise the parsed reply iff it parses, else the canned analysis |
| AiService.ExplainTopic | src/tools/ai_service.py:220-257 | without a model a template naming the topic and the level; with a reply the stripped reply; when the call raised an apology naming the topic and the error |
| AiService.ExplainWrongAnswer | src/tools/ai_service.py:259-294 | the stripped reply when the model answers, else a hint naming the correct answer |
| LegacyAiService.LegacyQuizQuestions | tools/ai_service.py:85-130 | the parsed reply, unchecked, iff a model answered and the stripped, unfenced reply parses; otherwise the mock quiz |
| LegacyAiService.NoModelMeansMocks | tools/ai_service.py:91-92 | without a model the quiz, the plan and the analysis are all canned, and the quiz has exactly `n` questions (none for negative `n`) |
| AgentQuiz.MinimalFallbackQuiz | src/agents/content_agent.py:738-758 | `min(n, 3)` placeholders (never more than three) numbered fallback_1, ..., on the topic, flagged as fallbacks, each answered by its first option |
| AgentQuiz.GenerateQuiz | src/agents/content_agent.py:52-79 | the service's questions iff the service is configured and returns a non-empty list; otherwise the placeholders |
| AgentQuiz.KeyWithoutModelServesMock | src/agents/content_agent.py:52-79 | a key without a working model yields the service's mock quiz, never the placeholders, once a question is asked for |
| AgentQuiz.QuizAnswerable | src/agents/content_agent.py:52-79 | every handed-out question, generated or placeholder, has its answer among its options, and a placeholder quiz has at most three questions |
| Fence.UnfenceIsInfix | src/tools/ai_service.py:144-147 | the extracted body is always a piece of the reply |
| Fence.UnfenceRemovesFences | src/tools/ai_service.py:144-147 | a fenced reply yields a body with no fence left in it; an unfenced reply is kept whole |
| Fence.UnfenceJsonBlock | src/tools/ai_service.py:144-145 | wrapping a backtick-free body in a json fence and extracting it gives the body back |
| Fence.CleanReplyJsonBlock | src/tools/ai_service.py:141-149 | stripping, extracting and stripping again gives the stripped body back |
| ContentAgent.FallbackContent | src/agents/content_agent.py:81-111 | the placeholder page names the topic and the level, and the goal, or the no-goal wording when the goal is empty |
| ContentAgent.Fill | src/agents/content_agent.py:81-111 | a filled placeholder contains its value and everything the rest of the template contains |
| ContentAgent.GenerateLessonContent | src/agents/content_agent.py:32-50 | the service's explanation when the service is configured and the explanation is longer than 50 characters; the placeholder page otherwise |
| ContentAgent.KeyWithoutModelServesTemplate | src/agents/content_agent.py:37-41 | a configured key without a working model never reaches the placeholder page: the service's template is served, and it names the topic |
| ContentAgent.GenerateQuiz | src/agents/content_agent.py:52-79 | the service's questions iff the service is configured and returns some; otherwise `min(n, 3)` placeholders with this agent's wording |
| ContentAgent.QuizBankFor | src/agents/content_agent.py:760-777 | a topic hitting the AI keywords gets the AI bank, ahead of Python; the general bank is chosen iff no keyword group occurs in the lowercased topic |
| ContentAgent.MainFunctionTopicGoesToAiBank | src/agents/content_agent.py:766-770 | "python main" is served the AI bank, because "main" contains "ai" |
| ContentAgent.StaticQuiz | src/agents/content_agent.py:760-829 | at most `n` questions; a routed bank is cut to its first `n`; the general bank is exactly `n` answerable questions on the topic |
| ContentAgent.StaticContent | src/agents/content_agent.py:113-137 | Python in the topic or the goal picks the Python lesson; the general lesson is chosen iff no keyword group occurs in the lowercased topic or goal, and it gets the topic, level and goal as given |
| QuizValidation.ConversionPrecedence | src/agents/quiz_validation_agent.py:76-85 | the scorer's question takes "question_id" before "id" and "correct_answer" before "correct", with difficulty 1 |
| QuizValidation.ValidationOf | src/agents/quiz_validation_agent.py:87-99 | the report passes iff the score is at least 70; it carries the scorer's result and score, and one suggestion line per weak and strong topic plus the headline |
| QuizValidation.ValidationFacts | src/agents/quiz_validation_agent.py:66-99 | the total is the number of questions; the correct count is at most the total; the score is a percentage; an empty quiz scores 0 and fails |
| QuizValidation.QuizValidationAgent.constructor | src/agents/quiz_validation_agent.py:23-31 | the agent keeps the service it could obtain and a fresh scorer with empty history |
| QuizValidation.QuizValidationAgent.FallbackText | src/agents/quiz_validation_agent.py:108 | this agent's placeholder wording names the topic |
| QuizValidation.QuizValidationAgent.GenerateQuiz | src/agents/quiz_validation_agent.py:37-64 | the service's questions iff the service is configured and returns some; otherwise the placeholders worded with the topic |
| QuizValidation.QuizValidationAgent.ConvertQuestions | src/agents/quiz_validation_agent.py:76-85 | the loop converts every question, in order |
| QuizValidation.QuizValidationAgent.ValidateQuiz | src/agents/quiz_validation_agent.py:66-99 | the report is the one for the scorer's analysis of the converted questions, and that analysis becomes the scorer's newest history entry |
| ContentCurator.FallbackPage | src/agents/content_curator_agent.py:278-311 | the placeholder page names the topic, the level and the goal, or "Belirtilmemiş" when the goal is empty |
| ContentCurator.LessonContent | src/agents/content_curator_agent.py:258-276 | the service's explanation when the service is configured and the explanation is longer than 50 characters; the placeholder page otherwise |
| ContentCurator.LessonNamesTopic | src/agents/content_curator_agent.py:258-311 | unless a configured model actually answered, the lesson names its topic: the placeholder page, the template of a service without a model and the apology for a failed call all contain it |
| ContentCurator.ContentCuratorAgent.constructor | src/agents/content_curator_agent.py:20-207 | the agent keeps the given memory, its catalogue (lists of 7, 6, 5, 5 and 4 entries) and the service it could obtain |
| ContentCurator.ContentCuratorAgent.FindResources | src/agents/content_curator_agent.py:216-237 | the whole chosen list is appended once to the memory's recommendations under the goal as given, nothing else in the memory changes, and at most its first five entries are returned |
| ContentCurator.ContentCuratorAgent.GetResourcesForTopic | src/agents/content_curator_agent.py:239-252 | at most the first five entries of the list the topic routes to, in order |
| ContentCurator.ContentCuratorAgent.GenerateLessonContent | src/agents/content_curator_agent.py:254-276 | with a configured service whose explanation is longer than 50 characters, that explanation; without one, or with a short explanation, the placeholder page |
| ResourceCatalogue.BuildQuery | agents/research_agent.py:193-198 | the query starts with the level (default beginner) and a space, ends with " tutorial", and contains the domain (default programming) and the goal |
| ResourceCatalogue.CategoryForProfile | agents/research_agent.py:200-216 | the general list is chosen iff no keyword group occurs in the lowercased goal or the lowercased domain (default general) |
| ResourceCatalogue.PythonProfileGetsPythonList | agents/research_agent.py:206-207 | a goal or domain mentioning Python gets the Python list, whatever else it mentions |
| ResourceCatalogue.CategoryForTopic | agents/research_agent.py:223-236 | the general list is chosen iff no keyword group of the shorter topic groups occurs in the lowercased topic |
| ResourceCatalogue.PythonTopicGetsPythonList | agents/research_agent.py:227-228 | a topic mentioning Python gets the Python list |
| ResourceCatalogue.FirstFive | agents/research_agent.py:221 | the first `min(5, n)` entries of the list, in order |
| Research.ResearchAgent.constructor | agents/research_agent.py:13-191 | the agent keeps the given memory and its catalogue, whose lists have 7, 6, 5, 5 and 4 entries |
| Research.ResearchAgent.FindResources | agents/research_agent.py:200-221 | the whole chosen list is appended once to the memory's recommendations under the goal as given, nothing else in the memory changes, and at most its first five entries are returned |
| Research.ResearchAgent.GetResourcesForTopic | agents/research_agent.py:223-236 | at most the first five entries of the list the topic routes to, in order |
| Curriculum.FallbackCurriculumShape | src/agents/curriculum_agent.py:217-268 | the placeholder curriculum is tagged fallback, keeps the goal and has `weeks * 7` days numbered 1, 2, ... without gaps, each with the three set-up tasks and an empty quiz; `total_days` counts them |
| Curriculum.FallbackCurriculumWeeks | src/agents/curriculum_agent.py:225-229 | placeholder week `w` holds exactly the days `7w - 6` to `7w` |
| Curriculum.FallbackTasksShape | src/agents/curriculum_agent.py:231-251 | every placeholder day has a theory, a practice and a quiz task of 55 minutes in all |
| Curriculum.BuildFallbackCurriculum | src/agents/curriculum_agent.py:217-268 | the loop builds exactly the placeholder curriculum described above |
| Curriculum.RequestedDays | src/agents/curriculum_agent.py:66 | the prompt asks for the requested days capped at 14 |
| Curriculum.ActualWeeks | src/agents/curriculum_agent.py:67 | the days rounded up to whole weeks: the fewest weeks that hold them |
| Curriculum.AiCurriculum | src/agents/curriculum_agent.py:62-215 | a generated curriculum only when the call succeeded, the cleaned reply is at most 100000 characters, parses to an object and has lessons; it is then that object tagged "ai"; anything else gives the placeholder |
| Curriculum.GenerateCurriculum | src/agents/curriculum_agent.py:36-60 | the generated curriculum when a model exists and produces one with lessons, else the placeholder built by its loop |
| Curriculum.CurriculumNeverEmpty | src/agents/curriculum_agent.py:36-60 | for a positive duration the curriculum handed out always has lessons: a generated one only with a model and tagged "ai", the placeholder with `weeks * 7` days |
| Curriculum.DomainTopics | src/agents/curriculum_agent.py:347-448 | a domain list cut to the first `total_days` topics |
| Curriculum.BuildGeneralTopics | src/agents/curriculum_agent.py:450-471 | the loop appends one titled topic per day |
| Curriculum.GeneralTopicsShape | src/agents/curriculum_agent.py:450-471 | the general list has one topic per day, and the title at position `i` names base topic `i mod 8` |
| Curriculum.TopicListFor | src/agents/curriculum_agent.py:280-296 | the general list is chosen iff no keyword group, the AI group included, occurs in the lowercased goal |
| Curriculum.PythonGoalGetsPythonTopics | src/agents/curriculum_agent.py:283-284 | a goal mentioning Python gets the Python topics, whatever else it mentions |
| Curriculum.TopicsOf | src/agents/curriculum_agent.py:280-296 | never more topics than days; the general list has exactly one per day |
| Curriculum.Links | src/agents/curriculum_agent.py:473-502 | at most three links, and none exactly for the no-match case |
| Curriculum.ResourcesForTopic | src/agents/curriculum_agent.py:473-502 | at most three links; none iff no keyword group occurs in the lowercased goal |
| Curriculum.PythonGoalGetsPythonLinks | src/agents/curriculum_agent.py:475-479 | a goal mentioning Python gets the Python links |
| Roadmap.BaseLessons | src/agents/roadmap_agent.py:112-244 | five stored Python days, two web, two data, one English and one general |
| Roadmap.KeyFor | src/agents/roadmap_agent.py:61-72 | the general templates are chosen iff no keyword group occurs in the lowercased goal |
| Roadmap.PythonGoalGetsPythonKey | src/agents/roadmap_agent.py:63-64 | a goal mentioning Python gets the Python templates, whatever else it mentions |
| Roadmap.StretchedShape | src/agents/roadmap_agent.py:77-87 | the stretched curriculum has one lesson per day numbered 1, 2, ...; day `i + 1` copies template `i mod |base|`, its theme marked as a repeat exactly from the second pass on |
| Roadmap.StretchedPeriodic | src/agents/roadmap_agent.py:80-87 | days `|base|` apart share tasks, objectives and tip: the curriculum repeats with the period of its template count |
| Roadmap.BuildFallbackCurriculum | src/agents/roadmap_agent.py:59-95 | the fallback is the goal's templates stretched to `weeks * 7` days, with goal, level, duration and summary |
| Roadmap.Stretch | src/agents/roadmap_agent.py:77-87 | the loop builds exactly the stretched lessons |
| Roadmap.GenerateCurriculum | src/agents/roadmap_agent.py:42-57 | the result is always the fallback, with exactly `weeks * 7` lessons |
| Roadmap.PickDay | src/agents/roadmap_agent.py:97-108 | nothing iff the list is empty; the requested day when it exists; the last day otherwise |
| Roadmap.DayPlanClamps | src/agents/roadmap_agent.py:97-108 | a day plan always exists; days 1 to 28 get their own lesson and every other day, zero and negative ones included, gets day 28's |
| Planning.DomainFor | src/agents/planning_agent.py:51-66 | the general curriculum is chosen iff no keyword group occurs in the lowercased goal |
| Planning.PythonGoalGetsPythonDomain | src/agents/planning_agent.py:52-54 | a goal mentioning Python gets the Python curriculum, whatever else it mentions |
| Planning.DayIndex | src/agents/planning_agent.py:69 | the index always lies in the curriculum, and days 1 to n map to their own position |
| Planning.DayIndexCycles | src/agents/planning_agent.py:69 | day `day + n` of an `n`-day curriculum is day `day` again |
| Planning.ScaledDuration | src/agents/planning_agent.py:103-108 | a scaled duration is never below 5 minutes; with no positive original total, or when the day's minutes equal it, the duration is kept (raised to 5) |
| Planning.ScaledTasksShape | src/agents/planning_agent.py:99-111 | scaling keeps the tasks, their order and every other field, and gives each an explicit duration of at least 5 minutes |
| Planning.ScaleToOwnTotal | src/agents/planning_agent.py:102-108 | scaled to its own total, every duration stays, raised to 5 where shorter |
| Planning.ScaleTasks | src/agents/planning_agent.py:99-111 | the two loops (the sum, then one copy per task) give exactly the scaled tasks |
| Planning.AdjustPlan | src/agents/planning_agent.py:113-122 | only the tip changes: replaced below 20 (a missing score counts 0), prefixed with praise from 40 on, left alone in between |
| Planning.DailyPlanShape | src/agents/planning_agent.py:38-97 | the plan echoes the day and the domain, carries the theme, objectives and one scaled task per task of day `(day - 1) mod n` of the domain's curriculum and the first three resources; without a usable evaluation the tip is that day's |
| Planning.DailyPlanCycles | src/agents/planning_agent.py:68-70 | day `day + n` gets day `day`'s plan again, the day number aside |
| Planning.PlanningAgent.constructor | src/agents/planning_agent.py:19-36 | the agent keeps the memory and the five stored curricula, of 14, 2, 1, 1 and 1 days |
| Planning.PlanningAgent.GenerateDailyPlan | src/agents/planning_agent.py:38-97 | the plan is the daily plan above, appended once to the memory's daily plans when a memory is set, nothing else in the memory changing |
| LegacyPlanning.LegacyDailyPlan | agents/planning_agent.py:10-22 | a learning plan for the day with reading, quiz and coding tasks (reading and coding equally long, the quiz no longer; 10 and 5 minutes when the hours are unset) and the first three resources |
| LegacyPlanning.LegacyPlanningAgent.constructor | agents/planning_agent.py:5-7 | the agent keeps the given memory |
| LegacyPlanning.LegacyPlanningAgent.GenerateDailyPlan | agents/planning_agent.py:10-25 | the plan above, appended once to the memory's daily plans when a memory is set, nothing else in the memory changing |
| Progress.PerformanceLevelMonotone | src/agents/progress_agent.py:74-82 | a higher score or a better quiz never gives a worse level; without a quiz the level is excellent from 40, good from 30, average from 20, and needs improvement below 20 |
| Progress.SuggestionsCount | src/agents/progress_agent.py:84-115 | one message per rule that fires: the task rule is silent only at exactly two tasks, the quiz rule only without a quiz, the difficulty rule only at difficulty 3; so at most three messages |
| Progress.PerformanceLevel | src/agents/progress_agent.py:74-82 | one of four levels; excellent iff the score is at least 40 and any quiz at least 80; otherwise good iff the score is at least 30 and any quiz at least 60; needs improvement iff the score is below 20; average in every remaining case |
| Progress.GenerateSuggestions | src/agents/progress_agent.py:84-115 | the appends give the task, quiz and difficulty messages in that order |
| Progress.EvaluationOf | src/agents/progress_agent.py:14-44 | the metrics carry the daily score, its level, the raw report, no quiz analysis and at most three suggestions from the task, quiz and difficulty rules |
| Progress.EvaluationWithQuizExtends | src/agents/progress_agent.py:46-72 | with a quiz the score and level are the day's; the suggestions start with the day's own and add the headline plus one line per weak and per strong topic |
| Progress.Scores | src/agents/progress_agent.py:132 | one daily score per stored evaluation, in order |
| Progress.MaxOf | src/agents/progress_agent.py:138 | the maximum is one of the scores and no score exceeds it |
| Progress.SummaryOf | src/agents/progress_agent.py:129-140 | no data iff the history is empty; otherwise the number of days, the best score, and an improving trend iff the last score beats the first |
| Progress.ProgressAgent.constructor | src/agents/progress_agent.py:7-9 | the agent keeps the memory and gets a fresh scorer with empty history |
| Progress.ProgressAgent.Evaluate | src/agents/progress_agent.py:14-44 | the metrics carry the daily score, its level and the suggestions, and are appended once to the memory's performance list when a memory is set, nothing else changing |
| Progress.ProgressAgent.EvaluateWithQuiz | src/agents/progress_agent.py:46-72 | the quiz analysis becomes the scorer's newest history entry; the memory receives the plain day metrics; the returned metrics add the analysis and the quiz suggestions |
| DayReports.TruncDiv | src/agents/progress_agent.py:24 | the quotient truncated toward zero, as Python's `int(a / b)` |
| DayReports.DailyScore | src/agents/progress_agent.py:14-26 | without a quiz the score is ten per completed task, unclamped; with a quiz it is never negative, and at difficulty 3 it adds a tenth of a non-negative quiz score to the tasks' points |
| DayReports.DailyScoreMonotone | src/agents/progress_agent.py:14-26 | more completed tasks or a better quiz never lower the score, and a harder day never raises it |
| LegacyEvaluation.EvaluationAgent.constructor | agents/evaluation_agent.py:5-7 | the agent keeps the given memory |
| LegacyEvaluation.EvaluationAgent.Evaluate | agents/evaluation_agent.py:10-25 | the metrics are the daily score and the raw report, appended once to the memory's performance list when a memory is set, nothing else changing |
| LegacyProfile.ProfileOf | agents/profile_agent.py:10-22 | the profile copies the goal and creation time, defaults level, style and daily time, and has the Python domain iff the lowercased goal mentions Python, else the general one |
| LegacyProfile.ProfileAgent.constructor | agents/profile_agent.py:5-7 | the agent keeps the given memory |
| LegacyProfile.ProfileAgent.Analyze | agents/profile_agent.py:10-27 | the profile above, stored as the memory's profile when a memory is set, nothing else changing |
| Programs.NumberedDays | models/programs.py:836 | the short weeks have exactly the days 1 to 7 |
| Programs.GetProgram | models/programs.py:906-920 | a program exactly for the three registered ids, carrying the requested id |
| Programs.GetWeekContent | models/programs.py:935-941 | nothing for an unknown program; otherwise a week exactly when the program's curriculum has it |
| Programs.GetDayContent | models/programs.py:923-932 | a day exactly when the week exists and has that day |
| Programs.PythonBasicsComplete | models/programs.py:68-850 | every day 1 to 7 of the four Python weeks has content |
| Programs.WebDevelopmentHasNoDays | models/programs.py:853-876 | the web program has weeks 1 to 6 and no day with content |
| Programs.DataScienceHasNoWeeks | models/programs.py:883-903 | the data science program has no week and no day |
| GoogleSearch.ClassifyKinds | tools/google_search.py:88-102 | every URL gets one of the six kinds, and the plain website kind exactly when no keyword group occurs in the lowercased URL |
| GoogleSearch.YoutubeIsVideo | tools/google_search.py:90-92 | a YouTube URL is a video whatever else it contains, since the video test comes first |
| GoogleSearch.GithubIsCodeRepository | tools/google_search.py:90-94 | a GitHub URL without a video keyword is a code repository |
| GoogleSearch.WithSource | tools/google_search.py:157-158 | marking keeps one result per input result |
| GoogleSearch.MockResultsShape | tools/google_search.py:104-160 | a Python query gives the first `min(max_results, 5)` canned Python results, any other query exactly the requested number of generic results at distinct URLs, every result marked as coming from the mock |
| GoogleSearch.Tagged | tools/google_search.py:81-84 | tagging keeps one result per input result |
| GoogleSearch.TaggedShape | tools/google_search.py:81-84 | every result stays in place with its URL, title and source, and records the topic, the level as given and the kind its URL shows |
| GoogleSearch.GoogleSearchTool.constructor | tools/google_search.py:12-23 | non-empty arguments win over the environment; a client exists exactly when both keys are non-empty, the client library is present and building it succeeds |
| GoogleSearch.GoogleSearchTool.MockSearch | tools/google_search.py:104-160 | the mock results described by `MockResultsShape` |
| GoogleSearch.GoogleSearchTool.Search | tools/google_search.py:28-55 | the mock when the tool is unconfigured, has no client or the call fails; otherwise one result per reply item, with missing fields empty, marked as coming from the API |
| GoogleSearch.GoogleSearchTool.SearchLearningResources | tools/google_search.py:57-86 | the search results of the query built from the topic and the translated level, tagged as `TaggedShape` describes |
| GoogleSearch.TagAll | tools/google_search.py:81-84 | the loop's results are the tagged list |
| Users.FirstKey | src/models/user.py:131-133 | the first index whose key matches, and no earlier one matches; nothing exactly when no key matches |
| Users.Locate | src/models/user.py:232-236 | the search loop finds the first entry with the id, or reports none |
| Users.PostInitMigrates | src/models/user.py:38-62 | a record with a legacy curriculum and no entries gets exactly one active entry `curr_<stamp>` copying the legacy curriculum, goal input, user level, day and completed days, with an empty quiz dict, the clock's creation time and no archive time, which becomes the active one; nothing else changes, and running the step again changes nothing |
| Users.Put | src/models/user.py:116 | storing a record replaces the first one with its id in place, or appends it at the end; every other record keeps its position and value |
| Users.LoginMatch | src/models/user.py:131-133 | the first stored user with the email and the password hash; none exactly when no user matches both |
| Users.ProgressSpec | src/models/user.py:159-174 | the lesson list gains the lesson and never a duplicate, the hours add up, the quiz list grows by one exactly when a score is given, and nothing else changes |
| Users.AdvanceSpec | src/models/user.py:176-184 | the running day number over weeks grows by exactly one and a day in 1 to 7 stays in 1 to 7; only day and week change |
| Users.CurriculumIdFor | src/models/user.py:210-211 | the id is never empty and is the given one when that is non-empty |
| Users.UpsertSpec | src/models/user.py:230-239 | replacing keeps every other entry and the length, appending keeps every entry and adds one; either way the first entry with the id is the new one |
| Users.CurriculumView | src/models/user.py:255-285 | an explicit id gives the entry with that id exactly when one exists; without one, the active entry exactly when it exists, else the legacy fields' view exactly when a legacy curriculum is stored, else nothing |
| Users.SaveThenLoad | src/models/user.py:205-285 | after a save, loading with no id or with the saved id gives back exactly the saved entry |
| Users.ActivateThenLoad | src/models/user.py:294-313 | after switching to an entry with a non-empty id, loading with no id gives that entry back |
| Users.ArchivedAt | src/models/user.py:319-323 | the matching entry is marked archived with the time; no entry is removed and every other entry is unchanged |
| Users.UpdateThenLoad | src/models/user.py:327-344 | only the active entry and the legacy day fields change, no entry is added or removed, and a later load finds a curriculum exactly when it did before, now at the new day |
| Users.UserManager.Fresh | src/models/user.py:68-73 | a manager over a missing file starts with no users |
| Users.UserManager.Existing | src/models/user.py:68-73 | a manager over an existing file keeps the stored users |
| Users.UserManager.GetUser | src/models/user.py:137-142 | a record exactly when one is stored under the id: the first stored record with that id, after its post-load migration |
| Users.UserManager.Register | src/models/user.py:89-119 | refused, with the first clash's message and nothing written, exactly when some user has the email or the username; otherwise the new record is stored under the id built from the user count and the clock, which is returned |
| Users.UserManager.Login | src/models/user.py:121-135 | succeeds exactly when some stored user has the email and the password's hash, and then returns the first such user |
| Users.UserManager.RecordProgress | src/models/user.py:159-174 | a known user's record is replaced by the one `ProgressSpec` describes; an unknown id changes nothing |
| Users.UserManager.AdvanceDay | src/models/user.py:176-184 | a known user's record moves on one day as `AdvanceSpec` describes; an unknown id changes nothing |
| Users.UserManager.SaveCurriculum | src/models/user.py:205-253 | a known user's record stores the entry and makes it active as `SaveThenLoad` describes, and its id is returned; an unknown id changes nothing and returns nothing |
| Users.UserManager.LoadCurriculum | src/models/user.py:255-285 | nothing for an unknown user, else the view `CurriculumView` describes |
| Users.UserManager.SetActiveCurriculum | src/models/user.py:294-313 | true exactly when the user and an entry with the id exist, and then that entry is active and mirrored into the legacy fields; otherwise false and nothing changes |
| Users.UserManager.ArchiveCurriculum | src/models/user.py:315-325 | true exactly when the user and an entry with the id exist, and then that entry is archived as `ArchivedAt` describes; otherwise false and nothing changes |
| Users.UserManager.UpdateProgress | src/models/user.py:327-344 | a known user's record takes the new progress as `UpdateThenLoad` describes; an unknown id changes nothing |
| Users.ApplySave | src/models/user.py:226-250 | the loop and the assignments give the stored-and-activated record |
| Users.PutKeepsKeysDistinct | src/models/user.py:116 | storing a record under its own id keeps the user ids distinct |

## Left out

- Gemini itself (`genai.configure`, `GenerativeModel`, `generate_content`) and `json.loads`: they are foreign code, so the reply text and the parse result are inputs.
- The real Custom Search request and the client `build` call in `tools/google_search.py:33-55`: they are network I/O, so the API reply is an input; only the fallback to the mock and the reply-item shaping are modelled.
- File persistence (`_load_data`/`_save_data` in `src/models/user.py:75-83`, `_read`/`_write` in `src/memory/memory_bank.py:14-22`): the document is object state, with no concurrent writers and no JSON artefacts such as integer keys turning into strings.
- SHA-256 and `datetime.now()`: the hash is an uninterpreted function parameter and the clock a parameter, one instant per operation, so a stamp never differs between two calls of one operation.
- Floating point: every percentage is the exact floor of `100 * part / whole`, while Python's `int((part / whole) * 100)` can land one lower at a few boundaries (29 out of 100 gives 28); study hours and the `_scale_tasks` factor are exact reals.
- `Text.Lower` covers ASCII and the Turkish capitals Ç, Ğ, Ö, Ş, Ü only, without the dotted and dotless I rules.
- The canned question banks, resource catalogues, lesson bodies and program contents are opaque inputs; only their counts, keys and the fields a property reads are kept.
- `AiService.ExplainTopic`: the error text an exception produces is a parameter, since it embeds the exception's message.
- Items the JSON parser returns that are not dicts, and `options` values that are not lists, are not modelled; quiz scores and answers are integers and strings.
- A `None` user profile in the memory bank is modelled as the empty profile, which is what its only reader returns for it.
- `memory/memory_bank.py` of the first tree is not part of this model; the first-tree agents take the second tree's memory bank as their memory.
- `get_progress_summary` in `src/agents/progress_agent.py:120-142`: the average score (a rounded float) and the exception path are not modelled; `Progress.ProgressAgent.GetProgressSummary` has no contract beyond `Progress.SummaryOf`.
- `generate_quiz_for_topic` in `src/agents/progress_agent.py:117-118` delegates unchanged to the sample quiz generator, which `QuizScoring.GenerateSampleQuiz` models.
- `get_weekly_overview` in `src/agents/planning_agent.py:765` works on float hours and fixed text.
- The lesson assembly of the retired `_generate_basic_curriculum_DEPRECATED` in `src/agents/curriculum_agent.py:298-345`: only its topic choice is modelled; nothing calls it.
- `get_all_programs` in `models/programs.py` returns the registered constant and adds nothing to the lookups.
- The unused `task_base` value computed at `agents/planning_agent.py:13`: nothing reads it.
- `UserManager.get_user_stats`, `select_program`, `get_all_curriculums` and `update_user` as an operation of its own: averages and rounding are float, and the others are plain reads or the write every modelled operation ends with.
- Explicit JSON `null` values in dicts read with `.get(key, default)` are modelled as missing keys, so they read as the default. In the source a present `null` is returned as `None`: `completed_tasks: null` then fails at `completed * 10` (`src/agents/progress_agent.py:21`, `agents/evaluation_agent.py:17`), `perceived_difficulty: null` fails at `diff - 3` when a quiz is given, and `current_level: null` gives the profile level `None` (`src/agents/assessment_agent.py:36`). These failure and `None` paths are not modelled.
- AiService.IsValidItem, AiService.WithTopic, LevelAssessment.IsValid: a key present with JSON `null` is modelled as a missing key. The source tests key presence (`key in q`, `"topic" not in q`), so it accepts an item whose required key holds `null` and keeps a `null` topic; the model rejects such an item, and so can decide the `n // 2` acceptance threshold differently, and fills in such a topic.
- LegacyProfile.ProfileOf: takes the daily available time as a number. The source's `float(...)` at `agents/profile_agent.py:15` also accepts numeric strings and raises `ValueError` on any other string; neither case is modelled.
- AssessmentAgent.BuildProfile: takes the daily time as a number. The source's `float(...)` also accepts numeric strings and raises `ValueError` on any other string; neither case is modelled.
- Stored `null` lists in a user record read as empty lists, and `.get` defaults on curriculum entries missing a key are not modelled: entries always carry their keys.
- `Users.UserManager.SaveCurriculum`: requires that the goal input's `goal` is text or absent. At `src/models/user.py:250` the source raises on a null, numeric, boolean or object goal; a list goal is sliced to its first 50 items and stored as a list in `selected_program`, which the model excludes.
- The module-level `google_search` function and the `get_*_agent` singleton accessors: they are hidden global state over the modelled classes.
- Printing, the Streamlit app, the demo scripts and the orchestrator: they are user interface and glue.

=== FILE: agent_quiz.dfy ===
/**
 * The quiz entry point shared by the content agent and the quiz-and-validation agent of the
 * second tree: ask the AI service when one is configured, hand out its questions when there
 * are any, and otherwise a short placeholder quiz asking the user to configure the API key.
 */
module AgentQuiz {
  import opened Wrappers
  import opened Text
  import opened AiService

  /** A placeholder question (`is_fallback: True`). */
  datatype FallbackItem = FallbackItem(questionId: string, question: string, options: seq<string>,
                                       correctAnswer: string, topic: string, isFallback: bool)

  /** The quiz an agent hands out: the service's questions or the placeholders. */
  datatype Quiz = AiQuiz(items: seq<Item>) | FallbackQuiz(fallback: seq<FallbackItem>)

  const FallbackOptions: seq<string> :=
    ["API key ekleyin", ".env dosyasını kontrol edin", "Gemini API'yi aktifleştirin", "Yöneticiye başvurun"]

  /** `_is_ai_available`: a service object exists and has a key. */
  predicate AiAvailable(service: Option<Service>)
  {
    service.Some? && IsConfigured(service.value)
  }

  /** `_get_minimal_fallback_quiz`: `min(n, 3)` placeholders numbered `fallback_1`, ..., whose
   *  answer is the first option; `text` is the agent's question wording. */
  function MinimalFallbackQuiz(topic: string, n: int, text: string): (qs: seq<FallbackItem>)
    ensures |qs| == RangeLen(Min(n, 3)) && |qs| <= 3
    ensures forall i :: 0 <= i < |qs| ==>
      qs[i].questionId == "fallback_" + NatToString(i + 1) && qs[i].correctAnswer == "API key ekleyin"
      && qs[i].correctAnswer in qs[i].options && qs[i].topic == topic && qs[i].isFallback
  {
    seq(RangeLen(Min(n, 3)), i requires 0 <= i =>
      FallbackItem("fallback_" + NatToString(i + 1), text, FallbackOptions, "API key ekleyin", topic, true))
  }

  /** `generate_quiz`: the service's questions when the service is configured and returns a
   *  non-empty list, else the placeholders. */
  function GenerateQuiz(service: Option<Service>, topic: string, n: int, reply: Option<string>,
                        parse: string -> QuizParse, text: string): (q: Quiz)
    ensures q.AiQuiz? <==> AiAvailable(service) && |QuizQuestions(service.value, topic, n, reply, parse)| > 0
    ensures q.AiQuiz? ==> q.items == QuizQuestions(service.value, topic, n, reply, parse)
    ensures q.FallbackQuiz? ==> q.fallback == MinimalFallbackQuiz(topic, n, text)
  {
    if AiAvailable(service) then
      var questions := QuizQuestions(service.value, topic, n, reply, parse);
      if |questions| > 0 then AiQuiz(questions) else FallbackQuiz(MinimalFallbackQuiz(topic, n, text))
    else FallbackQuiz(MinimalFallbackQuiz(topic, n, text))
  }

  /** A key without a working model (library missing, or the client failed to start) gives
   *  the service's mock quiz, never the placeholders, as soon as a question is asked for. */
  lemma KeyWithoutModelServesMock(service: Option<Service>, topic: string, n: int, reply: Option<string>,
                                  parse: string -> QuizParse, text: string)
    requires AiAvailable(service) && !service.value.hasModel && n > 0
    ensures GenerateQuiz(service, topic, n, reply, parse, text) == AiQuiz(MockQuiz(topic, n))
  {
  }

  /** Every handed-out question, generated or placeholder, has its answer among its options,
   *  and a placeholder quiz never has more than three questions. */
  lemma QuizAnswerable(service: Option<Service>, topic: string, n: int, reply: Option<string>,
                       parse: string -> QuizParse, text: string)
    ensures var q := GenerateQuiz(service, topic, n, reply, parse, text);
      (q.AiQuiz? ==> forall i :: 0 <= i < |q.items| ==> IsValidItem(q.items[i]))
      && (q.FallbackQuiz? ==>
            |q.fallback| <= 3 && forall i :: 0 <= i < |q.fallback| ==> q.fallback[i].correctAnswer in q.fallback[i].options)
  {
    if AiAvailable(service) {
      QuizAlwaysAnswerable(service.value, topic, n, reply, parse);
    }
  }
}

=== FILE: ai_service.dfy ===
/**
 * The Gemini wrapper of the second agent tree: configuration, the personalised plan, the
 * validated quiz generation with its acceptance threshold, the performance analysis, topic
 * and wrong-answer explanations, and the canned replies used whenever no model is available
 * or its reply is unusable. The model's reply is an input (`None`: the call raised) and the
 * JSON parser is a function-typed input.
 */
module AiService {
  import opened Wrappers
  import opened Text
  import opened Percentages
  import opened Fence

  /** What the constructor leaves behind: the key in use and whether a model object exists. */
  datatype Service = Service(apiKey: string, hasModel: bool)

  /** `_is_configured`: a non-empty key. */
  predicate IsConfigured(s: Service)
  {
    s.apiKey != ""
  }

  /** `__init__`: the given key unless it is missing or empty, else the environment's key; a
   *  model exists when the key is configured, the client library is installed and starting
   *  the client did not raise. */
  function NewService(apiKey: Option<string>, envKey: string, geminiAvailable: bool, clientStarts: bool): (s: Service)
    ensures apiKey.Some? && apiKey.value != "" ==> s.apiKey == apiKey.value
    ensures IsConfigured(s) <==> (apiKey.Some? && apiKey.value != "") || envKey != ""
    ensures s.hasModel <==> IsConfigured(s) && geminiAvailable && clientStarts
  {
    var key := if apiKey.Some? && apiKey.value != "" then apiKey.value else envKey;
    Service(key, key != "" && geminiAvailable && clientStarts)
  }

  /** A reply built from the model's parsed answer, or the canned fallback. */
  datatype Reply<J, T> = FromModel(value: J) | Mock(fallback: T)

  // ------------------------------------------------------------------------ plans

  datatype Task = Task(task: string, durationMin: int, kind: string, description: string)

  datatype Plan<R> = Plan(planType: string, day: int, theme: string, tasks: seq<Task>,
                          resources: seq<R>, objectives: seq<string>, tips: string, source: string)

  /** `_mock_plan`: theory, quiz and practice sized from the daily hours (default 1), and the
   *  first three resources. */
  function MockPlan<R>(dailyTime: Option<real>, resources: seq<R>, day: int): (p: Plan<R>)
    ensures p.planType == "learning_plan" && p.day == day && p.source == "mock"
    ensures |p.tasks| == 3 && p.tasks[0].kind == "theory" && p.tasks[1].kind == "quiz" && p.tasks[2].kind == "practice"
    ensures |p.resources| == Min(3, |resources|) && p.resources == resources[..|p.resources|]
    ensures dailyTime.GetOr(1.0) >= 0.0 ==>
      p.tasks[0].durationMin == p.tasks[2].durationMin && 0 <= p.tasks[1].durationMin <= p.tasks[0].durationMin
  {
    var hours := dailyTime.GetOr(1.0);
    var long := Trunc(hours * 20.0);
    var short := Trunc(hours * 10.0);
    Plan("learning_plan", day, "Gün " + IntToString(day) + " - Temel Kavramlar",
         [Task("Teori okuma", long, "theory", "Günün konusunu oku ve not al"),
          Task("Mini quiz", short, "quiz", "Öğrenilenleri test et"),
          Task("Pratik egzersiz", long, "practice", "Küçük bir uygulama yap")],
         Take(resources, 3),
         ["Temel kavramları anlama", "Pratik uygulama yapabilme"],
         "Düzenli molalar verin ve not alın!", "mock")
  }

  /** `generate_personalized_plan`: the parsed plan when a model answered with parseable
   *  text (after stripping and unfencing), else the canned plan. */
  function PersonalizedPlan<J, R>(s: Service, dailyTime: Option<real>, resources: seq<R>, day: int,
                                  reply: Option<string>, parse: string -> Option<J>): (r: Reply<J, Plan<R>>)
    ensures r.FromModel? <==> s.hasModel && reply.Some? && parse(Unfence(Strip(reply.value))).Some?
    ensures r.FromModel? ==> r.value == parse(Unfence(Strip(reply.value))).value
    ensures r.Mock? ==> r.fallback == MockPlan(dailyTime, resources, day)
  {
    if !s.hasModel || reply.None? then Mock(MockPlan(dailyTime, resources, day))
    else
      match parse(Unfence(Strip(reply.value)))
      case Some(j) => FromModel(j)
      case None => Mock(MockPlan(dailyTime, resources, day))
  }

  // ------------------------------------------------------------------------ quizzes

  /** One question dict; `None` is a missing key. */
  datatype Item = Item(questionId: Option<string>, question: Option<string>, options: Option<seq<string>>,
                       correctAnswer: Option<string>, topic: Option<string>, difficulty: Option<int>,
                       source: Option<string>)

  /** What the JSON parser made of the cleaned reply. */
  datatype QuizParse = ParseFailed | NotAList | ItemList(items: seq<Item>)

  /** The four required keys are present and the correct answer is one of the options. */
  predicate IsValidItem(q: Item)
  {
    q.questionId.Some? && q.question.Some? && q.options.Some? && q.correctAnswer.Some?
    && q.correctAnswer.value in q.options.value
  }

  const MockOptions: seq<string> := ["Seçenek A", "Seçenek B", "Seçenek C", "Seçenek D"]

  function MockItem(topic: string, i: nat): Item
  {
    Item(Some("q" + NatToString(i + 1)), Some(topic + " ile ilgili örnek soru " + NatToString(i + 1) + "?"),
         Some(MockOptions), Some("Seçenek A"), Some(topic), Some(1), Some("mock"))
  }

  /** `_mock_quiz`: one placeholder question per `range(n)` step, numbered from `q1`, each
   *  answerable by its first option and passing the validation check. */
  function MockQuiz(topic: string, n: int): (qs: seq<Item>)
    ensures |qs| == RangeLen(n)
    ensures forall i :: 0 <= i < |qs| ==>
      qs[i].questionId == Some("q" + NatToString(i + 1)) && qs[i].correctAnswer == Some("Seçenek A")
      && qs[i].topic == Some(topic) && qs[i].source == Some("mock") && IsValidItem(qs[i])
  {
    seq(RangeLen(n), i requires 0 <= i => MockItem(topic, i))
  }

  /** The placeholder ids never repeat. */
  lemma MockQuizIdsDistinct(topic: string, n: int)
    ensures var qs := MockQuiz(topic, n);
      forall i, j :: 0 <= i < j < |qs| ==> qs[i].questionId != qs[j].questionId
  {
    var qs := MockQuiz(topic, n);
    forall i, j | 0 <= i < j < |qs| ensures qs[i].questionId != qs[j].questionId {
      NumberedDistinct("q", i + 1, j + 1);
    }
  }

  /** A kept item without a topic gets the requested one; every other key is untouched. */
  function WithTopic(q: Item, topic: string): (r: Item)
    ensures r.topic.Some? && (q.topic.Some? ==> r == q)
    ensures r == q.(topic := r.topic)
  {
    if q.topic.None? then q.(topic := Some(topic)) else q
  }

  /** The valid items in input order, each with its topic filled in. */
  function ValidItems(items: seq<Item>, topic: string): seq<Item>
    decreases |items|
  {
    if items == [] then []
    else
      var last := items[|items| - 1];
      ValidItems(items[..|items| - 1], topic) + (if IsValidItem(last) then [WithTopic(last, topic)] else [])
  }

  /** The validation keeps exactly the valid items, in order, and only fills in topics. */
  lemma {:induction false} ValidItemsSpec(items: seq<Item>, topic: string)
    ensures var kept, r := Filter(items, IsValidItem), ValidItems(items, topic);
      |r| == |kept| && forall i :: 0 <= i < |r| ==> r[i] == WithTopic(kept[i], topic) && IsValidItem(r[i])
    decreases |items|
  {
    if items != [] {
      ValidItemsSpec(items[..|items| - 1], topic);
    }
  }

  /** The validation loop of `generate_quiz_questions`. */
  method ValidateItems(items: seq<Item>, topic: string) returns (valid: seq<Item>)
    ensures valid == ValidItems(items, topic)
  {
    valid := [];
    var i := 0;
    while i < |items|
      invariant 0 <= i <= |items|
      invariant valid == ValidItems(items[..i], topic)
    {
      var q := items[i];
      if q.questionId.Some? && q.question.Some? && q.options.Some? && q.correctAnswer.Some? {
        if q.correctAnswer.value in q.options.value {
          if q.topic.None? {
            q := q.(topic := Some(topic));
          }
          valid := valid + [q];
        }
      }
      assert items[..i + 1][..i] == items[..i];
      i := i + 1;
    }
    assert items[..i] == items;
  }

  /** What `generate_quiz_questions` returns. */
  function QuizQuestions(s: Service, topic: string, n: int, reply: Option<string>, parse: string -> QuizParse): seq<Item>
  {
    if !s.hasModel || reply.None? then MockQuiz(topic, n)
    else
      match parse(CleanReply(reply.value))
      case ItemList(items) =>
        if |items| == 0 then MockQuiz(topic, n)
        else
          var valid := ValidItems(items, topic);
          if |valid| >= n / 2 then Take(valid, n) else MockQuiz(topic, n)
      case _ => MockQuiz(topic, n)
  }

  /** `generate_quiz_questions`: generated questions when a model answers, else the mock. */
  method GenerateQuizQuestions(s: Service, topic: string, n: int, reply: Option<string>, parse: string -> QuizParse)
    returns (qs: seq<Item>)
    ensures qs == QuizQuestions(s, topic, n, reply, parse)
  {
    if !s.hasModel || reply.None? {
      return MockQuiz(topic, n);
    }
    var parsed := parse(CleanReply(reply.value));
    if !parsed.ItemList? || |parsed.items| == 0 {
      return MockQuiz(topic, n);
    }
    var valid := ValidateItems(parsed.items, topic);
    if |valid| >= n / 2 {
      qs := Take(valid, n);
    } else {
      qs := MockQuiz(topic, n);
    }
  }

  /** The generated questions are used exactly when a model answered with a non-empty list
   *  at least `n // 2` of whose items are valid; they are then the first `n` validated items.
   *  Anything else gives the mock quiz. */
  lemma QuizAccepted(s: Service, topic: string, n: int, reply: Option<string>, parse: string -> QuizParse)
    ensures var qs := QuizQuestions(s, topic, n, reply, parse);
      var accepted := s.hasModel && reply.Some? && parse(CleanReply(reply.value)).ItemList?
        && |parse(CleanReply(reply.value)).items| > 0
        && |Filter(parse(CleanReply(reply.value)).items, IsValidItem)| >= n / 2;
      (accepted ==> qs == Take(ValidItems(parse(CleanReply(reply.value)).items, topic), n)
                    && (n >= 0 ==> |qs| <= n))
      && (!accepted ==> qs == MockQuiz(topic, n))
  {
    if s.hasModel && reply.Some? && parse(CleanReply(reply.value)).ItemList? {
      ValidItemsSpec(parse(CleanReply(reply.value)).items, topic);
    }
  }

  /** Whatever the model says, every question handed out has a topic and its correct answer
   *  among its options. */
  lemma QuizAlwaysAnswerable(s: Service, topic: string, n: int, reply: Option<string>, parse: string -> QuizParse)
    ensures var qs := QuizQuestions(s, topic, n, reply, parse);
      forall i :: 0 <= i < |qs| ==> IsValidItem(qs[i]) && qs[i].topic.Some?
  {
    if s.hasModel && reply.Some? && parse(CleanReply(reply.value)).ItemList? {
      ValidItemsSpec(parse(CleanReply(reply.value)).items, topic);
    }
  }

  /** With at most one question asked for, a non-empty list without a single valid item is
   *  accepted, and the quiz is empty. */
  lemma EmptyQuizForTinyRequests(s: Service, topic: string, n: int, reply: string, parse: string -> QuizParse)
    requires s.hasModel && n <= 1
    requires parse(CleanReply(reply)).ItemList? && |parse(CleanReply(reply)).items| > 0
    requires forall i :: 0 <= i < |parse(CleanReply(reply)).items| ==> !IsValidItem(parse(CleanReply(reply)).items[i])
    ensures QuizQuestions(s, topic, n, Some(reply), parse) == []
  {
    var items := parse(CleanReply(reply)).items;
    FilterNone(items, IsValidItem);
    ValidItemsSpec(items, topic);
  }

  // ------------------------------------------------------------------------ analysis and explanations

  datatype Analysis = Analysis(overallTrend: string, strengths: seq<string>, areasToImprove: seq<string>,
                               recommendations: seq<string>, motivation: string, source: string)

  /** `_mock_analysis`: a fixed "stable" verdict. */
  const MockAnalysis: Analysis := Analysis(
    "stable", ["Düzenli çalışma", "Görevleri tamamlama"], ["Quiz performansı"],
    ["Günlük çalışma süresini koruyun", "Zorlandığınız konuları tekrar edin"],
    "İyi gidiyorsunuz! Devam edin! \U{1F680}", "mock")

  /** `analyze_performance`: the canned analysis without a model or without history, else the
   *  parsed reply, or the canned analysis when the call or the parse fails. */
  function AnalyzePerformance<J, H>(s: Service, history: seq<H>, reply: Option<string>, parse: string -> Option<J>): (r: Reply<J, Analysis>)
    ensures !s.hasModel || history == [] ==> r == Mock(MockAnalysis)
    ensures r.FromModel? <==> s.hasModel && history != [] && reply.Some? && parse(Unfence(Strip(reply.value))).Some?
    ensures r.Mock? ==> r.fallback == MockAnalysis
  {
    if !s.hasModel || history == [] || reply.None? then Mock(MockAnalysis)
    else
      match parse(Unfence(Strip(reply.value)))
      case Some(j) => FromModel(j)
      case None => Mock(MockAnalysis)
  }

  /** `explain_topic`: the stripped reply, a template naming the topic and level when there
   *  is no model, or an apology naming the topic and the error when the call raised. */
  function ExplainTopic(s: Service, topic: string, level: string, reply: Option<string>, error: string): (r: string)
    ensures !s.hasModel ==> Contains(r, topic) && Contains(r, level)
    ensures s.hasModel && reply.Some? ==> r == Strip(reply.value)
    ensures s.hasModel && reply.None? ==> Contains(r, topic) && Contains(r, error)
  {
    if !s.hasModel then
      Fill("\U{1F4DA} ", topic, Fill(" konusu hakkında bilgi: Bu konu ", level, " seviyesinde öğrenilecektir."))
    else if reply.Some? then Strip(reply.value)
    else
      Fill("\U{1F4DA} ", topic, Fill(" konusu hakkında bilgi alınamadı: ", error, ""))
  }

  /** `explain_wrong_answer`: the stripped reply, or (no model, or the call raised) a hint
   *  naming the correct answer. */
  function ExplainWrongAnswer(s: Service, correctAnswer: string, reply: Option<string>): (r: string)
    ensures s.hasModel && reply.Some? ==> r == Strip(reply.value)
    ensures !s.hasModel || reply.None? ==> Contains(r, correctAnswer)
  {
    if s.hasModel && reply.Some? then Strip(reply.value)
    else
      var tail := if !s.hasModel then ". Konuyu tekrar gözden geçirin." else ". Bu konuyu tekrar gözden geçirmenizi öneririz.";
      ContainsMiddle("Doğru cevap: ", correctAnswer, tail);
      "Doğru cevap: " + correctAnswer + tail
  }
}

=== FILE: assessment_agent.dfy ===
/**
 * The assessment agent: profile analysis with keyword domain routing, the weighted level
 * calculation (easy 1, medium 2, hard 3) and the static placement questions.
 */
module AssessmentAgent {
  import opened Wrappers
  import opened Text
  import opened Percentages
  import opened Routing
  import opened MemoryStore

  // ------------------------------------------------------------- analyze_user_profile

  /** The keys `analyze_user_profile` reads; `None` is a missing key. */
  datatype UserInput = UserInput(
    goal: Option<string>,
    currentLevel: Option<string>,
    dailyTime: Option<real>,
    dailyAvailableTime: Option<real>,
    preferredLearningStyle: Option<string>,
    createdAt: Option<string>)

  datatype Profile = Profile(
    goal: Option<string>,
    level: string,
    dailyTime: real,
    style: string,
    createdAt: string,
    domain: string)

  /** The keyword groups, tried in this order on the lowercased goal. */
  const DomainRoutes: seq<Route<string>> := [
    Route(["python"], "python"),
    Route(["web", "html", "css", "js", "javascript"], "web"),
    Route(["data", "veri", "analiz", "pandas"], "data"),
    Route(["english", "ingilizce"], "english")
  ]

  /** The learning domain of a goal (`None` and "" alike give no hit). */
  function DomainOf(goal: Option<string>): (r: string)
    ensures Contains(Lower(goal.GetOr("")), "python") ==> r == "python"
    ensures r == "python" || r == "web" || r == "data" || r == "english" || r == "general"
    ensures r == "general" <==>
      forall j :: 0 <= j < |DomainRoutes| ==> !ContainsAny(Lower(goal.GetOr("")), DomainRoutes[j].keywords)
  {
    var g := Lower(goal.GetOr(""));
    ContainsAnySingle(g, "python");
    FirstMatch(g, DomainRoutes, "general")
  }

  /** The profile built from the input, with the defaults of the source; `now` stands for
   *  the clock reading used when the input has no creation time. */
  function BuildProfile(input: UserInput, now: string): (p: Profile)
    ensures p.goal == input.goal
    ensures p.level == (if input.currentLevel.Some? then input.currentLevel.value else "unknown")
    ensures p.style == (if input.preferredLearningStyle.Some? then input.preferredLearningStyle.value else "balanced")
    ensures input.dailyTime.Some? ==> p.dailyTime == input.dailyTime.value
    ensures input.dailyTime.None? && input.dailyAvailableTime.Some? ==> p.dailyTime == input.dailyAvailableTime.value
    ensures input.dailyTime.None? && input.dailyAvailableTime.None? ==> p.dailyTime == 1.0
    ensures p.createdAt == (if input.createdAt.Some? then input.createdAt.value else now)
    ensures p.domain == DomainOf(input.goal)
  {
    Profile(
      input.goal,
      input.currentLevel.GetOr("unknown"),
      input.dailyTime.GetOr(input.dailyAvailableTime.GetOr(1.0)),
      input.preferredLearningStyle.GetOr("balanced"),
      input.createdAt.GetOr(now),
      DomainOf(input.goal))
  }

  // ------------------------------------------------------------------ calculate_level

  /** A question's `id` as stored: `str(q.get("id"))` is its answer key. */
  datatype QuestionId = IntId(n: int) | TextId(s: string) | NoId

  function IdKey(id: QuestionId): string
  {
    match id
    case IntId(n) => IntToString(n)
    case TextId(s) => s
    case NoId => "None"
  }

  /** The keys `calculate_level` reads from a question. */
  datatype LevelQuestion = LevelQuestion(id: QuestionId, difficulty: Option<string>, correctAnswer: Option<string>)

  type Answers = map<string, string>

  /** `q.get("difficulty", "medium")`. */
  function DifficultyOf(q: LevelQuestion): string
  {
    q.difficulty.GetOr("medium")
  }

  /** The weight of a difficulty tag: easy 1, medium 2, hard 3, anything else 1. */
  function Points(difficulty: string): (p: int)
    ensures 1 <= p <= 3
    ensures p == 3 <==> difficulty == "hard"
    ensures p == 2 <==> difficulty == "medium"
  {
    if difficulty == "easy" then 1
    else if difficulty == "medium" then 2
    else if difficulty == "hard" then 3
    else 1
  }

  /** `user_ans and user_ans == correct`: an answer stored under the id's key, non-empty,
   *  and equal to the question's correct answer. */
  predicate Hit(answers: Answers, q: LevelQuestion)
  {
    IdKey(q.id) in answers && answers[IdKey(q.id)] != "" && q.correctAnswer == Some(answers[IdKey(q.id)])
  }

  /** The counters of the scoring loop. */
  datatype Tally = Tally(
    correct: int, earned: int, possible: int,
    easyHit: int, easyTotal: int,
    mediumHit: int, mediumTotal: int,
    hardHit: int, hardTotal: int)

  /** One iteration of the loop. */
  function Step(t: Tally, answers: Answers, q: LevelQuestion): Tally
  {
    var d := DifficultyOf(q);
    var pts := Points(d);
    var hit := Hit(answers, q);
    Tally(
      t.correct + (if hit then 1 else 0),
      t.earned + (if hit then pts else 0),
      t.possible + pts,
      t.easyHit + (if hit && d == "easy" then 1 else 0),
      t.easyTotal + (if d == "easy" then 1 else 0),
      t.mediumHit + (if hit && d == "medium" then 1 else 0),
      t.mediumTotal + (if d == "medium" then 1 else 0),
      t.hardHit + (if hit && d == "hard" then 1 else 0),
      t.hardTotal + (if d == "hard" then 1 else 0))
  }

  const NoTally: Tally := Tally(0, 0, 0, 0, 0, 0, 0, 0, 0)

  /** The counters after the loop has seen `qs`. */
  function TallyOf(answers: Answers, qs: seq<LevelQuestion>): Tally
  {
    if qs == [] then NoTally
    else Step(TallyOf(answers, qs[..|qs| - 1]), answers, qs[|qs| - 1])
  }

  /** The counters stay consistent: every hit is also counted in its band and in the
   *  totals, the earned weight never exceeds the possible weight, and every question
   *  adds between 1 and 3 to the possible weight. */
  predicate Consistent(t: Tally, n: int)
  {
    0 <= t.correct <= n && n <= t.possible <= 3 * n && 0 <= t.earned <= t.possible
    && 0 <= t.easyHit <= t.easyTotal && 0 <= t.mediumHit <= t.mediumTotal && 0 <= t.hardHit <= t.hardTotal
    && t.easyTotal + t.mediumTotal + t.hardTotal <= n
  }

  lemma TallyStep(answers: Answers, qs: seq<LevelQuestion>, i: int)
    requires 0 <= i < |qs|
    ensures TallyOf(answers, qs[..i + 1]) == Step(TallyOf(answers, qs[..i]), answers, qs[i])
  {
    assert qs[..i + 1][..i] == qs[..i];
  }

  lemma {:induction false} TallyConsistent(answers: Answers, qs: seq<LevelQuestion>)
    ensures Consistent(TallyOf(answers, qs), |qs|)
  {
    if qs != [] {
      TallyConsistent(answers, qs[..|qs| - 1]);
    }
  }

  /** Every question answered correctly earns the whole possible weight. */
  lemma {:induction false} AllHitsEarnEverything(answers: Answers, qs: seq<LevelQuestion>)
    requires forall i :: 0 <= i < |qs| ==> Hit(answers, qs[i])
    ensures TallyOf(answers, qs).earned == TallyOf(answers, qs).possible
    ensures TallyOf(answers, qs).correct == |qs|
  {
    if qs != [] {
      AllHitsEarnEverything(answers, qs[..|qs| - 1]);
    }
  }

  datatype LevelDetails = LevelDetails(
    recommendedStartDay: int,
    easyScore: int,
    mediumScore: int,
    hardScore: int,
    strengths: seq<string>,
    weaknesses: seq<string>,
    summary: string)

  /** The returned dict; `details` is `None` for the three-key result of an empty battery. */
  datatype LevelReport = LevelReport(level: string, levelTr: string, score: int, details: Option<LevelDetails>)

  /** `hit / total > 0.6` and friends, as exact comparisons of integers. */
  function Strengths(t: Tally): (r: seq<string>)
    ensures |r| <= 2
    ensures "Zor konularda yetkinlik" in r <==> t.hardTotal > 0 && 10 * t.hardHit > 6 * t.hardTotal
    ensures "Temel kavramlar sağlam" in r <==> t.mediumTotal > 0 && 10 * t.mediumHit > 8 * t.mediumTotal
    ensures forall s :: s in r ==> s == "Zor konularda yetkinlik" || s == "Temel kavramlar sağlam"
    ensures |r| == 2 ==> r[0] == "Zor konularda yetkinlik"
  {
    (if t.hardTotal > 0 && 10 * t.hardHit > 6 * t.hardTotal then ["Zor konularda yetkinlik"] else [])
    + (if t.mediumTotal > 0 && 10 * t.mediumHit > 8 * t.mediumTotal then ["Temel kavramlar sağlam"] else [])
  }

  function Weaknesses(t: Tally): (r: seq<string>)
    ensures |r| <= 2
    ensures "Temel eksiklikler var" in r <==> t.easyTotal > 0 && 10 * t.easyHit < 5 * t.easyTotal
    ensures "İleri konulara çalışılmalı" in r <==> t.hardTotal > 0 && 10 * t.hardHit < 3 * t.hardTotal
    ensures forall s :: s in r ==> s == "Temel eksiklikler var" || s == "İleri konulara çalışılmalı"
    ensures |r| == 2 ==> r[0] == "Temel eksiklikler var"
  {
    (if t.easyTotal > 0 && 10 * t.easyHit < 5 * t.easyTotal then ["Temel eksiklikler var"] else [])
    + (if t.hardTotal > 0 && 10 * t.hardHit < 3 * t.hardTotal then ["İleri konulara çalışılmalı"] else [])
  }

  /** The hard band is never both a strength and a weakness, and an empty band is neither. */
  lemma BandsExclusive(t: Tally)
    ensures !("Zor konularda yetkinlik" in Strengths(t) && "İleri konulara çalışılmalı" in Weaknesses(t))
    ensures t.hardTotal == 0 ==> Strengths(t) == Strengths(t.(hardHit := 0)) && "İleri konulara çalışılmalı" !in Weaknesses(t)
    ensures t.easyTotal == 0 ==> "Temel eksiklikler var" !in Weaknesses(t)
    ensures t.mediumTotal == 0 ==> "Temel kavramlar sağlam" !in Strengths(t)
  {
  }

  /** The level, its Turkish name and the recommended start day for a score. */
  function LevelFor(score: int): (string, string, int)
  {
    if score >= 80 then ("advanced", "İleri", 15)
    else if score >= 50 then ("intermediate", "Orta", 8)
    else ("beginner", "Başlangıç", 1)
  }

  /** The level report of `calculate_level`. */
  function Report(answers: Answers, qs: seq<LevelQuestion>): LevelReport
  {
    if |qs| == 0 then LevelReport("beginner", "Başlangıç", 0, None)
    else
      var t := TallyOf(answers, qs);
      var score := Percent(t.earned, t.possible);
      var (level, levelTr, startDay) := LevelFor(score);
      LevelReport(level, levelTr, score, Some(LevelDetails(
        startDay,
        Percent(t.easyHit, t.easyTotal),
        Percent(t.mediumHit, t.mediumTotal),
        Percent(t.hardHit, t.hardTotal),
        Strengths(t),
        Weaknesses(t),
        levelTr + " seviyesindesiniz. Önerilen başlangıç: Gün " + NatToString(startDay) + ".")))
  }

  /** Every score and band score lies in 0..100. */
  lemma ReportBounds(answers: Answers, qs: seq<LevelQuestion>)
    ensures 0 <= Report(answers, qs).score <= 100
    ensures Report(answers, qs).details.Some? ==>
      var d := Report(answers, qs).details.value;
      0 <= d.easyScore <= 100 && 0 <= d.mediumScore <= 100 && 0 <= d.hardScore <= 100
  {
    if |qs| > 0 {
      var t := TallyOf(answers, qs);
      TallyConsistent(answers, qs);
      PercentBounds(t.earned, t.possible);
      PercentBounds(t.easyHit, t.easyTotal);
      PercentBounds(t.mediumHit, t.mediumTotal);
      PercentBounds(t.hardHit, t.hardTotal);
    }
  }

  /** The level is decided by the earned share of the possible weight alone:
   *  advanced from 4/5, intermediate from 1/2, beginner below. */
  lemma LevelByWeightShare(answers: Answers, qs: seq<LevelQuestion>)
    requires |qs| > 0
    ensures var t := TallyOf(answers, qs);
      (Report(answers, qs).level == "advanced" <==> 5 * t.earned >= 4 * t.possible)
      && (Report(answers, qs).level == "intermediate" <==> 5 * t.earned < 4 * t.possible && 2 * t.earned >= t.possible)
      && (Report(answers, qs).level == "beginner" <==> 2 * t.earned < t.possible)
    ensures Report(answers, qs).details.Some?
    ensures var d := Report(answers, qs).details.value;
      d.recommendedStartDay == (if Report(answers, qs).level == "advanced" then 15
                                else if Report(answers, qs).level == "intermediate" then 8 else 1)
  {
    var t := TallyOf(answers, qs);
    TallyConsistent(answers, qs);
    PercentAtLeast(t.earned, t.possible, 80);
    PercentAtLeast(t.earned, t.possible, 50);
  }

  /** A single correctly answered hard question is an advanced result, and so is any
   *  battery answered entirely correctly. */
  lemma AllCorrectIsAdvanced(answers: Answers, qs: seq<LevelQuestion>)
    requires |qs| > 0
    requires forall i :: 0 <= i < |qs| ==> Hit(answers, qs[i])
    ensures Report(answers, qs).level == "advanced" && Report(answers, qs).score == 100
  {
    AllHitsEarnEverything(answers, qs);
    TallyConsistent(answers, qs);
    PercentFull(TallyOf(answers, qs).earned, TallyOf(answers, qs).possible);
  }

  /** An empty battery is a beginner result with score 0 and no breakdown. */
  lemma EmptyBatteryIsBeginner(answers: Answers)
    ensures Report(answers, []) == LevelReport("beginner", "Başlangıç", 0, None)
  {
  }

  // --------------------------------------------------------- _get_static_assessment

  datatype StaticQuestion = StaticQuestion(
    id: int,
    question: string,
    options: seq<string>,
    correctAnswer: string,
    difficulty: string,
    topicArea: string)

  const StaticOptions: seq<string> := ["A Seçeneği", "B Seçeneği", "C Seçeneği", "D Seçeneği"]

  function BandOf(i: nat): string
  {
    if i < 3 then "easy" else if i < 7 then "medium" else "hard"
  }

  /** The `i`-th placeholder question. */
  function StaticQuestionAt(topic: string, i: nat): (q: StaticQuestion)
    ensures q.id == i + 1
    ensures q.correctAnswer in q.options
    ensures q.difficulty == "easy" <==> i < 3
    ensures q.difficulty == "medium" <==> 3 <= i < 7
    ensures q.difficulty == "hard" <==> 7 <= i
  {
    StaticQuestion(
      i + 1,
      topic + " hakkında örnek soru " + NatToString(i + 1) + " (" + BandOf(i) + ")",
      StaticOptions,
      "A Seçeneği",
      BandOf(i),
      "Genel")
  }

  /** The scoring loop of `calculate_level`: the counters and the breakdown dicts. */
  method ScoringLoop(answers: Answers, questions: seq<LevelQuestion>) returns (t: Tally)
    ensures t == TallyOf(answers, questions)
  {
    t := NoTally;
    var i := 0;
    while i < |questions|
      invariant 0 <= i <= |questions|
      invariant t == TallyOf(answers, questions[..i])
    {
      var q := questions[i];
      var difficulty := q.difficulty.GetOr("medium");
      var points := Points(difficulty);
      var key := IdKey(q.id);
      var hit := key in answers && answers[key] != "" && q.correctAnswer == Some(answers[key]);
      assert hit == Hit(answers, q) && difficulty == DifficultyOf(q);
      ghost var before := t;
      TallyStep(answers, questions, i);
      t := t.(possible := t.possible + points);
      if difficulty == "easy" {
        t := t.(easyTotal := t.easyTotal + 1);
      } else if difficulty == "medium" {
        t := t.(mediumTotal := t.mediumTotal + 1);
      } else if difficulty == "hard" {
        t := t.(hardTotal := t.hardTotal + 1);
      }
      if hit {
        t := t.(correct := t.correct + 1, earned := t.earned + points);
        if difficulty == "easy" {
          t := t.(easyHit := t.easyHit + 1);
        } else if difficulty == "medium" {
          t := t.(mediumHit := t.mediumHit + 1);
        } else if difficulty == "hard" {
          t := t.(hardHit := t.hardHit + 1);
        }
      }
      assert t == Step(before, answers, q);
      i := i + 1;
    }
    assert questions[..i] == questions;
  }

  /** The assessment agent; `memory` is the optional memory service. */
  class AssessmentAgent<R, D, M> {
    const memory: MemoryBank?<Profile, R, D, M>

    constructor(memory: MemoryBank?<Profile, R, D, M>)
      ensures this.memory == memory
    {
      this.memory := memory;
    }

    /** `analyze_user_profile`: builds the profile and saves it when a memory is set. */
    method AnalyzeUserProfile(input: UserInput, now: string) returns (profile: Profile)
      modifies memory
      ensures profile == BuildProfile(input, now)
      ensures memory != null ==>
        (memory.userProfile == Some(profile)
         && memory.recommendations == old(memory.recommendations)
         && memory.dailyPlans == old(memory.dailyPlans)
         && memory.performance == old(memory.performance))
    {
      profile := BuildProfile(input, now);
      if memory != null {
        memory.SaveUserProfile(profile);
      }
    }

    /** `calculate_level`: the scoring loop, then the report built from its counters. */
    method CalculateLevel(answers: Answers, questions: seq<LevelQuestion>) returns (report: LevelReport)
      ensures report == Report(answers, questions)
      ensures 0 <= report.score <= 100
    {
      ReportBounds(answers, questions);
      if |questions| == 0 {
        return LevelReport("beginner", "Başlangıç", 0, None);
      }
      var t := ScoringLoop(answers, questions);
      var score := Percent(t.earned, t.possible);
      var (level, levelTr, startDay) := LevelFor(score);
      report := LevelReport(level, levelTr, score, Some(LevelDetails(
        startDay,
        Percent(t.easyHit, t.easyTotal),
        Percent(t.mediumHit, t.mediumTotal),
        Percent(t.hardHit, t.hardTotal),
        Strengths(t),
        Weaknesses(t),
        levelTr + " seviyesindesiniz. Önerilen başlangıç: Gün " + NatToString(startDay) + ".")));
    }

    /** `_get_static_assessment` (and so `get_assessment_questions`): `n` placeholder
     *  questions built by the source's append loop. */
    method StaticAssessment(topic: string, n: int) returns (questions: seq<StaticQuestion>)
      ensures |questions| == RangeLen(n)
      ensures forall i :: 0 <= i < |questions| ==> questions[i] == StaticQuestionAt(topic, i)
    {
      questions := [];
      var i := 0;
      while i < n
        invariant 0 <= i == |questions| <= RangeLen(n)
        invariant forall k :: 0 <= k < i ==> questions[k] == StaticQuestionAt(topic, k)
      {
        questions := questions + [StaticQuestionAt(topic, i)];
        i := i + 1;
      }
    }
  }

  /** The placeholder battery has ids 1..n in order, so its ids are distinct. */
  lemma StaticIdsDistinct(topic: string, n: nat, i: nat, j: nat)
    requires i < j < n
    ensures StaticQuestionAt(topic, i).id < StaticQuestionAt(topic, j).id
  {
  }
}

=== FILE: content_agent.dfy ===
/**
 * The content agent of the second tree: lesson text and quizzes through the AI service with
 * placeholder fallbacks, plus the retired keyword-routed static content and static quizzes.
 * The canned lesson bodies and question banks are not part of this model: a static lesson is
 * named by the generator that would write it, and a bank's questions are an input.
 */
module ContentAgent {
  import opened Wrappers
  import opened Text
  import opened Routing
  import opened AiService
  import opened AgentQuiz

  // ------------------------------------------------------------------ lessons

  /** The placeholder wording when the goal is empty. */
  const NoGoal: string := "Belirtilmemiş"

  // The fixed text of the placeholder page, between the places where the topic, the goal
  // and the level are filled in.
  const PageHead: string := "\n# ⚠️ AI Servisi Çalışmıyor\n\n## "
  const PageSearch: string := "\n\nBu ders içeriği AI tarafından oluşturulmalıdır, ancak şu anda AI servisi kullanılamıyor.\n\n"
    + "### Lütfen şunları kontrol edin:\n\n1. **GEMINI_API_KEY** `.env` dosyasında tanımlı mı?\n"
    + "2. API key geçerli mi?\n3. İnternet bağlantınız var mı?\n\n### Geçici Çözüm:\n\n"
    + "Bu konuyu öğrenmek için:\n- Google'da \""
  const PageVideo: string := "\" aratın\n- YouTube'da \""
  const PageDocs: string := " tutorial\" izleyin\n- Resmi dokümantasyonları inceleyin\n\n**Hedef:** "
  const PageLevel: string := "  \n**Seviye:** "
  const PageNote: string := "\n\n---\n\n💡 **Not:** AI servisi aktif olduğunda bu sayfa otomatik olarak "
  const PageTail: string := " hakkında detaylı, kişiselleştirilmiş içerik gösterecektir.\n"

  /** `_get_minimal_fallback_content`: a page explaining that the AI service is down, naming
   *  the topic, the goal (or "Belirtilmemiş") and the level. */
  function FallbackContent(topic: string, level: string, goal: string): (text: string)
    ensures Contains(text, topic) && Contains(text, level)
    ensures goal != "" ==> Contains(text, goal)
    ensures goal == "" ==> Contains(text, NoGoal)
  {
    var goalText := if goal != "" then goal else NoGoal;
    Fill(PageHead, topic, Fill(PageSearch, topic, Fill(PageVideo, topic,
      Fill(PageDocs, goalText, Fill(PageLevel, level, Fill(PageNote, topic, PageTail))))))
  }

  /** `generate_lesson_content`: the service's explanation when the service is configured
   *  and the explanation is longer than 50 characters, else the placeholder page. */
  function GenerateLessonContent(service: Option<Service>, topic: string, level: string, goal: string,
                                 reply: Option<string>, error: string): (text: string)
    ensures AiAvailable(service) && |ExplainTopic(service.value, topic, level, reply, error)| > 50 ==>
      text == ExplainTopic(service.value, topic, level, reply, error)
    ensures !(AiAvailable(service) && |ExplainTopic(service.value, topic, level, reply, error)| > 50) ==>
      text == FallbackContent(topic, level, goal)
  {
    if AiAvailable(service) && |ExplainTopic(service.value, topic, level, reply, error)| > 50 then
      ExplainTopic(service.value, topic, level, reply, error)
    else FallbackContent(topic, level, goal)
  }

  /** A configured key without a working model never reaches the placeholder page: the
   *  service's own template is always longer than 50 characters. */
  lemma KeyWithoutModelServesTemplate(service: Option<Service>, topic: string, level: string, goal: string,
                                      reply: Option<string>, error: string)
    requires AiAvailable(service) && !service.value.hasModel
    ensures GenerateLessonContent(service, topic, level, goal, reply, error) == ExplainTopic(service.value, topic, level, reply, error)
    ensures Contains(GenerateLessonContent(service, topic, level, goal, reply, error), topic)
  {
    var t := ExplainTopic(service.value, topic, level, reply, error);
    assert |t| == |topic| + |level| + 62;
  }

  // ------------------------------------------------------------------ quizzes

  /** This agent's placeholder wording. */
  const FallbackQuestion: string := "⚠️ AI servisi çalışmıyor. Lütfen GEMINI_API_KEY'i yapılandırın."

  /** `generate_quiz`: the service's questions when the service is configured and returns
   *  some, else at most three placeholders. */
  function GenerateQuiz(service: Option<Service>, topic: string, n: int, reply: Option<string>,
                        parse: string -> QuizParse): (q: Quiz)
    ensures q.AiQuiz? <==> AiAvailable(service) && |QuizQuestions(service.value, topic, n, reply, parse)| > 0
    ensures q.FallbackQuiz? ==> |q.fallback| == RangeLen(Min(n, 3))
    ensures q.FallbackQuiz? ==> forall i :: 0 <= i < |q.fallback| ==> q.fallback[i].question == FallbackQuestion
  {
    AgentQuiz.GenerateQuiz(service, topic, n, reply, parse, FallbackQuestion)
  }

  /** The banks of `_get_static_quiz_DEPRECATED`. */
  datatype QuizBank = AiBank | PythonBank | WebBank | EnglishBank | GeneralBank

  const QuizRoutes: seq<Route<QuizBank>> := [
    Route(["ai", "yapay zeka", "makine öğren", "deep learning", "neural"], AiBank),
    Route(["python"], PythonBank),
    Route(["web", "html", "css", "javascript", "js"], WebBank),
    Route(["ingilizce", "english"], EnglishBank)
  ]

  /** The bank for a topic: the first keyword group found in the lowercased topic. The AI
   *  group is checked first and its keyword "ai" matches inside words, so it wins over
   *  Python whenever both occur. */
  function QuizBankFor(topic: string): (b: QuizBank)
    ensures ContainsAny(Lower(topic), QuizRoutes[0].keywords) ==> b == AiBank
    ensures b == GeneralBank <==> forall j :: 0 <= j < |QuizRoutes| ==> !ContainsAny(Lower(topic), QuizRoutes[j].keywords)
  {
    FirstMatch(Lower(topic), QuizRoutes, GeneralBank)
  }

  /** "main" contains "ai": a Python topic about the main function is served the AI bank. */
  lemma MainFunctionTopicGoesToAiBank()
    ensures QuizBankFor("python main") == AiBank
  {
    var t := Lower("python main");
    assert t == "python main";
    assert OccursAt(t, "ai", 8);
    assert "ai" in QuizRoutes[0].keywords;
  }

  /** The generic question `i` of the general bank. */
  function GeneralQuestion(topic: string, i: nat): Item
  {
    Item(Some("q" + NatToString(i + 1)), Some("Bu konuyla ilgili soru " + NatToString(i + 1)),
         Some(MockOptions), Some("Seçenek A"), Some(topic), None, None)
  }

  /** `_get_static_quiz_DEPRECATED`: the routed bank cut to `questions[:n]`; the general
   *  bank is `n` generic questions on the topic. `bankQuestions` is what the routed canned
   *  bank holds for this topic. */
  function StaticQuiz(topic: string, n: int, bankQuestions: seq<Item>): (qs: seq<Item>)
    ensures n >= 0 ==> |qs| <= n
    ensures QuizBankFor(topic) != GeneralBank ==> qs == Take(bankQuestions, n)
    ensures QuizBankFor(topic) == GeneralBank ==>
      |qs| == RangeLen(n) && forall i :: 0 <= i < |qs| ==> IsValidItem(qs[i]) && qs[i].topic == Some(topic)
  {
    var questions :=
      if QuizBankFor(topic) == GeneralBank then seq(RangeLen(n), i requires 0 <= i => GeneralQuestion(topic, i))
      else bankQuestions;
    Take(questions, n)
  }

  // ------------------------------------------------------------------ static lessons

  /** Which canned lesson generator `_get_static_content_DEPRECATED` calls, with its
   *  arguments (the domain generators get the lowercased topic). */
  datatype Lesson =
    | PythonLesson(topicLower: string, level: string)
    | WebLesson(topicLower: string, level: string)
    | DataLesson(topicLower: string, level: string)
    | EnglishLesson(topicLower: string, level: string)
    | GeneralLesson(topic: string, level: string, goal: string)

  datatype LessonKind = PythonKind | WebKind | DataKind | EnglishKind | GeneralKind

  const LessonRoutes: seq<Route<LessonKind>> := [
    Route(["python"], PythonKind),
    Route(["web", "html", "css", "javascript"], WebKind),
    Route(["veri", "data", "analiz", "pandas"], DataKind),
    Route(["ingilizce", "english", "dil"], EnglishKind)
  ]

  /** `_get_static_content_DEPRECATED`: the first keyword group found in the lowercased topic
   *  or the lowercased goal picks the generator; none gives the general lesson. */
  function StaticContent(topic: string, level: string, goal: string): (l: Lesson)
    ensures Contains(Lower(topic), "python") || Contains(Lower(goal), "python") ==> l == PythonLesson(Lower(topic), level)
    ensures l.GeneralLesson? <==>
      forall j :: 0 <= j < |LessonRoutes| ==> !ContainsAny(Lower(topic), LessonRoutes[j].keywords) && !ContainsAny(Lower(goal), LessonRoutes[j].keywords)
    ensures l.GeneralLesson? ==> l == GeneralLesson(topic, level, goal)
  {
    ContainsAnySingle(Lower(topic), "python");
    ContainsAnySingle(Lower(goal), "python");
    match FirstMatchEither(Lower(topic), Lower(goal), LessonRoutes, GeneralKind)
    case PythonKind => PythonLesson(Lower(topic), level)
    case WebKind => WebLesson(Lower(topic), level)
    case DataKind => DataLesson(Lower(topic), level)
    case EnglishKind => EnglishLesson(Lower(topic), level)
    case GeneralKind => GeneralLesson(topic, level, goal)
  }
}

=== FILE: content_curator_agent.dfy ===
/**
 * The content curator of the second tree: the same catalogue routing as the research agent,
 * and lesson content taken from the AI service when it is configured and says enough, else
 * a placeholder page that names the topic, the level and the goal.
 */
module ContentCurator {
  import opened Wrappers
  import opened Text
  import opened MemoryStore
  import opened AiService
  import opened AgentQuiz
  import opened ResourceCatalogue

  const PageOpen: string := "\n# ⚠️ AI Servisi Çalışmıyor\n\n## "
  const PageChecks: string := "\n\nBu ders içeriği AI tarafından oluşturulmalıdır, ancak şu anda AI servisi kullanılamıyor.\n\n### Lütfen şunları kontrol edin:\n\n1. **GEMINI_API_KEY** `.env` dosyasında tanımlı mı?\n2. API key geçerli mi?\n3. İnternet bağlantınız var mı?\n\n### Geçici Çözüm:\n\nBu konuyu öğrenmek için:\n- Google'da \""
  const PageVideo: string := "\" aratın\n- YouTube'da \""
  const PageGoal: string := " tutorial\" izleyin\n- Resmi dokümantasyonları inceleyin\n\n**Hedef:** "
  const PageLevel: string := "  \n**Seviye:** "
  const PageNote: string := "\n\n---\n\n💡 **Not:** AI servisi aktif olduğunda bu sayfa otomatik olarak "
  const PageClose: string := " hakkında detaylı, kişiselleştirilmiş içerik gösterecektir.\n"

  /** The goal as the page shows it: `Belirtilmemiş` when empty. */
  function GoalText(goal: string): string
  {
    if goal != "" then goal else "Belirtilmemiş"
  }

  /** `_get_minimal_fallback_content`: a page naming the topic, the goal (or that none was
   *  given) and the level. */
  function FallbackPage(topic: string, level: string, goal: string): (page: string)
    ensures Contains(page, topic) && Contains(page, level) && Contains(page, GoalText(goal))
  {
    Fill(PageOpen, topic, Fill(PageChecks, topic, Fill(PageVideo, topic,
      Fill(PageGoal, GoalText(goal), Fill(PageLevel, level, Fill(PageNote, topic, PageClose))))))
  }

  /** `generate_lesson_content`: the service's explanation when the service is configured and
   *  the explanation is longer than 50 characters, else the placeholder page. */
  function LessonContent(service: Option<Service>, topic: string, level: string, goal: string,
                         reply: Option<string>, error: string): (text: string)
    ensures AiAvailable(service) && |ExplainTopic(service.value, topic, level, reply, error)| > 50 ==>
      text == ExplainTopic(service.value, topic, level, reply, error)
    ensures !(AiAvailable(service) && |ExplainTopic(service.value, topic, level, reply, error)| > 50) ==>
      text == FallbackPage(topic, level, goal)
  {
    if AiAvailable(service) && |ExplainTopic(service.value, topic, level, reply, error)| > 50 then
      ExplainTopic(service.value, topic, level, reply, error)
    else FallbackPage(topic, level, goal)
  }

  /** The lesson names its topic unless a configured model actually answered: the placeholder
   *  page, the template of a service without a model and the apology for a failed call all
   *  contain it. */
  lemma LessonNamesTopic(service: Option<Service>, topic: string, level: string, goal: string,
                         reply: Option<string>, error: string)
    requires !(AiAvailable(service) && service.value.hasModel && reply.Some?)
    ensures Contains(LessonContent(service, topic, level, goal, reply, error), topic)
  {
  }

  /** The content curator; `catalogue` holds its resource lists, `memory` the optional memory
   *  service, `service` the optional AI service. */
  class ContentCuratorAgent<R, P, D, M> {
    const memory: MemoryBank?<P, R, D, M>
    const catalogue: Category -> seq<R>
    const service: Option<Service>

    constructor(memory: MemoryBank?<P, R, D, M>, catalogue: Category -> seq<R>, service: Option<Service>)
      requires forall c :: |catalogue(c)| == CatalogueSize(c)
      ensures this.memory == memory && this.catalogue == catalogue && this.service == service
    {
      this.memory := memory;
      this.catalogue := catalogue;
      this.service := service;
    }

    /** `_is_ai_available`: a service exists and is configured. */
    predicate IsAiAvailable()
    {
      AiAvailable(service)
    }

    /** `find_resources`: the chosen list goes to the memory in full, under the goal as given,
     *  exactly once when a memory is set; at most its first five entries are returned. */
    method FindResources(profile: ResourceProfile) returns (resources: seq<R>)
      modifies memory
      ensures var all := catalogue(CategoryForProfile(profile));
        resources == FirstFive(all) && |resources| <= 5 && resources == all[..|resources|]
      ensures memory != null ==>
        memory.recommendations
          == Some(old(memory.recommendations).GetOr([]) + [Recommendation(profile.goal, catalogue(CategoryForProfile(profile)))])
        && memory.userProfile == old(memory.userProfile) && memory.dailyPlans == old(memory.dailyPlans)
        && memory.performance == old(memory.performance)
    {
      var all := catalogue(CategoryForProfile(profile));
      if memory != null {
        memory.SaveRecommendations(profile.goal, all);
      }
      resources := FirstFive(all);
    }

    /** `get_resources_for_topic`: at most the first five entries of the topic's list. */
    function GetResourcesForTopic(topic: string): (r: seq<R>)
      ensures var all := catalogue(CategoryForTopic(topic));
        r == all[..Min(5, |all|)]
    {
      FirstFive(catalogue(CategoryForTopic(topic)))
    }

    /** `generate_lesson_content` with this agent's service. */
    function GenerateLessonContent(topic: string, level: string, goal: string, reply: Option<string>, error: string): (text: string)
      ensures IsAiAvailable() && |ExplainTopic(service.value, topic, level, reply, error)| > 50 ==>
        text == ExplainTopic(service.value, topic, level, reply, error)
      ensures !IsAiAvailable() || |ExplainTopic(service.value, topic, level, reply, error)| <= 50 ==>
        text == FallbackPage(topic, level, goal)
    {
      LessonContent(service, topic, level, goal, reply, error)
    }
  }
}

=== FILE: curriculum_agent.dfy ===
/**
 * The curriculum agent of the second tree: a generated curriculum when a model answers with
 * a usable plan, else a placeholder curriculum of `weeks * 7` days; the retired keyword-routed
 * topic lists; and the resource links chosen by goal.
 */
module Curriculum {
  import opened Wrappers
  import opened Text
  import opened Routing
  import opened Fence
  import opened AiService
  import opened Percentages

  datatype Resource = Resource(title: string, url: string, kind: string)

  /** One day of a curriculum. */
  datatype Lesson = Lesson(day: int, week: int, theme: string, tasks: seq<Task>, quiz: seq<Item>,
                           resources: seq<Resource>, tip: string)

  /** A curriculum this agent builds itself. */
  datatype CurriculumDoc = CurriculumDoc(goal: string, summary: string, source: string, totalDays: int,
                                         dailyLessons: seq<Lesson>)

  /** A parsed generated curriculum; its lessons stay as the parser produced them. */
  datatype AiDoc<L> = AiDoc(goal: Option<string>, totalDays: Option<int>, dailyLessons: Option<seq<L>>,
                            source: Option<string>)

  /** What the JSON parser made of the cleaned reply: an object, another JSON value, or an
   *  error. */
  datatype ParsedDoc<L> = NotJson | NotAnObject | Object(doc: AiDoc<L>)

  /** What `generate_curriculum` returns. */
  datatype Outcome<L> = Generated(ai: AiDoc<L>) | Placeholder(doc: CurriculumDoc)

  // ------------------------------------------------------------------ the placeholder curriculum

  /** The placeholder day `day` (1-based): three set-up tasks of 20, 25 and 10 minutes and no
   *  quiz. */
  function FallbackLesson(day: int): Lesson
  {
    Lesson(day, (day - 1) / 7 + 1, FallbackTheme + IntToString(day), FallbackTasks, [], FallbackResources, FallbackTip)
  }

  const FallbackTheme: string := "⚠️ AI Servisi Gerekli - Gün "
  const FallbackResources: seq<Resource> := [Resource("Gemini API Dokümantasyonu", "https://ai.google.dev/", "documentation")]
  const FallbackTip: string := "AI servisi olmadan kişiselleştirilmiş müfredat oluşturulamaz. Lütfen API key'inizi yapılandırın."

  const FallbackTasks: seq<Task> := [
    Task("AI Yapılandırması", 20, "theory", "Lütfen GEMINI_API_KEY'i .env dosyasına ekleyin"),
    Task("Dokümantasyon", 25, "practice", "SETUP_GUIDE.md dosyasını okuyun"),
    Task("Test", 10, "quiz", "AI aktif olduğunda otomatik quiz oluşturulacak")]

  /** The placeholder days for `range(totalDays)`. */
  function FallbackLessons(totalDays: int): seq<Lesson>
  {
    seq(RangeLen(totalDays), i requires 0 <= i => FallbackLesson(i + 1))
  }

  /** `_generate_minimal_fallback_curriculum`. */
  function FallbackCurriculum(goal: string, weeks: int): CurriculumDoc
  {
    CurriculumDoc(goal, "⚠️ AI servisi gerekli - Lütfen GEMINI_API_KEY yapılandırın", "fallback", weeks * 7,
                  FallbackLessons(weeks * 7))
  }

  /** The placeholder curriculum has `weeks * 7` days numbered 1, 2, ... without gaps; every
   *  day has theory, practice and quiz tasks of 20, 25 and 10 minutes and an empty quiz;
   *  `total_days` counts the days. */
  lemma FallbackCurriculumShape(goal: string, weeks: int)
    requires weeks >= 0
    ensures var c := FallbackCurriculum(goal, weeks);
      c.source == "fallback" && c.goal == goal
      && |c.dailyLessons| == weeks * 7 == c.totalDays
      && (forall i :: 0 <= i < |c.dailyLessons| ==> c.dailyLessons[i].day == i + 1 && c.dailyLessons[i].quiz == [])
      && (forall i :: 0 <= i < |c.dailyLessons| ==> c.dailyLessons[i].tasks == FallbackTasks)
  {
  }

  /** Week `w` of the placeholder curriculum holds exactly the days `7w - 6` to `7w`: the
   *  day at index `i` lies in the week whose seven indices include `i`. */
  lemma FallbackCurriculumWeeks(goal: string, weeks: int)
    ensures var c := FallbackCurriculum(goal, weeks);
      forall i :: 0 <= i < |c.dailyLessons| ==> 7 * (c.dailyLessons[i].week - 1) <= i < 7 * c.dailyLessons[i].week
  {
    var c := FallbackCurriculum(goal, weeks);
    forall i | 0 <= i < |c.dailyLessons| ensures 7 * (c.dailyLessons[i].week - 1) <= i < 7 * c.dailyLessons[i].week {
      assert c.dailyLessons[i] == FallbackLesson(i + 1);
      var q := i / 7;
      DivBounds(i, 7);
      assert c.dailyLessons[i].week == q + 1;
    }
  }

  /** The three set-up tasks of every placeholder day: theory, practice and quiz of 20, 25 and
   *  10 minutes, 55 in all. */
  lemma FallbackTasksShape()
    ensures |FallbackTasks| == 3
    ensures FallbackTasks[0].kind == "theory" && FallbackTasks[1].kind == "practice" && FallbackTasks[2].kind == "quiz"
    ensures FallbackTasks[0].durationMin + FallbackTasks[1].durationMin + FallbackTasks[2].durationMin == 55
  {
  }

  /** The placeholder loop of `_generate_minimal_fallback_curriculum`. */
  method BuildFallbackCurriculum(goal: string, weeks: int) returns (c: CurriculumDoc)
    ensures c == FallbackCurriculum(goal, weeks)
  {
    var totalDays := weeks * 7;
    var lessons: seq<Lesson> := [];
    var i := 0;
    while i < totalDays
      invariant 0 <= i <= RangeLen(totalDays)
      invariant lessons == FallbackLessons(i)
    {
      lessons := lessons + [FallbackLesson(i + 1)];
      i := i + 1;
    }
    c := CurriculumDoc(goal, "⚠️ AI servisi gerekli - Lütfen GEMINI_API_KEY yapılandırın", "fallback", totalDays, lessons);
  }

  // ------------------------------------------------------------------ the generated curriculum

  /** The reply length past which the agent does not try to parse. */
  const MaxReplyLength: int := 100000

  /** The number of days the prompt asks for: the requested days, at most 14. It appears only
   *  in the prompt text; the reply is an input of the model, so nothing else here uses it. */
  function RequestedDays(weeks: int): (days: int)
    ensures days <= 14 && days <= weeks * 7
    ensures days == 14 || days == weeks * 7
  {
    Min(weeks * 7, 14)
  }

  /** The number of weeks the prompt mentions: the days rounded up to whole weeks. Like
   *  `RequestedDays`, it appears only in the prompt text and nothing else here uses it. */
  function ActualWeeks(totalDays: int): (weeks: int)
    ensures totalDays > 0 ==> 7 * (weeks - 1) < totalDays <= 7 * weeks
  {
    (totalDays + 6) / 7
  }

  /** `_generate_ai_curriculum`: the parsed object tagged "ai" when the call succeeded, the
   *  cleaned reply is at most 100000 characters, parses to an object and has lessons; any
   *  other outcome gives the placeholder. */
  function AiCurriculum<L>(goal: string, weeks: int, reply: Option<string>, parse: string -> ParsedDoc<L>): (r: Outcome<L>)
    ensures r.Generated? ==>
      reply.Some? && |CleanReply(reply.value)| <= MaxReplyLength && parse(CleanReply(reply.value)).Object?
      && r.ai == parse(CleanReply(reply.value)).doc.(source := Some("ai"))
      && r.ai.dailyLessons.Some? && |r.ai.dailyLessons.value| > 0
    ensures r.Placeholder? ==> r.doc == FallbackCurriculum(goal, weeks)
  {
    if reply.None? then Placeholder(FallbackCurriculum(goal, weeks))
    else
      var text := CleanReply(reply.value);
      if |text| > MaxReplyLength then Placeholder(FallbackCurriculum(goal, weeks))
      else
        match parse(text)
        case Object(doc) =>
          if doc.dailyLessons.Some? && |doc.dailyLessons.value| > 0 then Generated(doc.(source := Some("ai")))
          else Placeholder(FallbackCurriculum(goal, weeks))
        case _ => Placeholder(FallbackCurriculum(goal, weeks))
  }

  /** `generate_curriculum`: the generated curriculum when a model exists and it has
   *  lessons, else the placeholder. */
  function CurriculumFor<L>(hasModel: bool, goal: string, weeks: int, reply: Option<string>, parse: string -> ParsedDoc<L>): Outcome<L>
  {
    if hasModel then
      match AiCurriculum(goal, weeks, reply, parse)
      case Generated(doc) => Generated(doc)
      case Placeholder(_) => Placeholder(FallbackCurriculum(goal, weeks))
    else Placeholder(FallbackCurriculum(goal, weeks))
  }

  /** `generate_curriculum`, building the placeholder with its loop. */
  method GenerateCurriculum<L>(hasModel: bool, goal: string, weeks: int, reply: Option<string>, parse: string -> ParsedDoc<L>)
    returns (r: Outcome<L>)
    ensures r == CurriculumFor(hasModel, goal, weeks, reply, parse)
  {
    if hasModel {
      var attempt := AiCurriculum(goal, weeks, reply, parse);
      if attempt.Generated? {
        return attempt;
      }
    }
    var doc := BuildFallbackCurriculum(goal, weeks);
    r := Placeholder(doc);
  }

  /** Whatever happens, the curriculum handed out has lessons (for a positive duration): a
   *  generated one only with at least one lesson, the placeholder with `weeks * 7`. */
  lemma CurriculumNeverEmpty<L>(hasModel: bool, goal: string, weeks: int, reply: Option<string>, parse: string -> ParsedDoc<L>)
    requires weeks > 0
    ensures var r := CurriculumFor(hasModel, goal, weeks, reply, parse);
      (r.Generated? ==> hasModel && r.ai.source == Some("ai") && r.ai.dailyLessons.Some? && |r.ai.dailyLessons.value| > 0)
      && (r.Placeholder? ==> |r.doc.dailyLessons| == weeks * 7 > 0)
  {
    FallbackCurriculumShape(goal, weeks);
  }

  // ------------------------------------------------------------------ retired topic lists

  const PythonTopics: seq<string> := [
    "Python Kurulumu ve İlk Program", "Değişkenler ve Veri Tipleri", "String İşlemleri",
    "Sayılar ve Operatörler", "Kullanıcı Girdisi (input)", "Koşullu İfadeler (if-else)",
    "Karşılaştırma ve Mantıksal Operatörler", "for Döngüsü", "while Döngüsü", "break ve continue",
    "Listeler", "Liste Metodları", "Tuple ve Set", "Dictionary", "Dictionary Metodları",
    "Fonksiyon Tanımlama", "Fonksiyon Parametreleri", "Lambda Fonksiyonlar", "Dosya Okuma",
    "Dosya Yazma", "Hata Yönetimi (try-except)", "Modüller (import)", "Standart Kütüphane",
    "pip ve Paket Yönetimi", "List Comprehension", "OOP - Sınıflar", "OOP - Kalıtım",
    "Mini Proje 1", "Mini Proje 2", "Tekrar ve İleri Konular"]

  const WebTopics: seq<string> := [
    "HTML'e Giriş", "HTML Etiketleri", "HTML Formlar", "HTML Tablolar",
    "CSS'e Giriş", "CSS Seçiciler", "CSS Box Model", "CSS Flexbox",
    "CSS Grid", "Responsive Tasarım", "JavaScript Temelleri", "JS Değişkenler",
    "JS Fonksiyonlar", "JS DOM", "JS Olaylar", "Mini Proje",
    "Bootstrap", "jQuery", "AJAX", "API Kullanımı"]

  const DataTopics: seq<string> := [
    "Python Temelleri Tekrar", "NumPy Giriş", "NumPy Diziler", "NumPy İşlemler",
    "Pandas Giriş", "DataFrame", "Veri Okuma/Yazma", "Veri Temizleme",
    "Veri Filtreleme", "Gruplama", "Matplotlib Giriş", "Grafikler",
    "Seaborn", "İstatistik Temelleri", "Keşifsel Analiz", "Mini Proje"]

  const EnglishTopics: seq<string> := [
    "Alfabe ve Telaffuz", "Temel Kelimeler", "Selamlaşma", "Zamirler",
    "To Be Fiili", "Present Simple", "Sayılar", "Günler ve Aylar",
    "Soru Cümleleri", "Olumsuz Cümleler", "There is/are", "Some/Any",
    "Present Continuous", "Past Simple", "Gelecek Zaman", "Pratik Konuşma"]

  const AiTopics: seq<string> := [
    "AI'ya Giriş ve Temel Kavramlar", "Python Programlama Temelleri", "NumPy ve Veri İşleme",
    "Pandas ile Veri Analizi", "Veri Görselleştirme", "İstatistik Temelleri",
    "Makine Öğrenmesine Giriş", "Supervised Learning", "Unsupervised Learning",
    "Regresyon Modelleri", "Sınıflandırma Algoritmaları", "Karar Ağaçları", "Random Forest",
    "Neural Networks Temelleri", "Deep Learning'e Giriş", "TensorFlow/Keras Giriş",
    "CNN - Görüntü İşleme", "RNN - Zaman Serileri", "NLP - Doğal Dil İşleme",
    "Model Değerlendirme", "Overfitting ve Underfitting", "Hyperparameter Tuning",
    "Transfer Learning", "Model Deployment", "MLOps Temelleri", "AI Etiği",
    "Proje 1: Veri Analizi", "Proje 2: Sınıflandırma", "Proje 3: Deep Learning", "Portfolio ve İş Arama"]

  const BaseTopics: seq<string> := [
    "Temellere Giriş", "Temel Kavramlar", "İlk Adımlar", "Pratik Uygulamalar",
    "Derinlemesine İnceleme", "İleri Konular", "Proje Çalışması", "Tekrar ve Pekiştirme"]

  /** A domain topic builder: `all_topics[:total_days]`. */
  function DomainTopics(all: seq<string>, totalDays: int): (topics: seq<string>)
    ensures totalDays >= 0 ==> topics == all[..Min(totalDays, |all|)]
  {
    Take(all, totalDays)
  }

  /** The general topic for index `i`: its week and the base topic `i mod 8`. */
  function GeneralTopic(i: nat): string
  {
    "Hafta " + NatToString(i / 7 + 1) + " - " + BaseTopics[i % |BaseTopics|]
  }

  function GeneralTopics(totalDays: int): seq<string>
  {
    seq(RangeLen(totalDays), i requires 0 <= i => GeneralTopic(i))
  }

  /** `_get_general_topics`: the loop appending one titled topic per day. */
  method BuildGeneralTopics(totalDays: int) returns (topics: seq<string>)
    ensures topics == GeneralTopics(totalDays)
  {
    topics := [];
    var i := 0;
    while i < totalDays
      invariant 0 <= i <= RangeLen(totalDays)
      invariant topics == GeneralTopics(i)
    {
      topics := topics + [GeneralTopic(i)];
      i := i + 1;
    }
  }

  /** The general list has one topic per day, and every title names the base topic of its
   *  position in the cycle of eight. */
  lemma GeneralTopicsShape(totalDays: int)
    ensures var t := GeneralTopics(totalDays);
      |t| == RangeLen(totalDays)
      && (forall i :: 0 <= i < |t| ==> Contains(t[i], BaseTopics[i % 8]))
  {
    var t := GeneralTopics(totalDays);
    forall i | 0 <= i < |t| ensures Contains(t[i], BaseTopics[i % 8]) {
      SuffixContains("Hafta " + NatToString(i / 7 + 1) + " - ", BaseTopics[i % 8]);
      assert OccursAt(BaseTopics[i % 8], BaseTopics[i % 8], 0);
    }
  }

  datatype TopicList = PythonList | WebList | DataList | EnglishList | AiList | GeneralList

  const TopicRoutes: seq<Route<TopicList>> := [
    Route(["python"], PythonList),
    Route(["web", "html", "css", "site"], WebList),
    Route(["veri", "data", "analiz"], DataList),
    Route(["ingilizce", "english"], EnglishList),
    Route(["ai", "yapay zeka", "mühendis", "makine öğren"], AiList)
  ]

  /** The list `_generate_basic_curriculum_DEPRECATED` draws its topics from: the first
   *  keyword group found in the lowercased goal, else the general list. */
  function TopicListFor(goal: string): (l: TopicList)
    ensures l == GeneralList <==> forall j :: 0 <= j < |TopicRoutes| ==> !ContainsAny(Lower(goal), TopicRoutes[j].keywords)
  {
    FirstMatch(Lower(goal), TopicRoutes, GeneralList)
  }

  /** A goal mentioning Python gets the Python topics, whatever else it mentions. */
  lemma PythonGoalGetsPythonTopics(goal: string)
    requires Contains(Lower(goal), "python")
    ensures TopicListFor(goal) == PythonList
  {
    ContainsAnySingle(Lower(goal), "python");
    FirstMatchAt(Lower(goal), TopicRoutes, GeneralList, 0);
  }

  /** The topics of a list for a number of days: a domain list cut to the days, or the
   *  general list of exactly that many titles. */
  function TopicsOf(l: TopicList, totalDays: int): (topics: seq<string>)
    ensures totalDays >= 0 ==> |topics| <= totalDays
    ensures l == GeneralList ==> |topics| == RangeLen(totalDays)
  {
    match l
    case PythonList => DomainTopics(PythonTopics, totalDays)
    case WebList => DomainTopics(WebTopics, totalDays)
    case DataList => DomainTopics(DataTopics, totalDays)
    case EnglishList => DomainTopics(EnglishTopics, totalDays)
    case AiList => DomainTopics(AiTopics, totalDays)
    case GeneralList => GeneralTopics(totalDays)
  }

  // ------------------------------------------------------------------ resources

  datatype ResourceSet = PythonLinks | WebLinks | DataLinks | EnglishLinks | AiLinks | NoLinks

  const ResourceRoutes: seq<Route<ResourceSet>> := [
    Route(["python"], PythonLinks),
    Route(["web", "html", "css"], WebLinks),
    Route(["veri", "data"], DataLinks),
    Route(["ingilizce", "english"], EnglishLinks),
    Route(["ai", "yapay zeka", "mühendis", "makine öğren"], AiLinks)
  ]

  /** The links of each set. */
  function Links(r: ResourceSet): (links: seq<Resource>)
    ensures |links| <= 3 && (links == [] <==> r == NoLinks)
  {
    match r
    case PythonLinks => [
      Resource("Python Resmi Dokümantasyonu", "https://docs.python.org/3/tutorial/", "documentation"),
      Resource("W3Schools Python", "https://www.w3schools.com/python/", "tutorial")]
    case WebLinks => [
      Resource("MDN Web Docs", "https://developer.mozilla.org/", "documentation"),
      Resource("W3Schools", "https://www.w3schools.com/", "tutorial")]
    case DataLinks => [
      Resource("Kaggle Learn", "https://www.kaggle.com/learn", "course"),
      Resource("Pandas Docs", "https://pandas.pydata.org/docs/", "documentation")]
    case EnglishLinks => [
      Resource("BBC Learning English", "https://www.bbc.co.uk/learningenglish/", "course"),
      Resource("Duolingo", "https://www.duolingo.com/", "app")]
    case AiLinks => [
      Resource("Kaggle Learn - Machine Learning", "https://www.kaggle.com/learn/intro-to-machine-learning", "course"),
      Resource("TensorFlow Tutorials", "https://www.tensorflow.org/tutorials", "documentation"),
      Resource("Fast.ai", "https://www.fast.ai/", "course")]
    case NoLinks => []
  }

  /** `_get_resources_for_topic`: the links of the first keyword group found in the (already
   *  lowercased) goal; none gives no links. */
  function ResourcesForTopic(goalLower: string): (r: seq<Resource>)
    ensures |r| <= 3
    ensures r == [] <==> forall j :: 0 <= j < |ResourceRoutes| ==> !ContainsAny(goalLower, ResourceRoutes[j].keywords)
  {
    Links(FirstMatch(goalLower, ResourceRoutes, NoLinks))
  }

  /** A goal mentioning Python gets the Python links, whatever else it mentions. */
  lemma PythonGoalGetsPythonLinks(goalLower: string)
    requires Contains(goalLower, "python")
    ensures ResourcesForTopic(goalLower) == Links(PythonLinks)
  {
    ContainsAnySingle(goalLower, "python");
    FirstMatchAt(goalLower, ResourceRoutes, NoLinks, 0);
  }
}

=== FILE: day_report.dfy ===
/**
 * The day report both evaluators read, and the daily score they compute from it: ten points
 * per completed task and, when a quiz was taken, a tenth of the quiz score minus five points
 * per difficulty step above 3 (plus five per step below), never below zero.
 */
module DayReports {
  import opened Wrappers
  import opened Text
  import opened Percentages

  /** The keys of a day report; a missing key (or an explicit `None` quiz) is `None`. */
  datatype DayReport = DayReport(completedTasks: Option<int>, quizScore: Option<int>, perceivedDifficulty: Option<int>)

  function Completed(r: DayReport): int { r.completedTasks.GetOr(0) }

  function Difficulty(r: DayReport): int { r.perceivedDifficulty.GetOr(3) }

  /** Python's `int(a / b)`: the quotient truncated toward zero. */
  function TruncDiv(a: int, b: int): (q: int)
    requires b > 0
    ensures a >= 0 ==> q * b <= a < q * b + b
    ensures a < 0 ==> q * b - b < a <= q * b
  {
    DivBounds(if a >= 0 then a else -a, b);
    if a >= 0 then a / b else -((-a) / b)
  }

  /** The daily score: without a quiz ten per completed task, unclamped; with a quiz never
   *  negative, and a tenth of the quiz on top of the tasks at the neutral difficulty 3. */
  function DailyScore(r: DayReport): (s: int)
    ensures r.quizScore.None? ==> s == 10 * Completed(r)
    ensures r.quizScore.Some? ==> s >= 0
    ensures r.quizScore.Some? && r.quizScore.value >= 0 && Difficulty(r) == 3 && Completed(r) >= 0 ==>
      s == 10 * Completed(r) + r.quizScore.value / 10
  {
    var base := Completed(r) * 10;
    match r.quizScore
    case None => base
    case Some(quiz) => Max(0, base + TruncDiv(quiz, 10) - (Difficulty(r) - 3) * 5)
  }

  /** More completed tasks or a better quiz never lower the score, and a harder day never
   *  raises it. */
  lemma DailyScoreMonotone(r: DayReport, s: DayReport)
    requires Completed(r) <= Completed(s) && Difficulty(s) <= Difficulty(r)
    requires r.quizScore.None? <==> s.quizScore.None?
    requires r.quizScore.Some? ==> r.quizScore.value <= s.quizScore.value
    ensures DailyScore(r) <= DailyScore(s)
  {
    if r.quizScore.Some? {
      TruncDivMonotone(r.quizScore.value, s.quizScore.value, 10);
    }
  }

  lemma TruncDivMonotone(a: int, a': int, b: int)
    requires b > 0 && a <= a'
    ensures TruncDiv(a, b) <= TruncDiv(a', b)
  {
    if 0 <= a {
      DivMonotone(a, a', b);
      assert TruncDiv(a, b) == a / b && TruncDiv(a', b) == a' / b;
    } else if a' < 0 {
      DivMonotone(-a', -a, b);
      assert TruncDiv(a, b) == -((-a) / b) && TruncDiv(a', b) == -((-a') / b);
    } else {
      DivMonotone(0, -a, b);
      DivMonotone(0, a', b);
      assert TruncDiv(a, b) == -((-a) / b) && TruncDiv(a', b) == a' / b;
    }
  }

  lemma DivMonotone(x: int, y: int, b: int)
    requires 0 <= x <= y && b > 0
    ensures x / b <= y / b
  {
    var q, q' := x / b, y / b;
    DivBounds(x, b);
    DivBounds(y, b);
    assert (q' + 1) * b == q' * b + b;
    if q' < q {
      MulMonotone(q' + 1, q, b);
      assert false;
    }
  }

  lemma MulMonotone(x: int, y: int, b: int)
    requires x <= y && b > 0
    ensures x * b <= y * b
  {
    var d := y - x;
    assert y * b == x * b + d * b;
    if d >= 1 {
      MulAtLeast(d, b);
    }
  }
}

=== FILE: evaluation_agent.dfy ===
/**
 * The evaluation agent of the first tree: the daily score of a day report, kept with the
 * report itself and appended to the memory when one is set.
 */
module LegacyEvaluation {
  import opened Wrappers
  import opened Text
  import opened DayReports
  import opened MemoryStore

  /** The metrics dict: exactly the score and the raw report. */
  datatype Metrics = Metrics(dailyScore: int, raw: DayReport)

  class EvaluationAgent<P, Q, D> {
    const memory: MemoryBank?<P, Q, D, Metrics>

    constructor(memory: MemoryBank?<P, Q, D, Metrics>)
      ensures this.memory == memory
    {
      this.memory := memory;
    }

    /** `evaluate`: the score built step by step, the metrics appended to the memory exactly
     *  once when one is set. */
    method Evaluate(report: DayReport) returns (metrics: Metrics)
      modifies memory
      ensures metrics == Metrics(DailyScore(report), report)
      ensures memory != null ==>
        memory.performance == Some(old(memory.performance).GetOr([]) + [metrics])
        && memory.userProfile == old(memory.userProfile) && memory.recommendations == old(memory.recommendations)
        && memory.dailyPlans == old(memory.dailyPlans)
    {
      var score := 0;
      var completed := Completed(report);
      var quiz := report.quizScore;
      var diff := Difficulty(report);
      score := completed * 10;
      if quiz.Some? {
        score := score + TruncDiv(quiz.value, 10);
        score := Max(0, score - (diff - 3) * 5);
      }
      metrics := Metrics(score, report);
      if memory != null {
        memory.AppendPerformance(metrics);
      }
    }
  }
}

=== FILE: fence.dfy ===
/**
 * The cleaning rule every Gemini caller applies to a reply before handing it to the JSON
 * parser: prefer the body of a "```json" block, else the body of the first "``` ... ```"
 * block, else the reply itself.
 */
module Fence {
  import opened Text

  const JsonFence: string := "```json"
  const PlainFence: string := "```"

  /** `text.split("```json")[1].split("```")[0]`, else `text.split("```")[1].split("```")[0]`,
   *  else `text` (the caller has already stripped `text`). */
  function Unfence(text: string): string
  {
    if Contains(text, JsonFence) then Split(Split(text, JsonFence)[1], PlainFence)[0]
    else if Contains(text, PlainFence) then Split(Split(text, PlainFence)[1], PlainFence)[0]
    else text
  }

  /** What the validating callers parse: strip the reply, unfence it, strip again. */
  function CleanReply(raw: string): string
  {
    Strip(Unfence(Strip(raw)))
  }

  lemma JsonFenceIsFenced(text: string)
    requires Contains(text, JsonFence)
    ensures Contains(text, PlainFence)
  {
    assert OccursAt(JsonFence, PlainFence, 0);
    ContainsTransitive(text, JsonFence, PlainFence);
  }

  /** The first two pieces of a split are infixes of the split string. */
  lemma SplitPiecesAreInfixes(s: string, sep: string)
    requires sep != []
    ensures Contains(s, Split(s, sep)[0])
    ensures Contains(s, sep) ==> Contains(s, Split(s, sep)[1])
  {
    match Find(s, sep)
    case None =>
      SliceIsInfix(s, 0, |s|);
      assert s[0..|s|] == s;
    case Some(i) =>
      SliceIsInfix(s, 0, i);
      assert s[0..i] == s[..i];
      var tail := s[i + |sep|..];
      SliceIsInfix(s, i + |sep|, |s|);
      assert s[i + |sep|..|s|] == tail;
      SplitSecond(s, sep);
      SplitPiecesAreInfixes(tail, sep);
      ContainsTransitive(s, tail, Split(tail, sep)[0]);
  }

  /** The extracted body is always a piece of the reply. */
  lemma UnfenceIsInfix(text: string)
    ensures Contains(text, Unfence(text))
  {
    if Contains(text, JsonFence) {
      var mid := Split(text, JsonFence)[1];
      SplitPiecesAreInfixes(text, JsonFence);
      SplitPiecesAreInfixes(mid, PlainFence);
      ContainsTransitive(text, mid, Split(mid, PlainFence)[0]);
    } else if Contains(text, PlainFence) {
      var mid := Split(text, PlainFence)[1];
      SplitPiecesAreInfixes(text, PlainFence);
      SplitPiecesAreInfixes(mid, PlainFence);
      ContainsTransitive(text, mid, Split(mid, PlainFence)[0]);
    } else {
      SliceIsInfix(text, 0, |text|);
      assert text[0..|text|] == text;
    }
  }

  /** A fenced reply yields a body with no fence left in it; an unfenced reply is kept whole. */
  lemma UnfenceRemovesFences(text: string)
    ensures Contains(text, PlainFence) ==> !Contains(Unfence(text), PlainFence)
    ensures !Contains(text, PlainFence) ==> Unfence(text) == text
  {
    if Contains(text, JsonFence) {
      JsonFenceIsFenced(text);
      SplitHeadHasNoSeparator(Split(text, JsonFence)[1], PlainFence);
    } else if Contains(text, PlainFence) {
      SplitHeadHasNoSeparator(Split(text, PlainFence)[1], PlainFence);
    }
  }

  predicate NoBacktick(s: string)
  {
    forall k :: 0 <= k < |s| ==> s[k] != '`'
  }

  /** A fence cannot start at a character that is not a backtick. */
  lemma NotOccursAtOtherHead(s: string, t: string, j: int)
    requires |t| > 0 && 0 <= j < |s| && s[j] != t[0]
    ensures !OccursAt(s, t, j)
  {
    if j + |t| <= |s| {
      assert s[j..j + |t|][0] == s[j];
    }
  }

  /** In `body + rest` with `body` free of backticks, no fence starts inside `body`. */
  lemma NoFenceInsideBody(body: string, rest: string, t: string)
    requires NoBacktick(body) && |t| > 0 && t[0] == '`'
    ensures forall j :: 0 <= j < |body| ==> !OccursAt(body + rest, t, j)
  {
    forall j | 0 <= j < |body| ensures !OccursAt(body + rest, t, j) {
      assert (body + rest)[j] == body[j];
      NotOccursAtOtherHead(body + rest, t, j);
    }
  }

  /** A backtick-free string is the first piece of itself followed by a fence. */
  lemma BodyBeforeFence(body: string, tail: string)
    requires NoBacktick(body)
    requires tail == [] || (|tail| >= 3 && tail[..3] == PlainFence)
    ensures Split(body + tail, PlainFence)[0] == body
  {
    var s := body + tail;
    NoFenceInsideBody(body, tail, PlainFence);
    if tail == [] {
      assert s == body;
      forall j | 0 <= j <= |s| - 3 ensures !OccursAt(s, PlainFence, j) { }
      assert !Contains(s, PlainFence);
    } else {
      assert s[|body|..|body| + 3] == tail[..3];
      assert OccursAt(s, PlainFence, |body|);
      FindIsFirst(s, PlainFence, |body|);
      assert s[..|body|] == body;
    }
  }

  /** `t` cannot occur at `j` when the character under `t[m]` differs from it. */
  lemma NotOccursAtMismatch(s: string, t: string, j: int, m: int)
    requires 0 <= m < |t| && 0 <= j && j + m < |s| && s[j + m] != t[m]
    ensures !OccursAt(s, t, j)
  {
    if j + |t| <= |s| {
      assert s[j..j + |t|][m] == s[j + m];
    }
  }

  /** After "```json<body>```<rest>" loses its opening fence, the next "```json" (if any)
   *  starts at the closing fence or beyond it. */
  lemma NextJsonFence(body: string, rest: string)
    requires NoBacktick(body)
    requires rest == [] || rest[0] != '`'
    ensures var y := body + PlainFence + rest;
      Find(y, JsonFence).Some? ==> Find(y, JsonFence).value == |body| || Find(y, JsonFence).value >= |body| + 3
  {
    var y := body + PlainFence + rest;
    NoFenceInsideBody(body, PlainFence + rest, JsonFence);
    assert body + (PlainFence + rest) == y;
    if rest != [] {
      assert y[|body| + 3] == rest[0];
      NotOccursAtMismatch(y, JsonFence, |body| + 1, 2);
      NotOccursAtMismatch(y, JsonFence, |body| + 2, 1);
    }
  }

  /** The json-fence round trip: wrapping a backtick-free body as "```json<body>```<rest>"
   *  (where `rest` does not continue the closing fence) and unfencing gives the body back. */
  lemma UnfenceJsonBlock(body: string, rest: string)
    requires NoBacktick(body)
    requires rest == [] || rest[0] != '`'
    ensures Unfence(JsonFence + body + PlainFence + rest) == body
  {
    var text := JsonFence + body + PlainFence + rest;
    var y := body + PlainFence + rest;
    LeadingJsonFence(text, y);
    FirstPieceIsBody(body, rest);
  }

  /** A text that opens with "```json" contains it, and its second piece is the first piece
   *  of what follows the fence. */
  lemma LeadingJsonFence(text: string, y: string)
    requires text == JsonFence + y
    ensures Contains(text, JsonFence)
    ensures Split(text, JsonFence)[1] == Split(y, JsonFence)[0]
  {
    assert text[..|JsonFence|] == JsonFence;
    assert OccursAt(text, JsonFence, 0);
    FindIsFirst(text, JsonFence, 0);
    SplitSecond(text, JsonFence);
    assert text[|JsonFence|..] == y;
  }

  /** After the opening fence, the piece before the closing fence is the body. */
  lemma FirstPieceIsBody(body: string, rest: string)
    requires NoBacktick(body)
    requires rest == [] || rest[0] != '`'
    ensures Split(Split(body + PlainFence + rest, JsonFence)[0], PlainFence)[0] == body
  {
    var y := body + PlainFence + rest;
    var p := Split(y, JsonFence)[0];
    NextJsonFence(body, rest);
    match Find(y, JsonFence)
    case None =>
      assert p == body + (PlainFence + rest);
      BodyBeforeFence(body, PlainFence + rest);
    case Some(k) =>
      assert p == y[..k];
      if k == |body| {
        assert p == body + [];
        BodyBeforeFence(body, []);
      } else {
        assert p == body + y[|body|..k];
        assert y[|body|..k][..3] == y[|body|..|body| + 3] == PlainFence;
        BodyBeforeFence(body, y[|body|..k]);
      }
  }

  /** The stripping callers get the stripped body back. */
  lemma CleanReplyJsonBlock(body: string, rest: string)
    requires NoBacktick(body)
    requires rest == [] || rest[0] != '`'
    requires rest == [] || !IsSpace(rest[|rest| - 1])
    ensures CleanReply(JsonFence + body + PlainFence + rest) == Strip(body)
  {
    var text := JsonFence + body + PlainFence + rest;
    assert text[0] == '`' && !IsSpace(text[0]);
    assert !IsSpace(text[|text| - 1]);
    StripKeepsTrimmed(text);
    UnfenceJsonBlock(body, rest);
  }

  /** A string that neither starts nor ends with whitespace is its own strip. */
  lemma StripKeepsTrimmed(s: string)
    requires s != [] && !IsSpace(s[0]) && !IsSpace(s[|s| - 1])
    ensures Strip(s) == s
  {
    assert LeadingSpaces(s) == 0;
    assert KeptBeforeTrailingSpaces(s) == |s|;
  }
}

=== FILE: google_search.dfy ===
/**
 * The web search tool of the root tree: a Custom Search client that falls back to canned
 * results when it is not configured, and a learning-resource search that tags every result
 * with its topic, its level and the kind of page its URL points to.
 */
module GoogleSearch {
  import opened Wrappers
  import opened Text
  import opened Routing

  /** A result dict; the optional fields are the keys a result may not carry yet. */
  datatype Resource = Resource(title: string, url: string, snippet: string,
                               resourceType: Option<string>, source: Option<string>,
                               topic: Option<string>, level: Option<string>)

  /** One item of a Custom Search reply; absent keys are `None`. */
  datatype ApiItem = ApiItem(title: Option<string>, link: Option<string>, snippet: Option<string>)

  /** Python's `given or fallback` on an optional string. */
  function OrElse(given: Option<string>, fallback: string): string
  {
    if given.Some? && given.value != "" then given.value else fallback
  }

  /** The URL keywords of each resource kind, in the order they are checked. */
  const KindRoutes: seq<Route<string>> := [
    Route(["youtube.com", "youtu.be"], "video"),
    Route(["github.com"], "code_repository"),
    Route(["medium.com", "dev.to"], "article"),
    Route(["docs.", "documentation"], "documentation"),
    Route(["udemy.com", "coursera.org", "edx.org"], "course")
  ]

  /** `_classify_resource`: the kind of the first keyword group found in the lowercased URL. */
  function ClassifyResource(url: string): string
  {
    FirstMatch(Lower(url), KindRoutes, "website")
  }

  /** Every URL gets one of the six kinds, and a plain website exactly when no keyword group
   *  is found in it. */
  lemma ClassifyKinds(url: string)
    ensures ClassifyResource(url) in ["video", "code_repository", "article", "documentation", "course", "website"]
    ensures ClassifyResource(url) == "website"
      <==> forall j :: 0 <= j < |KindRoutes| ==> !ContainsAny(Lower(url), KindRoutes[j].keywords)
  {
  }

  /** A YouTube URL is a video, whatever else it contains. */
  lemma YoutubeIsVideo(url: string)
    requires Contains(Lower(url), "youtube.com") || Contains(Lower(url), "youtu.be")
    ensures ClassifyResource(url) == "video"
  {
    var u := Lower(url);
    if Contains(u, "youtube.com") {
      assert "youtube.com" in KindRoutes[0].keywords;
    } else {
      assert "youtu.be" in KindRoutes[0].keywords;
    }
    FirstMatchAt(u, KindRoutes, "website", 0);
  }

  /** A GitHub URL with no video keyword is a code repository. */
  lemma GithubIsCodeRepository(url: string)
    requires Contains(Lower(url), "github.com")
    requires !Contains(Lower(url), "youtube.com") && !Contains(Lower(url), "youtu.be")
    ensures ClassifyResource(url) == "code_repository"
  {
    var u := Lower(url);
    assert !ContainsAny(u, KindRoutes[0].keywords);
    ContainsAnySingle(u, "github.com");
    FirstMatchAt(u, KindRoutes, "website", 1);
  }

  /** The canned results for queries that mention Python. */
  const PythonMocks: seq<Resource> := [
    Resource("Python Resmi Dokümantasyonu", "https://docs.python.org/3/tutorial/",
             "Python programlama diline resmi giriş rehberi.", Some("documentation"), None, None, None),
    Resource("Python Başlangıç Kursu - YouTube", "https://www.youtube.com/watch?v=example",
             "Sıfırdan Python öğrenmek için kapsamlı video serisi.", Some("video"), None, None, None),
    Resource("W3Schools Python Tutorial", "https://www.w3schools.com/python/",
             "İnteraktif Python öğrenme platformu.", Some("website"), None, None, None),
    Resource("Real Python - Tutorials", "https://realpython.com/",
             "Python tutorials, guides, and resources.", Some("article"), None, None, None),
    Resource("Python Egzersizleri", "https://www.hackerrank.com/domains/python",
             "Python pratik problemleri ve alıştırmaları.", Some("website"), None, None, None)
  ]

  const DefaultUrlPrefix: string := "https://example.org/resource/"

  /** The `i`-th generic result for a query that does not mention Python. */
  function DefaultMock(query: string, i: nat): Resource
  {
    Resource("Sonuç " + NatToString(i + 1) + ": " + query, DefaultUrlPrefix + NatToString(i + 1),
             query + " konusu hakkında örnek kaynak.", Some("website"), None, None, None)
  }

  /** The canned list `_mock_search` picks before marking it: the Python list cut to
   *  `maxResults`, else `maxResults` generic results. */
  function MockPool(query: string, maxResults: int): seq<Resource>
  {
    if Contains(Lower(query), "python") then Take(PythonMocks, maxResults)
    else seq(RangeLen(maxResults), i requires 0 <= i => DefaultMock(query, i))
  }

  /** A result list with its `source` key set. */
  function WithSource(rs: seq<Resource>, source: string): (r: seq<Resource>)
    ensures |r| == |rs|
  {
    seq(|rs|, i requires 0 <= i < |rs| => rs[i].(source := Some(source)))
  }

  /** What `_mock_search` returns. */
  function MockResults(query: string, maxResults: int): seq<Resource>
  {
    WithSource(MockPool(query, maxResults), "mock")
  }

  /** The mock results: at most five for a Python query and exactly `maxResults` otherwise,
   *  every one marked as coming from the mock, the generic ones at distinct URLs. */
  lemma MockResultsShape(query: string, maxResults: int)
    ensures var r := MockResults(query, maxResults);
      (maxResults >= 0 ==> |r| == if Contains(Lower(query), "python") then Min(maxResults, 5) else maxResults)
      && (forall i :: 0 <= i < |r| ==> r[i].source == Some("mock"))
      && (Contains(Lower(query), "python") ==> forall i :: 0 <= i < |r| ==> r[i] == PythonMocks[i].(source := Some("mock")))
      && (!Contains(Lower(query), "python") ==> forall i, j :: 0 <= i < j < |r| ==> r[i].url != r[j].url)
  {
    var r := MockResults(query, maxResults);
    if !Contains(Lower(query), "python") {
      forall i, j | 0 <= i < j < |r|
        ensures r[i].url != r[j].url
      {
        NumberedDistinct(DefaultUrlPrefix, i + 1, j + 1);
      }
    }
  }

  /** One reply item as a result dict: missing keys become empty strings. */
  function FromItem(item: ApiItem): Resource
  {
    Resource(item.title.GetOr(""), item.link.GetOr(""), item.snippet.GetOr(""), None, Some("google_api"), None, None)
  }

  /** The learning-resource fields added to one result. */
  function Tag(r: Resource, topic: string, level: string): Resource
  {
    r.(topic := Some(topic), level := Some(level), resourceType := Some(ClassifyResource(r.url)))
  }

  /** Every result of a list, tagged. */
  function Tagged(rs: seq<Resource>, topic: string, level: string): (r: seq<Resource>)
    ensures |r| == |rs|
    decreases |rs|
  {
    if rs == [] then [] else Tagged(rs[..|rs| - 1], topic, level) + [Tag(rs[|rs| - 1], topic, level)]
  }

  /** Tagging keeps every result where it was, with its URL and its source, and records the
   *  topic, the level and the kind its URL shows. */
  lemma {:induction false} TaggedShape(rs: seq<Resource>, topic: string, level: string)
    ensures var r := Tagged(rs, topic, level);
      |r| == |rs|
      && forall i :: 0 <= i < |r| ==>
           r[i].url == rs[i].url && r[i].title == rs[i].title && r[i].source == rs[i].source
           && r[i].topic == Some(topic) && r[i].level == Some(level)
           && r[i].resourceType == Some(ClassifyResource(rs[i].url))
    decreases |rs|
  {
    if rs != [] {
      TaggedShape(rs[..|rs| - 1], topic, level);
    }
  }

  /** The level words `search_learning_resources` translates, keyed by lowercased level. */
  const LevelMap: map<string, string> := map[
    "beginner" := "başlangıç", "başlangıç" := "başlangıç",
    "intermediate" := "orta seviye", "orta" := "orta seviye",
    "advanced" := "ileri seviye", "ileri" := "ileri seviye"
  ]

  /** The level as the query names it: its translation, or the level as given. */
  function LevelText(level: string): string
  {
    var key := Lower(level);
    if key in LevelMap then LevelMap[key] else level
  }

  /** The query `search_learning_resources` sends. */
  function LearningQuery(topic: string, level: string): string
  {
    topic + " " + LevelText(level) + " eğitim tutorial öğren"
  }

  /** The search tool; `service` records whether the Custom Search client was built. */
  class GoogleSearchTool {
    const apiKey: string
    const searchEngineId: string
    const service: bool

    /** Arguments win over the environment when non-empty; the client is built only when
     *  the tool is configured, the client library is installed and building succeeds. */
    constructor(apiKey: Option<string>, searchEngineId: Option<string>, envApiKey: string, envEngineId: string,
                libraryAvailable: bool, buildSucceeds: bool)
      ensures this.apiKey == OrElse(apiKey, envApiKey) && this.searchEngineId == OrElse(searchEngineId, envEngineId)
      ensures service <==> this.apiKey != "" && this.searchEngineId != "" && libraryAvailable && buildSucceeds
    {
      this.apiKey := OrElse(apiKey, envApiKey);
      this.searchEngineId := OrElse(searchEngineId, envEngineId);
      this.service := OrElse(apiKey, envApiKey) != "" && OrElse(searchEngineId, envEngineId) != ""
                      && libraryAvailable && buildSucceeds;
    }

    /** `_is_configured`: both the key and the engine id are non-empty. */
    predicate IsConfigured()
    {
      apiKey != "" && searchEngineId != ""
    }

    /** What `search` returns; `reply` is what the Custom Search call gives back, `None` when
     *  the call raises. */
    function SearchResults(query: string, maxResults: int, reply: Option<seq<ApiItem>>): seq<Resource>
    {
      if !IsConfigured() || !service || reply.None? then MockResults(query, maxResults)
      else seq(|reply.value|, i requires 0 <= i < |reply.value| => FromItem(reply.value[i]))
    }

    /** `_mock_search`: the canned list, each result marked in turn as coming from the mock. */
    method MockSearch(query: string, maxResults: int) returns (results: seq<Resource>)
      ensures results == MockResults(query, maxResults)
    {
      var pool := MockPool(query, maxResults);
      results := [];
      var i := 0;
      while i < |pool|
        invariant 0 <= i <= |pool|
        invariant results == WithSource(pool[..i], "mock")
      {
        results := results + [pool[i].(source := Some("mock"))];
        i := i + 1;
      }
      assert pool[..i] == pool;
    }

    /** `search`: the mock when the tool is unconfigured, has no client or the call fails;
     *  otherwise one result per reply item, marked as coming from the API. */
    method Search(query: string, maxResults: int, reply: Option<seq<ApiItem>>) returns (results: seq<Resource>)
      ensures results == SearchResults(query, maxResults, reply)
      ensures !IsConfigured() ==> results == MockResults(query, maxResults)
      ensures IsConfigured() && service && reply.Some? ==>
        |results| == |reply.value| && forall i :: 0 <= i < |results| ==> results[i].source == Some("google_api")
    {
      if !IsConfigured() || !service || reply.None? {
        results := MockSearch(query, maxResults);
      } else {
        results := seq(|reply.value|, i requires 0 <= i < |reply.value| => FromItem(reply.value[i]));
      }
    }

    /** `search_learning_resources`: the results of the level-translated query, tagged. */
    method SearchLearningResources(topic: string, level: string, maxResults: int, reply: Option<seq<ApiItem>>)
      returns (results: seq<Resource>)
      ensures results == Tagged(SearchResults(LearningQuery(topic, level), maxResults, reply), topic, level)
    {
      var base := Search(LearningQuery(topic, level), maxResults, reply);
      results := TagAll(base, topic, level);
    }
  }

  /** The tagging loop of `search_learning_resources`: each result in turn gets the topic,
   *  the level as given and the kind its URL shows. */
  method TagAll(base: seq<Resource>, topic: string, level: string) returns (results: seq<Resource>)
    ensures results == Tagged(base, topic, level)
  {
    results := [];
    var i := 0;
    while i < |base|
      invariant 0 <= i <= |base|
      invariant results == Tagged(base[..i], topic, level)
    {
      assert base[..i + 1][..i] == base[..i];
      results := results + [Tag(base[i], topic, level)];
      i := i + 1;
    }
    assert base[..i] == base;
  }
}

=== FILE: legacy_ai_service.dfy ===
/**
 * The Gemini wrapper of the first agent tree. Its configuration, plan, analysis,
 * explanation and canned replies coincide with the second tree's (module `AiService`); only
 * quiz generation differs: the parsed reply is handed back as it is, unchecked and
 * untruncated.
 */
module LegacyAiService {
  import opened Wrappers
  import opened Text
  import opened Fence
  import opened AiService

  /** `generate_quiz_questions`: whatever the parser made of the stripped and unfenced reply
   *  when a model answered and the parse succeeded, else the mock quiz. */
  function LegacyQuizQuestions<J>(s: Service, topic: string, n: int, reply: Option<string>, parse: string -> Option<J>)
    : (r: Reply<J, seq<Item>>)
    ensures r.FromModel? <==> s.hasModel && reply.Some? && parse(Unfence(Strip(reply.value))).Some?
    ensures r.FromModel? ==> r.value == parse(Unfence(Strip(reply.value))).value
    ensures r.Mock? ==> r.fallback == MockQuiz(topic, n)
  {
    if !s.hasModel || reply.None? then Mock(MockQuiz(topic, n))
    else
      match parse(Unfence(Strip(reply.value)))
      case Some(j) => FromModel(j)
      case None => Mock(MockQuiz(topic, n))
  }

  /** Without a model, a quiz, a plan and an analysis are all canned, and the quiz has exactly
   *  `n` answerable questions (none for negative `n`). */
  lemma NoModelMeansMocks<J, R, H>(s: Service, topic: string, n: int, dailyTime: Option<real>, resources: seq<R>,
                                   day: int, history: seq<H>, reply: Option<string>, parse: string -> Option<J>)
    requires !s.hasModel
    ensures LegacyQuizQuestions(s, topic, n, reply, parse) == Mock(MockQuiz(topic, n))
    ensures |MockQuiz(topic, n)| == RangeLen(n)
    ensures PersonalizedPlan(s, dailyTime, resources, day, reply, parse) == Mock(MockPlan(dailyTime, resources, day))
    ensures AnalyzePerformance(s, history, reply, parse) == Mock(MockAnalysis)
  {
  }
}

=== FILE: legacy_planning_agent.dfy ===
/**
 * The planning agent of the first tree: a fixed three-task plan sized from the daily hours,
 * with the first three resources, appended to the memory when one is set.
 */
module LegacyPlanning {
  import opened Wrappers
  import opened Text
  import opened Percentages
  import opened MemoryStore

  datatype LegacyTask = LegacyTask(task: string, durationMin: int)

  datatype LegacyPlan<R> = LegacyPlan(planType: string, day: int, tasks: seq<LegacyTask>, resources: seq<R>)

  /** The plan for the daily hours (half an hour when unset): reading and coding of
   *  `int(hours * 20)` minutes around a quiz of `int(hours * 10)`. */
  function LegacyDailyPlan<R>(dailyTime: Option<real>, resources: seq<R>, day: int): (p: LegacyPlan<R>)
    ensures p.planType == "learning_plan" && p.day == day
    ensures |p.tasks| == 3
    ensures p.tasks[0].task == "Theory reading" && p.tasks[1].task == "Mini-quiz" && p.tasks[2].task == "Small coding exercise"
    ensures |p.resources| == Min(3, |resources|) && p.resources == resources[..|p.resources|]
    ensures p.tasks[0].durationMin == p.tasks[2].durationMin
    ensures dailyTime.GetOr(0.5) >= 0.0 ==> 0 <= p.tasks[1].durationMin <= p.tasks[0].durationMin
    ensures dailyTime.None? ==> p.tasks[0].durationMin == 10 && p.tasks[1].durationMin == 5
  {
    var hours := dailyTime.GetOr(0.5);
    LegacyPlan("learning_plan", day,
               [LegacyTask("Theory reading", Trunc(hours * 20.0)),
                LegacyTask("Mini-quiz", Trunc(hours * 10.0)),
                LegacyTask("Small coding exercise", Trunc(hours * 20.0))],
               Take(resources, 3))
  }

  class LegacyPlanningAgent<P, Q, R, M> {
    const memory: MemoryBank?<P, Q, LegacyPlan<R>, M>

    constructor(memory: MemoryBank?<P, Q, LegacyPlan<R>, M>)
      ensures this.memory == memory
    {
      this.memory := memory;
    }

    /** `generate_daily_plan`: the plan, appended to the memory exactly once when one is set. */
    method GenerateDailyPlan(dailyTime: Option<real>, resources: seq<R>, day: int) returns (plan: LegacyPlan<R>)
      modifies memory
      ensures plan == LegacyDailyPlan(dailyTime, resources, day)
      ensures memory != null ==>
        memory.dailyPlans == Some(old(memory.dailyPlans).GetOr([]) + [plan])
        && memory.userProfile == old(memory.userProfile) && memory.recommendations == old(memory.recommendations)
        && memory.performance == old(memory.performance)
    {
      plan := LegacyDailyPlan(dailyTime, resources, day);
      if memory != null {
        memory.AppendDailyPlan(plan);
      }
    }
  }
}

=== FILE: level_assessment_agent.dfy ===
/**
 * The level assessment agent of the first agent tree: generated placement questions with
 * a per-item check and an all-or-nothing acceptance threshold, the static question banks
 * picked by topic, and the band-gated level calculation with per-topic strengths.
 */
module LevelAssessment {
  import opened Wrappers
  import opened Text
  import opened Percentages
  import opened Routing
  import opened Fence
  import opened Tallies

  /** A question id or an answer key: the JSON number or string. */
  datatype Key = IntKey(n: int) | TextKey(s: string)

  /** One question dict; `None` is a missing key. */
  datatype Question = Question(
    id: Option<Key>,
    question: Option<string>,
    options: Option<seq<string>>,
    correct: Option<string>,
    difficulty: Option<string>,
    topicArea: Option<string>)

  /** What the JSON parser made of the cleaned reply. */
  datatype Parsed = ParseError | NotAList | Items(items: seq<Question>)

  /** The canned question banks; their contents are not part of this model. */
  datatype Bank = PythonBank | WebBank | DataBank | EnglishBank | GenericBank(topic: string)

  /** The questions the agent hands out: generated ones, or a canned bank. */
  datatype Battery = Generated(questions: seq<Question>) | Static(bank: Bank)

  // ------------------------------------------------------------ _get_static_assessment

  const BankRoutes: seq<Route<Bank>> := [
    Route(["python"], PythonBank),
    Route(["web", "html", "css", "javascript"], WebBank),
    Route(["veri", "data", "analiz"], DataBank),
    Route(["ingilizce", "english"], EnglishBank)
  ]

  /** The bank for a topic: the first keyword group found in the lowercased topic, else the
   *  generic bank for that topic. The question count is not consulted. */
  function StaticBank(topic: string): (b: Bank)
    ensures Contains(Lower(topic), "python") ==> b == PythonBank
    ensures b.GenericBank? <==> forall j :: 0 <= j < |BankRoutes| ==> !ContainsAny(Lower(topic), BankRoutes[j].keywords)
    ensures b.GenericBank? ==> b.topic == topic
  {
    ContainsAnySingle(Lower(topic), "python");
    FirstMatch(Lower(topic), BankRoutes, GenericBank(topic))
  }

  // ----------------------------------------------------------- _generate_ai_assessment

  /** All six keys are present and the correct answer is one of the options. */
  predicate IsValid(q: Question)
  {
    q.id.Some? && q.question.Some? && q.options.Some? && q.correct.Some? && q.difficulty.Some?
    && q.topicArea.Some? && q.correct.value in q.options.value
  }

  /** The validation loop: keeps the valid items in input order. */
  method ValidQuestions(items: seq<Question>) returns (valid: seq<Question>)
    ensures valid == Filter(items, IsValid)
  {
    valid := [];
    var i := 0;
    while i < |items|
      invariant 0 <= i <= |items|
      invariant valid == Filter(items[..i], IsValid)
    {
      var q := items[i];
      if q.id.Some? && q.question.Some? && q.options.Some? && q.correct.Some? && q.difficulty.Some? && q.topicArea.Some? {
        if q.correct.value in q.options.value {
          valid := valid + [q];
        }
      }
      assert items[..i + 1] == items[..i] + [q];
      FilterAppend(items[..i], q, IsValid);
      i := i + 1;
    }
    assert items[..i] == items;
  }

  /** The battery for a reply of the model (`None`: the call raised), given the parser. */
  function FromReply(topic: string, n: int, reply: Option<string>, parse: string -> Parsed): Battery
  {
    if reply.None? then Static(StaticBank(topic))
    else
      match parse(CleanReply(reply.value))
      case Items(items) =>
        if |items| == 0 then Static(StaticBank(topic))
        else
          var valid := Filter(items, IsValid);
          if |valid| >= n / 2 then Generated(Take(valid, n)) else Static(StaticBank(topic))
      case _ => Static(StaticBank(topic))
  }

  /** The generated questions are used exactly when the parsed list is non-empty and at least
   *  `n // 2` of its items are valid; they are then the first valid items, in input order,
   *  each valid, at most `n` of them. Anything else gives the bank for the topic. */
  lemma FromReplyAccepts(topic: string, n: int, reply: string, parse: string -> Parsed)
    ensures var b := FromReply(topic, n, Some(reply), parse);
      var p := parse(CleanReply(reply));
      (b.Generated? <==> p.Items? && |p.items| > 0 && |Filter(p.items, IsValid)| >= n / 2)
      && (b.Generated? ==>
            IsSubsequence(b.questions, p.items)
            && (forall q :: q in b.questions ==> IsValid(q))
            && (n >= 0 ==> |b.questions| <= n))
      && (!b.Generated? ==> b == Static(StaticBank(topic)))
  {
    var p := parse(CleanReply(reply));
    if p.Items? && |p.items| > 0 {
      AcceptedShape(p.items, n);
    }
  }

  /** The first `n` valid items are valid and appear in the list in that order. */
  lemma AcceptedShape(items: seq<Question>, n: int)
    ensures var taken := Take(Filter(items, IsValid), n);
      IsSubsequence(taken, items) && (forall q :: q in taken ==> IsValid(q)) && (n >= 0 ==> |taken| <= n)
  {
    var valid := Filter(items, IsValid);
    FilterMembers(items, IsValid);
    FilterOrder(items, IsValid);
    var taken := Take(valid, n);
    PrefixIsSubsequence(valid, |taken|);
    SubsequenceTransitive(taken, valid, items);
    assert forall q :: q in taken ==> q in valid;
  }

  /** With at most one question requested, a non-empty list without a single valid item is
   *  accepted, and the battery is empty. */
  lemma NothingValidAcceptedForTinyBatteries(topic: string, n: int, reply: string, parse: string -> Parsed)
    requires n <= 1
    requires parse(CleanReply(reply)).Items? && |parse(CleanReply(reply)).items| > 0
    requires forall i :: 0 <= i < |parse(CleanReply(reply)).items| ==> !IsValid(parse(CleanReply(reply)).items[i])
    ensures FromReply(topic, n, Some(reply), parse) == Generated([])
  {
    var items := parse(CleanReply(reply)).items;
    FilterNone(items, IsValid);
  }

  /** `get_assessment_questions`: generated questions when a model is configured, else the
   *  bank for the topic. */
  method GetAssessmentQuestions(modelAvailable: bool, topic: string, n: int, reply: Option<string>,
                                parse: string -> Parsed) returns (b: Battery)
    ensures modelAvailable ==> b == FromReply(topic, n, reply, parse)
    ensures !modelAvailable ==> b == Static(StaticBank(topic))
  {
    if !modelAvailable || reply.None? {
      return Static(StaticBank(topic));
    }
    var parsed := parse(CleanReply(reply.value));
    if !parsed.Items? || |parsed.items| == 0 {
      return Static(StaticBank(topic));
    }
    var valid := ValidQuestions(parsed.items);
    if |valid| >= n / 2 {
      b := Generated(Take(valid, n));
    } else {
      b := Static(StaticBank(topic));
    }
  }

  // ------------------------------------------------------------------ calculate_level

  type Answers = map<Key, string>

  /** `q.get("id", 0)`. */
  function IdOf(q: Question): Key
  {
    q.id.GetOr(IntKey(0))
  }

  /** `answers.get(q_id, "") == q.get("correct", "")`. */
  predicate IsCorrect(answers: Answers, q: Question)
  {
    (if IdOf(q) in answers then answers[IdOf(q)] else "") == q.correct.GetOr("")
  }

  function CorrectIn(answers: Answers): Question -> bool
  {
    q => IsCorrect(answers, q)
  }

  /** The band a question is counted in: any tag other than easy or medium is hard. */
  function BandOf(q: Question): (b: string)
    ensures b == "easy" || b == "medium" || b == "hard"
  {
    var d := q.difficulty.GetOr("medium");
    if d == "easy" then "easy" else if d == "medium" then "medium" else "hard"
  }

  /** `q.get("topic_area", "Genel")`. */
  function TopicOf(q: Question): string
  {
    q.topicArea.GetOr("Genel")
  }

  /** `correct / total * 100 >= k`, with the source's 0 for an empty denominator, compared exactly. */
  predicate PctAtLeast(correct: int, total: int, k: int)
  {
    if total > 0 then 100 * correct >= k * total else 0 >= k
  }

  datatype Level = Level(name: string, nameTr: string, startDay: int)

  const Beginner := Level("beginner", "Başlangıç", 1)
  const Intermediate := Level("intermediate", "Orta", 8)
  const Advanced := Level("advanced", "İleri", 15)

  /** The band-gated rule: a weak easy band decides beginner before anything else. */
  function LevelFor(ec: int, et: int, mc: int, mt: int, hc: int, ht: int): Level
  {
    if !PctAtLeast(ec, et, 50) then Beginner
    else if PctAtLeast(ec, et, 80) && PctAtLeast(mc, mt, 60) && PctAtLeast(hc, ht, 40) then Advanced
    else if PctAtLeast(ec, et, 70) && PctAtLeast(mc, mt, 40) then Intermediate
    else Beginner
  }

  function IsStrength(answers: Answers, qs: seq<Question>): string -> bool
  {
    t => PctAtLeast(CountKeyHits(qs, TopicOf, CorrectIn(answers), t), CountKey(qs, TopicOf, t), 70)
  }

  function IsWeakness(answers: Answers, qs: seq<Question>): string -> bool
  {
    t => !PctAtLeast(CountKeyHits(qs, TopicOf, CorrectIn(answers), t), CountKey(qs, TopicOf, t), 50)
  }

  /** The six band counters: correct and total for easy, medium and hard. */
  datatype BandCounts = BandCounts(ec: int, et: int, mc: int, mt: int, hc: int, ht: int)

  function Bands(answers: Answers, qs: seq<Question>): BandCounts
  {
    var hit := CorrectIn(answers);
    BandCounts(CountKeyHits(qs, BandOf, hit, "easy"), CountKey(qs, BandOf, "easy"),
               CountKeyHits(qs, BandOf, hit, "medium"), CountKey(qs, BandOf, "medium"),
               CountKeyHits(qs, BandOf, hit, "hard"), CountKey(qs, BandOf, "hard"))
  }

  function LevelOf(b: BandCounts): Level
  {
    LevelFor(b.ec, b.et, b.mc, b.mt, b.hc, b.ht)
  }

  datatype TopicCount = TopicCount(topic: string, correct: int, total: int)

  datatype LevelReport = LevelReport(
    level: string,
    levelTr: string,
    score: int,
    easyScore: int,
    mediumScore: int,
    hardScore: int,
    strengths: seq<string>,
    weaknesses: seq<string>,
    recommendedStartDay: int,
    topicScores: seq<TopicCount>)

  function Counts(answers: Answers, qs: seq<Question>, ts: seq<string>): (r: seq<TopicCount>)
    ensures |r| == |ts|
    decreases |ts|
  {
    if ts == [] then []
    else
      var t := ts[|ts| - 1];
      Counts(answers, qs, ts[..|ts| - 1]) + [TopicCount(t, CountKeyHits(qs, TopicOf, CorrectIn(answers), t), CountKey(qs, TopicOf, t))]
  }

  lemma CountsAppend(answers: Answers, qs: seq<Question>, ts: seq<string>, t: string)
    ensures Counts(answers, qs, ts + [t])
            == Counts(answers, qs, ts) + [TopicCount(t, CountKeyHits(qs, TopicOf, CorrectIn(answers), t), CountKey(qs, TopicOf, t))]
  {
    assert (ts + [t])[..|ts|] == ts;
  }

  function LevelSentence(level: string): string
  {
    if level == "beginner" then "Temel konulardan başlamanızı öneriyoruz. "
    else if level == "intermediate" then "Temel bilgileriniz iyi, orta seviye konulardan devam edebilirsiniz. "
    else "İleri seviye konulara geçebilirsiniz. "
  }

  /** The report's `summary` text, which depends only on its score, level and weaknesses:
   *  the overall score, the level sentence, and at most three weak topics. */
  function Summary(r: LevelReport): (text: string)
    ensures forall i :: 0 <= i < |r.weaknesses| && i < 3 ==> Contains(text, r.weaknesses[i])
  {
    var head := "Genel skorunuz %" + IntToString(r.score) + ". " + LevelSentence(r.level);
    if r.weaknesses == [] then head
    else
      var named := Join(Take(r.weaknesses, 3), ", ");
      JoinContainsParts(Take(r.weaknesses, 3), ", ");
      SuffixContains(head + "Şu konulara odaklanmanız faydalı olacaktır: ", named);
      forall i | 0 <= i < |r.weaknesses| && i < 3 ensures Contains(named, r.weaknesses[i]) {
        assert Take(r.weaknesses, 3)[i] == r.weaknesses[i];
      }
      head + "Şu konulara odaklanmanız faydalı olacaktır: " + named
  }

  /** The report `calculate_level` returns. */
  function Report(answers: Answers, qs: seq<Question>): LevelReport
  {
    ReportFrom(Bands(answers, qs), answers, qs)
  }

  /** The report built from the band counters and the topic counts. */
  function ReportFrom(b: BandCounts, answers: Answers, qs: seq<Question>): LevelReport
  {
    var topics := KeysInOrder(qs, TopicOf);
    Assemble(b, Filter(topics, IsStrength(answers, qs)), Filter(topics, IsWeakness(answers, qs)),
             Counts(answers, qs, topics))
  }

  /** The result dict: level, overall and per-band percentages, topic lists and start day. */
  function Assemble(b: BandCounts, strengths: seq<string>, weaknesses: seq<string>, counts: seq<TopicCount>): LevelReport
  {
    var level := LevelOf(b);
    LevelReport(level.name, level.nameTr, Percent(b.ec + b.mc + b.hc, b.et + b.mt + b.ht),
                Percent(b.ec, b.et), Percent(b.mc, b.mt), Percent(b.hc, b.ht),
                strengths, weaknesses, level.startDay, counts)
  }

  /** The bands partition the questions: every question is counted in exactly one band. */
  lemma {:induction false} BandTotalsSum(qs: seq<Question>)
    ensures CountKey(qs, BandOf, "easy") + CountKey(qs, BandOf, "medium") + CountKey(qs, BandOf, "hard") == |qs|
    decreases |qs|
  {
    if qs != [] {
      BandTotalsSum(qs[..|qs| - 1]);
    }
  }

  /** The overall score is the floor of 100 * correct / |questions|, and every score lies in 0..100. */
  lemma ReportScores(answers: Answers, qs: seq<Question>)
    ensures var r, b := Report(answers, qs), Bands(answers, qs);
      r.score == Percent(b.ec + b.mc + b.hc, |qs|) && 0 <= b.ec + b.mc + b.hc <= |qs|
      && 0 <= r.score <= 100 && 0 <= r.easyScore <= 100 && 0 <= r.mediumScore <= 100 && 0 <= r.hardScore <= 100
  {
    var hit := CorrectIn(answers);
    var b := Bands(answers, qs);
    BandTotalsSum(qs);
    HitsAtMostCount(qs, BandOf, hit, "easy");
    HitsAtMostCount(qs, BandOf, hit, "medium");
    HitsAtMostCount(qs, BandOf, hit, "hard");
    assert b.et + b.mt + b.ht == |qs|;
    PercentBounds(b.ec + b.mc + b.hc, |qs|);
    PercentBounds(b.ec, b.et);
    PercentBounds(b.mc, b.mt);
    PercentBounds(b.hc, b.ht);
  }

  /** An unanswered question without a "correct" key counts as answered correctly. */
  lemma MissingKeyAndAnswerCountsCorrect(answers: Answers, q: Question)
    requires q.correct.None? && IdOf(q) !in answers
    ensures IsCorrect(answers, q)
  {
  }

  /** Without easy questions the easy score is 0, so the level is beginner. */
  lemma NoEasyQuestionsIsBeginner(answers: Answers, qs: seq<Question>)
    requires forall i :: 0 <= i < |qs| ==> BandOf(qs[i]) != "easy"
    ensures Report(answers, qs).level == "beginner" && Report(answers, qs).recommendedStartDay == 1
  {
    NoneOfKey(qs, BandOf, "easy");
    assert Bands(answers, qs).et == 0;
    assert LevelOf(Bands(answers, qs)) == Beginner;
  }

  lemma {:induction false} NoneOfKey<T>(xs: seq<T>, key: T -> string, k: string)
    requires forall i :: 0 <= i < |xs| ==> key(xs[i]) != k
    ensures CountKey(xs, key, k) == 0
    decreases |xs|
  {
    if xs != [] {
      NoneOfKey(xs[..|xs| - 1], key, k);
    }
  }

  /** A perfect answer sheet is advanced when every band has a question, but beginner when
   *  the battery has easy questions and no medium one: the empty medium band scores 0. */
  lemma PerfectSheet(answers: Answers, qs: seq<Question>)
    requires forall i :: 0 <= i < |qs| ==> IsCorrect(answers, qs[i])
    ensures var b := Bands(answers, qs);
      b.et > 0 && b.mt > 0 && b.ht > 0 ==> Report(answers, qs).level == "advanced"
    ensures var b := Bands(answers, qs);
      b.et > 0 && b.mt == 0 ==> Report(answers, qs).level == "beginner"
  {
    var hit := CorrectIn(answers);
    forall i | 0 <= i < |qs| ensures hit(qs[i]) {
      assert IsCorrect(answers, qs[i]);
    }
    AllHitsCount(qs, BandOf, hit, "easy");
    AllHitsCount(qs, BandOf, hit, "medium");
    AllHitsCount(qs, BandOf, hit, "hard");
    var b := Bands(answers, qs);
    assert b.ec == b.et && b.mc == b.mt && b.hc == b.ht;
    assert Report(answers, qs).level == LevelOf(b).name;
  }

  /** A topic is a strength iff it scores at least 70 and a weakness iff below 50; no topic
   *  is both, and both lists keep first-appearance order. */
  lemma StrengthsAndWeaknesses(answers: Answers, qs: seq<Question>)
    ensures var r := Report(answers, qs);
      var ts := KeysInOrder(qs, TopicOf);
      (forall t :: t in r.strengths <==> t in ts && IsStrength(answers, qs)(t))
      && (forall t :: t in r.weaknesses <==> t in ts && IsWeakness(answers, qs)(t))
      && (forall t :: !(t in r.strengths && t in r.weaknesses))
      && IsSubsequence(r.strengths, ts) && IsSubsequence(r.weaknesses, ts)
  {
    var ts := KeysInOrder(qs, TopicOf);
    FilterMembers(ts, IsStrength(answers, qs));
    FilterMembers(ts, IsWeakness(answers, qs));
    FilterOrder(ts, IsStrength(answers, qs));
    FilterOrder(ts, IsWeakness(answers, qs));
    forall t ensures !(IsStrength(answers, qs)(t) && IsWeakness(answers, qs)(t)) {
      var c, n := CountKeyHits(qs, TopicOf, CorrectIn(answers), t), CountKey(qs, TopicOf, t);
      assert IsStrength(answers, qs)(t) == PctAtLeast(c, n, 70);
      assert IsWeakness(answers, qs)(t) == !PctAtLeast(c, n, 50);
    }
  }

  /** One question's contribution to the band counters. */
  function BandStep(b: BandCounts, isCorrect: bool, difficulty: string): BandCounts
  {
    var c := if isCorrect then 1 else 0;
    if difficulty == "easy" then b.(et := b.et + 1, ec := b.ec + c)
    else if difficulty == "medium" then b.(mt := b.mt + 1, mc := b.mc + c)
    else b.(ht := b.ht + 1, hc := b.hc + c)
  }

  lemma BandsStep(answers: Answers, qs: seq<Question>, i: int)
    requires 0 <= i < |qs|
    ensures Bands(answers, qs[..i + 1]) == BandStep(Bands(answers, qs[..i]), IsCorrect(answers, qs[i]), qs[i].difficulty.GetOr("medium"))
  {
    CountStep(qs, BandOf, CorrectIn(answers), i);
  }

  /** The band branch of the counting loop. */
  method CountInBand(b: BandCounts, difficulty: string, isCorrect: bool) returns (r: BandCounts)
    ensures r == BandStep(b, isCorrect, difficulty)
  {
    r := b;
    if difficulty == "easy" {
      r := r.(et := r.et + 1);
      if isCorrect { r := r.(ec := r.ec + 1); }
    } else if difficulty == "medium" {
      r := r.(mt := r.mt + 1);
      if isCorrect { r := r.(mc := r.mc + 1); }
    } else {
      r := r.(ht := r.ht + 1);
      if isCorrect { r := r.(hc := r.hc + 1); }
    }
  }

  /** The topic branch of the counting loop: a new topic enters the dict with zero counts,
   *  then its total (and, for a correct answer, its correct count) goes up by one. */
  method CountInTopic(order: seq<string>, correct: map<string, int>, total: map<string, int>, topic: string, isCorrect: bool)
    returns (order': seq<string>, correct': map<string, int>, total': map<string, int>)
    requires forall t :: t in total <==> t in order
    requires forall t :: t in correct <==> t in order
    ensures order' == if topic in order then order else order + [topic]
    ensures forall t :: t in total' <==> t in order'
    ensures forall t :: t in correct' <==> t in order'
    ensures forall t :: CountOf(total', t) == CountOf(total, t) + (if t == topic then 1 else 0)
    ensures forall t :: CountOf(correct', t) == CountOf(correct, t) + (if t == topic && isCorrect then 1 else 0)
  {
    order', correct', total' := order, correct, total;
    if topic !in total' {
      order' := order' + [topic];
      total' := total'[topic := 0];
      correct' := correct'[topic := 0];
    }
    total' := total'[topic := total'[topic] + 1];
    if isCorrect {
      correct' := correct'[topic := correct'[topic] + 1];
    }
  }

  /** The per-topic dicts hold, for the questions `xs` seen so far, the topics in order of
   *  first appearance and each topic's question and correct-answer counts. */
  ghost predicate DictsAgree(answers: Answers, xs: seq<Question>, order: seq<string>,
                       correct: map<string, int>, total: map<string, int>)
  {
    order == KeysInOrder(xs, TopicOf)
    && (forall t :: t in total <==> t in order)
    && (forall t :: t in correct <==> t in order)
    && (forall t :: CountOf(total, t) == CountKey(xs, TopicOf, t))
    && (forall t :: CountOf(correct, t) == CountKeyHits(xs, TopicOf, CorrectIn(answers), t))
  }

  lemma DictsStep(answers: Answers, qs: seq<Question>, i: int,
                  order: seq<string>, correct: map<string, int>, total: map<string, int>,
                  order': seq<string>, correct': map<string, int>, total': map<string, int>)
    requires 0 <= i < |qs|
    requires DictsAgree(answers, qs[..i], order, correct, total)
    requires var topic := TopicOf(qs[i]);
      order' == (if topic in order then order else order + [topic])
      && (forall t :: t in total' <==> t in order')
      && (forall t :: t in correct' <==> t in order')
      && (forall t :: CountOf(total', t) == CountOf(total, t) + (if t == topic then 1 else 0))
      && (forall t :: CountOf(correct', t) == CountOf(correct, t) + (if t == topic && IsCorrect(answers, qs[i]) then 1 else 0))
    ensures DictsAgree(answers, qs[..i + 1], order', correct', total')
  {
    var hit := CorrectIn(answers);
    assert hit(qs[i]) == IsCorrect(answers, qs[i]);
    CountStep(qs, TopicOf, hit, i);
  }

  /** One pass of the counting loop of `calculate_level`: question `i` is counted in its band
   *  and under its topic. */
  method CountOne(answers: Answers, questions: seq<Question>, i: int, bands: BandCounts,
                  topicOrder: seq<string>, topicCorrect: map<string, int>, topicTotal: map<string, int>)
    returns (bands': BandCounts, topicOrder': seq<string>, topicCorrect': map<string, int>, topicTotal': map<string, int>)
    requires 0 <= i < |questions|
    requires bands == Bands(answers, questions[..i])
    requires DictsAgree(answers, questions[..i], topicOrder, topicCorrect, topicTotal)
    ensures bands' == Bands(answers, questions[..i + 1])
    ensures DictsAgree(answers, questions[..i + 1], topicOrder', topicCorrect', topicTotal')
  {
    var q := questions[i];
    var difficulty := q.difficulty.GetOr("medium");
    var topicArea := q.topicArea.GetOr("Genel");
    var correctAnswer := q.correct.GetOr("");
    var qId := q.id.GetOr(IntKey(0));
    var userAnswer := if qId in answers then answers[qId] else "";
    var isCorrect := userAnswer == correctAnswer;
    assert isCorrect == IsCorrect(answers, q);
    BandsStep(answers, questions, i);
    bands' := CountInBand(bands, difficulty, isCorrect);
    topicOrder', topicCorrect', topicTotal' := CountInTopic(topicOrder, topicCorrect, topicTotal, topicArea, isCorrect);
    DictsStep(answers, questions, i, topicOrder, topicCorrect, topicTotal, topicOrder', topicCorrect', topicTotal');
  }

  /** The counting loop of `calculate_level`: six band counters and the per-topic dict. */
  method CountAnswers(answers: Answers, questions: seq<Question>)
    returns (bands: BandCounts, topicOrder: seq<string>, topicCorrect: map<string, int>, topicTotal: map<string, int>)
    ensures bands == Bands(answers, questions)
    ensures DictsAgree(answers, questions, topicOrder, topicCorrect, topicTotal)
  {
    bands := BandCounts(0, 0, 0, 0, 0, 0);
    topicOrder, topicCorrect, topicTotal := [], map[], map[];
    var i := 0;
    while i < |questions|
      invariant 0 <= i <= |questions|
      invariant bands == Bands(answers, questions[..i])
      invariant DictsAgree(answers, questions[..i], topicOrder, topicCorrect, topicTotal)
    {
      bands, topicOrder, topicCorrect, topicTotal := CountOne(answers, questions, i, bands, topicOrder, topicCorrect, topicTotal);
      i := i + 1;
    }
    assert questions[..i] == questions;
  }

  /** How the topic lists grow when one more topic is classified. */
  lemma ClassifyStep(answers: Answers, qs: seq<Question>, ts: seq<string>, k: int)
    requires 0 <= k < |ts|
    ensures var t, c, n := ts[k], CountKeyHits(qs, TopicOf, CorrectIn(answers), ts[k]), CountKey(qs, TopicOf, ts[k]);
      Filter(ts[..k + 1], IsStrength(answers, qs)) == Filter(ts[..k], IsStrength(answers, qs)) + (if PctAtLeast(c, n, 70) then [t] else [])
      && Filter(ts[..k + 1], IsWeakness(answers, qs)) == Filter(ts[..k], IsWeakness(answers, qs)) + (if !PctAtLeast(c, n, 50) then [t] else [])
      && Counts(answers, qs, ts[..k + 1]) == Counts(answers, qs, ts[..k]) + [TopicCount(t, c, n)]
  {
    var t := ts[k];
    assert ts[..k + 1] == ts[..k] + [t];
    FilterAppend(ts[..k], t, IsStrength(answers, qs));
    FilterAppend(ts[..k], t, IsWeakness(answers, qs));
    CountsAppend(answers, qs, ts[..k], t);
  }

  /** The second loop of `calculate_level`: strengths (>= 70) and weaknesses (< 50) in
   *  topic order. */
  method ClassifyTopics(answers: Answers, questions: seq<Question>, topicOrder: seq<string>,
                        topicCorrect: map<string, int>, topicTotal: map<string, int>)
    returns (strengths: seq<string>, weaknesses: seq<string>, counts: seq<TopicCount>)
    requires DictsAgree(answers, questions, topicOrder, topicCorrect, topicTotal)
    ensures strengths == Filter(topicOrder, IsStrength(answers, questions))
    ensures weaknesses == Filter(topicOrder, IsWeakness(answers, questions))
    ensures counts == Counts(answers, questions, topicOrder)
  {
    strengths, weaknesses, counts := [], [], [];
    var k := 0;
    while k < |topicOrder|
      invariant 0 <= k <= |topicOrder|
      invariant strengths == Filter(topicOrder[..k], IsStrength(answers, questions))
      invariant weaknesses == Filter(topicOrder[..k], IsWeakness(answers, questions))
      invariant counts == Counts(answers, questions, topicOrder[..k])
    {
      var t := topicOrder[k];
      var c, n := topicCorrect[t], topicTotal[t];
      assert c == CountOf(topicCorrect, t) && n == CountOf(topicTotal, t);
      ClassifyStep(answers, questions, topicOrder, k);
      if PctAtLeast(c, n, 70) {
        strengths := strengths + [t];
      } else if !PctAtLeast(c, n, 50) {
        weaknesses := weaknesses + [t];
      }
      counts := counts + [TopicCount(t, c, n)];
      k := k + 1;
    }
    assert topicOrder[..k] == topicOrder;
  }

  /** `calculate_level`: the counting loop, then the level, topic lists and summary. */
  method CalculateLevel(answers: Answers, questions: seq<Question>) returns (report: LevelReport)
    ensures report == Report(answers, questions)
  {
    var bands, topicOrder, topicCorrect, topicTotal := CountAnswers(answers, questions);
    var strengths, weaknesses, counts := ClassifyTopics(answers, questions, topicOrder, topicCorrect, topicTotal);
    report := Assemble(bands, strengths, weaknesses, counts);
  }
}

=== FILE: memory_bank.dfy ===
/**
 * The memory bank: one JSON document with a user profile and three append-only lists
 * (recommendations, daily plans, performance metrics). The document is held as the
 * object's state; each operation rewrites one key of it.
 */
module MemoryStore {
  import opened Wrappers

  /** One `{"key": ..., "recs": [...]}` entry of the recommendations list. */
  datatype Recommendation<R> = Recommendation(key: Option<string>, recs: seq<R>)

  /**
   * The stored document, generic in what the agents put in it. `userProfile` is `None` when
   * the document holds `{}` there or lacks the key (the reader cannot tell the two apart);
   * a list is `None` when its key is missing from a document found on disk.
   */
  class MemoryBank<P, R, D, M> {
    var userProfile: Option<P>
    var recommendations: Option<seq<Recommendation<R>>>
    var dailyPlans: Option<seq<D>>
    var performance: Option<seq<M>>

    /** A store whose file does not exist yet: the initial document is written. */
    constructor Fresh()
      ensures userProfile == None
      ensures recommendations == Some([]) && dailyPlans == Some([]) && performance == Some([])
    {
      userProfile := None;
      recommendations := Some([]);
      dailyPlans := Some([]);
      performance := Some([]);
    }

    /** A store over an existing file: whatever document it holds is kept. */
    constructor Existing(profile: Option<P>, recs: Option<seq<Recommendation<R>>>,
                         plans: Option<seq<D>>, metrics: Option<seq<M>>)
      ensures userProfile == profile && recommendations == recs
      ensures dailyPlans == plans && performance == metrics
    {
      userProfile := profile;
      recommendations := recs;
      dailyPlans := plans;
      performance := metrics;
    }

    /** `get_user_profile`: the stored profile; `None` stands for the `{}` default. */
    function GetUserProfile(): (r: Option<P>)
      reads this
      ensures r == userProfile
    {
      userProfile
    }

    /** `save_user_profile`: replaces the profile and nothing else. */
    method SaveUserProfile(profile: P)
      modifies this
      ensures GetUserProfile() == Some(profile)
      ensures recommendations == old(recommendations) && dailyPlans == old(dailyPlans)
      ensures performance == old(performance)
    {
      userProfile := Some(profile);
    }

    /** `save_recommendations`: appends one entry, creating the list if the key is missing. */
    method SaveRecommendations(key: Option<string>, recs: seq<R>)
      modifies this
      ensures recommendations == Some(old(recommendations).GetOr([]) + [Recommendation(key, recs)])
      ensures userProfile == old(userProfile) && dailyPlans == old(dailyPlans)
      ensures performance == old(performance)
    {
      recommendations := Some(recommendations.GetOr([]) + [Recommendation(key, recs)]);
    }

    /** `append_daily_plan`: appends one plan, creating the list if the key is missing. */
    method AppendDailyPlan(plan: D)
      modifies this
      ensures dailyPlans == Some(old(dailyPlans).GetOr([]) + [plan])
      ensures userProfile == old(userProfile) && recommendations == old(recommendations)
      ensures performance == old(performance)
    {
      dailyPlans := Some(dailyPlans.GetOr([]) + [plan]);
    }

    /** `append_performance`: appends one metrics record, creating the list if the key is missing. */
    method AppendPerformance(metrics: M)
      modifies this
      ensures performance == Some(old(performance).GetOr([]) + [metrics])
      ensures userProfile == old(userProfile) && recommendations == old(recommendations)
      ensures dailyPlans == old(dailyPlans)
    {
      performance := Some(performance.GetOr([]) + [metrics]);
    }
  }
}

=== FILE: percent.dfy ===
/**
 * Python's `int((part / whole) * 100)` for non-negative counts, the percentage every scorer
 * of the coach computes, taken as the integer floor of 100 * part / whole (0 when nothing
 * was counted).
 */
module Percentages {

  /** Python's `int(x)` on a float: truncation toward zero. */
  function Trunc(x: real): (r: int)
    ensures x >= 0.0 ==> r as real <= x < r as real + 1.0
    ensures x < 0.0 ==> r as real - 1.0 < x <= r as real
  {
    if x >= 0.0 then x.Floor else -((-x).Floor)
  }

  function Percent(part: int, whole: int): int
  {
    if whole > 0 then (100 * part) / whole else 0
  }

  lemma DivBounds(n: int, d: int)
    requires d > 0
    ensures (n / d) * d <= n < (n / d) * d + d
  {
  }

  lemma MulAtLeast(k: int, n: int)
    requires k >= 1 && n > 0
    ensures k * n >= n
    decreases k
  {
    if k > 1 {
      MulAtLeast(k - 1, n);
      assert k * n == (k - 1) * n + n;
    }
  }

  /** Quotient and remainder are the only ones: `a == q * n + r` with `0 <= r < n` fixes both. */
  lemma DivModUnique(a: int, n: int, q: int, r: int)
    requires n > 0 && 0 <= r < n && a == q * n + r
    ensures a / n == q && a % n == r
  {
    var q', r' := a / n, a % n;
    assert a == q' * n + r';
    assert (q - q') * n == r' - r;
    if q > q' {
      MulAtLeast(q - q', n);
    } else if q < q' {
      assert (q' - q) * n == r - r';
      MulAtLeast(q' - q, n);
    }
  }

  /** Positions `n` apart have the same remainder modulo `n`. */
  lemma ModPeriod(i: int, n: int)
    requires n > 0
    ensures (i + n) % n == i % n
  {
    var q, r := i / n, i % n;
    assert i + n == (q + 1) * n + r;
    DivModUnique(i + n, n, q + 1, r);
  }

  /** A percentage of a part of a whole lies in 0..100. */
  lemma PercentBounds(part: int, whole: int)
    requires 0 <= part <= whole
    ensures 0 <= Percent(part, whole) <= 100
  {
    if whole > 0 {
      PercentAtLeast(part, whole, 0);
      PercentAtLeast(part, whole, 101);
    }
  }

  /** Comparing the truncated percentage against a whole-number threshold is exact:
   *  `int(p) >= t` iff `100 * part >= t * whole`. */
  lemma PercentAtLeast(part: int, whole: int, t: int)
    requires whole > 0
    ensures Percent(part, whole) >= t <==> 100 * part >= t * whole
  {
    var q := (100 * part) / whole;
    DivBounds(100 * part, whole);
    if q >= t {
      assert q * whole >= t * whole;
    } else {
      assert q + 1 <= t;
      assert (q + 1) * whole <= t * whole;
    }
  }

  /** A percentage reaches 100 exactly when every counted item is a hit. */
  lemma PercentFull(part: int, whole: int)
    requires 0 <= part <= whole && whole > 0
    ensures Percent(part, whole) == 100 <==> part == whole
  {
    PercentAtLeast(part, whole, 100);
    PercentBounds(part, whole);
  }

  /** More hits never give a lower percentage. */
  lemma PercentMonotone(a: int, b: int, whole: int)
    requires a <= b
    ensures Percent(a, whole) <= Percent(b, whole)
  {
    if whole > 0 {
      var qa := (100 * a) / whole;
      DivBounds(100 * a, whole);
      PercentAtLeast(b, whole, qa);
      assert 100 * b >= 100 * a >= qa * whole;
    }
  }
}

=== FILE: planning_agent.dfy ===
/**
 * The planning agent of the second tree: the day's plan taken from the curriculum of the
 * goal's domain (cycling through its days), its task durations scaled to the daily time,
 * its tip adjusted by the previous evaluation, and the plan appended to the memory.
 */
module Planning {
  import opened Wrappers
  import opened Text
  import opened Routing
  import opened Percentages
  import opened MemoryStore

  /** A task of a day's content. `fields` stands for every key besides `duration_min` (id,
   *  title, type, description, priority, completion flag), which scaling copies unchanged. */
  datatype PlanTask<F> = PlanTask(durationMin: Option<int>, fields: F)

  /** One day of a stored curriculum. */
  datatype DayContent<F> = DayContent(theme: string, tasks: seq<PlanTask<F>>, objectives: seq<string>, tip: string,
                                      exercise: Option<string>)

  datatype Domain = PythonDomain | WebDomain | DataDomain | EnglishDomain | GeneralDomain

  /** The domain's key in the curricula dict, echoed in the plan. */
  function DomainName(d: Domain): string
  {
    match d
    case PythonDomain => "python"
    case WebDomain => "web"
    case DataDomain => "veri"
    case EnglishDomain => "ingilizce"
    case GeneralDomain => "genel"
  }

  /** The number of days of each stored curriculum: a 14-day Python cycle, two web days and
   *  one day for each other domain. */
  function CurriculumLength(d: Domain): nat
  {
    match d
    case PythonDomain => 14
    case WebDomain => 2
    case _ => 1
  }

  /** The profile keys the agent reads; a missing key is `None`. */
  datatype Profile = Profile(goal: Option<string>, level: Option<string>, dailyTime: Option<real>)

  /** A previous evaluation: its `daily_score`, and whether it has any other key (an empty
   *  dict counts as no evaluation). */
  datatype Evaluation = Evaluation(dailyScore: Option<int>, otherKeys: bool)

  datatype Plan<F, R> = Plan(planType: string, day: int, theme: string, totalDurationMin: int,
                             tasks: seq<PlanTask<F>>, resources: seq<R>, objectives: seq<string>, tips: string,
                             domain: string, level: string, practiceExercise: string)

  // ------------------------------------------------------------------ the domain

  const DomainRoutes: seq<Route<Domain>> := [
    Route(["python"], PythonDomain),
    Route(["web", "html", "css", "site"], WebDomain),
    Route(["veri", "data", "analiz"], DataDomain),
    Route(["ingilizce", "english"], EnglishDomain)
  ]

  /** The domain of a lowercased goal: the first keyword group found, else general. */
  function DomainFor(goalLower: string): (d: Domain)
    ensures d == GeneralDomain <==> forall j :: 0 <= j < |DomainRoutes| ==> !ContainsAny(goalLower, DomainRoutes[j].keywords)
  {
    FirstMatch(goalLower, DomainRoutes, GeneralDomain)
  }

  /** A goal mentioning Python gets the Python curriculum, whatever else it mentions. */
  lemma PythonGoalGetsPythonDomain(goalLower: string)
    requires Contains(goalLower, "python")
    ensures DomainFor(goalLower) == PythonDomain
  {
    ContainsAnySingle(goalLower, "python");
    FirstMatchAt(goalLower, DomainRoutes, GeneralDomain, 0);
  }

  /** `(day - 1) % len(curriculum)`; Python's `%` by a positive number is Dafny's. */
  function DayIndex(day: int, n: int): (k: int)
    requires n > 0
    ensures 0 <= k < n
    ensures 1 <= day <= n ==> k == day - 1
  {
    (day - 1) % n
  }

  /** Day `day + n` of an `n`-day curriculum is day `day` again. */
  lemma DayIndexCycles(day: int, n: int)
    requires n > 0
    ensures DayIndex(day + n, n) == DayIndex(day, n)
  {
    ModPeriod(day - 1, n);
  }

  // ------------------------------------------------------------------ scaling the tasks

  /** `task.get("duration_min", 20)`. */
  function Duration<F>(t: PlanTask<F>): int
  {
    t.durationMin.GetOr(20)
  }

  /** The sum of the durations, a missing one counting 20. */
  function OriginalTotal<F>(tasks: seq<PlanTask<F>>): int
    decreases |tasks|
  {
    if tasks == [] then 0 else OriginalTotal(tasks[..|tasks| - 1]) + Duration(tasks[|tasks| - 1])
  }

  /** A scaled duration: `max(5, int(d * total / original))`, the factor being 1 when the
   *  original total is not positive. */
  function ScaledDuration(d: int, total: int, original: int): (r: int)
    ensures r >= 5
    ensures original <= 0 ==> r == Max(5, d)
    ensures original > 0 && total == original ==> r == Max(5, d)
  {
    if original > 0 then
      var factor := total as real / original as real;
      assert total == original ==> factor == 1.0 by {
        if total == original {
          DivSelf(original as real);
        }
      }
      Max(5, Trunc(d as real * factor))
    else Max(5, d)
  }

  lemma DivSelf(x: real)
    requires x > 0.0
    ensures x / x == 1.0
  {
  }

  function ScaledTasks<F>(tasks: seq<PlanTask<F>>, total: int): seq<PlanTask<F>>
  {
    var original := OriginalTotal(tasks);
    seq(|tasks|, i requires 0 <= i < |tasks| => tasks[i].(durationMin := Some(ScaledDuration(Duration(tasks[i]), total, original))))
  }

  /** Scaling keeps the tasks, their order and every other field, and gives every task an
   *  explicit duration of at least five minutes. */
  lemma ScaledTasksShape<F>(tasks: seq<PlanTask<F>>, total: int)
    ensures var r := ScaledTasks(tasks, total);
      |r| == |tasks|
      && forall i :: 0 <= i < |r| ==> r[i].fields == tasks[i].fields && r[i].durationMin.Some? && r[i].durationMin.value >= 5
  {
  }

  /** When the daily time equals the curriculum's own total, every duration stays (raised to
   *  five where it was shorter). */
  lemma ScaleToOwnTotal<F>(tasks: seq<PlanTask<F>>)
    requires OriginalTotal(tasks) > 0
    ensures var r := ScaledTasks(tasks, OriginalTotal(tasks));
      forall i :: 0 <= i < |r| ==> r[i].durationMin == Some(Max(5, Duration(tasks[i])))
  {
  }

  /** `_scale_tasks`: the sum of the durations, then one copied task per task. */
  method ScaleTasks<F>(tasks: seq<PlanTask<F>>, totalMinutes: int) returns (scaled: seq<PlanTask<F>>)
    ensures scaled == ScaledTasks(tasks, totalMinutes)
  {
    var original := 0;
    var i := 0;
    while i < |tasks|
      invariant 0 <= i <= |tasks|
      invariant original == OriginalTotal(tasks[..i])
    {
      assert tasks[..i + 1][..i] == tasks[..i];
      original := original + Duration(tasks[i]);
      i := i + 1;
    }
    assert tasks[..|tasks|] == tasks;
    scaled := [];
    i := 0;
    while i < |tasks|
      invariant 0 <= i <= |tasks|
      invariant |scaled| == i
      invariant forall j :: 0 <= j < i ==>
        scaled[j] == tasks[j].(durationMin := Some(ScaledDuration(Duration(tasks[j]), totalMinutes, original)))
    {
      var task := tasks[i];
      scaled := scaled + [task.(durationMin := Some(ScaledDuration(Duration(task), totalMinutes, original)))];
      i := i + 1;
    }
  }

  // ------------------------------------------------------------------ adjusting the tip

  const SlowDownTip: string := "⚠️ Önceki konuda zorlandınız. Bugün daha yavaş ilerleyin ve önceki konuyu tekrar edin."
  const PraisePrefix: string := "🌟 Harika gidiyorsunuz! "

  /** A non-empty evaluation dict. */
  predicate Truthy(e: Evaluation)
  {
    e.dailyScore.Some? || e.otherKeys
  }

  /** `_adjust_plan`: below 20 (a missing score counts 0) the tip is replaced, from 40 on it
   *  gets the praise prefix, in between the plan is left alone; nothing but the tip changes. */
  function AdjustPlan<F, R>(plan: Plan<F, R>, evaluation: Evaluation): (r: Plan<F, R>)
    ensures r == plan.(tips := r.tips)
    ensures var s := evaluation.dailyScore.GetOr(0);
      (s < 20 ==> r.tips == SlowDownTip)
      && (s >= 40 ==> r.tips == PraisePrefix + plan.tips)
      && (20 <= s < 40 ==> r == plan)
  {
    var score := evaluation.dailyScore.GetOr(0);
    if score < 20 then plan.(tips := SlowDownTip)
    else if score >= 40 then plan.(tips := PraisePrefix + plan.tips)
    else plan
  }

  // ------------------------------------------------------------------ the plan

  /** The minutes of the day: `int(daily_time * 60)`, one hour when unset. */
  function TotalMinutes(profile: Profile): int
  {
    Trunc(profile.dailyTime.GetOr(1.0) * 60.0)
  }

  /** The plan before the adjustment. */
  function BasePlan<F, R>(curricula: Domain -> seq<DayContent<F>>, profile: Profile, resources: seq<R>, day: int): Plan<F, R>
    requires forall d :: |curricula(d)| > 0
  {
    var d := DomainFor(Lower(profile.goal.GetOr("")));
    var c := curricula(d);
    var content := c[DayIndex(day, |c|)];
    var total := TotalMinutes(profile);
    Plan("learning_plan", day, content.theme, total, ScaledTasks(content.tasks, total), Take(resources, 3),
         content.objectives, content.tip, DomainName(d), profile.level.GetOr("beginner"), content.exercise.GetOr(""))
  }

  /** `generate_daily_plan`'s result. */
  function DailyPlan<F, R>(curricula: Domain -> seq<DayContent<F>>, profile: Profile, resources: seq<R>, day: int,
                           previous: Option<Evaluation>): Plan<F, R>
    requires forall d :: |curricula(d)| > 0
  {
    var plan := BasePlan(curricula, profile, resources, day);
    if previous.Some? && Truthy(previous.value) then AdjustPlan(plan, previous.value) else plan
  }

  /** The plan echoes the day, carries the theme, objectives and scaled tasks of day
   *  `(day - 1) mod n` of its domain's curriculum and at most the first three resources; with
   *  no usable evaluation the tip is that day's. */
  lemma DailyPlanShape<F, R>(curricula: Domain -> seq<DayContent<F>>, profile: Profile, resources: seq<R>, day: int,
                             previous: Option<Evaluation>)
    requires forall d :: |curricula(d)| > 0
    ensures var p := DailyPlan(curricula, profile, resources, day, previous);
      var d := DomainFor(Lower(profile.goal.GetOr("")));
      var content := curricula(d)[DayIndex(day, |curricula(d)|)];
      p.planType == "learning_plan" && p.day == day && p.domain == DomainName(d)
      && p.theme == content.theme && p.objectives == content.objectives
      && |p.tasks| == |content.tasks|
      && |p.resources| <= 3 && p.resources == resources[..|p.resources|]
      && (|resources| >= 3 ==> |p.resources| == 3)
      && (previous.None? || !Truthy(previous.value) ==> p.tips == content.tip)
  {
    var d := DomainFor(Lower(profile.goal.GetOr("")));
    var content := curricula(d)[DayIndex(day, |curricula(d)|)];
    ScaledTasksShape(content.tasks, TotalMinutes(profile));
  }

  /** Day `day + n` of an `n`-day curriculum gets day `day`'s plan again, day number aside:
   *  with the 14-day Python curriculum day 15 repeats day 1. */
  lemma DailyPlanCycles<F, R>(curricula: Domain -> seq<DayContent<F>>, profile: Profile, resources: seq<R>, day: int,
                              previous: Option<Evaluation>)
    requires forall d :: |curricula(d)| > 0
    ensures var n := |curricula(DomainFor(Lower(profile.goal.GetOr(""))))|;
      DailyPlan(curricula, profile, resources, day + n, previous)
        == DailyPlan(curricula, profile, resources, day, previous).(day := day + n)
  {
    var n := |curricula(DomainFor(Lower(profile.goal.GetOr(""))))|;
    DayIndexCycles(day, n);
  }

  /** The planning agent; `memory` is the optional memory service and `curricula` the stored
   *  curriculum of each domain. */
  class PlanningAgent<F, R, P, Q, M> {
    const memory: MemoryBank?<P, Q, Plan<F, R>, M>
    const curricula: Domain -> seq<DayContent<F>>

    /** The stored curricula have their fixed lengths. */
    predicate Valid()
    {
      forall d :: |curricula(d)| == CurriculumLength(d)
    }

    constructor(memory: MemoryBank?<P, Q, Plan<F, R>, M>, curricula: Domain -> seq<DayContent<F>>)
      requires forall d :: |curricula(d)| == CurriculumLength(d)
      ensures this.memory == memory && this.curricula == curricula && Valid()
    {
      this.memory := memory;
      this.curricula := curricula;
    }

    /** `generate_daily_plan`: the plan, appended to the memory exactly once when one is set. */
    method GenerateDailyPlan(profile: Profile, resources: seq<R>, day: int, previous: Option<Evaluation>)
      returns (plan: Plan<F, R>)
      requires Valid()
      modifies memory
      ensures plan == DailyPlan(curricula, profile, resources, day, previous)
      ensures memory != null ==>
        memory.dailyPlans == Some(old(memory.dailyPlans).GetOr([]) + [plan])
        && memory.userProfile == old(memory.userProfile) && memory.recommendations == old(memory.recommendations)
        && memory.performance == old(memory.performance)
    {
      assert forall d :: |curricula(d)| > 0 by {
        forall d ensures |curricula(d)| > 0 {
          assert |curricula(d)| == CurriculumLength(d);
        }
      }
      var goal := Lower(profile.goal.GetOr(""));
      var domain := DomainFor(goal);
      var curriculum := curricula(domain);
      var content := curriculum[DayIndex(day, |curriculum|)];
      var totalMinutes := TotalMinutes(profile);
      var tasks := ScaleTasks(content.tasks, totalMinutes);
      plan := Plan("learning_plan", day, content.theme, totalMinutes, tasks, Take(resources, 3), content.objectives,
                   content.tip, DomainName(domain), profile.level.GetOr("beginner"), content.exercise.GetOr(""));
      if previous.Some? && Truthy(previous.value) {
        plan := AdjustPlan(plan, previous.value);
      }
      if memory != null {
        memory.AppendDailyPlan(plan);
      }
    }
  }
}

=== FILE: profile_agent.dfy ===
/**
 * The profile agent of the first tree: the learner's input turned into a profile with
 * defaults and a domain, saved to the memory when one is set.
 */
module LegacyProfile {
  import opened Wrappers
  import opened Text
  import opened MemoryStore

  /** The keys of the learner's input; a missing key is `None`. `C` is the creation stamp,
   *  copied unread. */
  datatype UserInput<C> = UserInput(goal: Option<string>, currentLevel: Option<string>, dailyAvailableTime: Option<real>,
                                    preferredLearningStyle: Option<string>, createdAt: Option<C>)

  datatype UserProfile<C> = UserProfile(goal: Option<string>, level: string, dailyTime: real, style: string,
                                        createdAt: Option<C>, domain: string)

  /** The profile of an input: level `unknown`, no daily time and a `balanced` style unless
   *  given; the domain is `python` exactly when the lowercased goal mentions it (no goal
   *  counting as the empty one), else `general`; goal and creation stamp are copied. */
  function ProfileOf<C>(input: UserInput<C>): (p: UserProfile<C>)
    ensures p.goal == input.goal && p.createdAt == input.createdAt
    ensures p.level == input.currentLevel.GetOr("unknown") && p.style == input.preferredLearningStyle.GetOr("balanced")
    ensures p.dailyTime == input.dailyAvailableTime.GetOr(0.0)
    ensures p.domain == "python" <==> Contains(Lower(input.goal.GetOr("")), "python")
    ensures p.domain == "python" || p.domain == "general"
  {
    var domain := if Contains(Lower(input.goal.GetOr("")), "python") then "python" else "general";
    UserProfile(input.goal, input.currentLevel.GetOr("unknown"), input.dailyAvailableTime.GetOr(0.0),
                input.preferredLearningStyle.GetOr("balanced"), input.createdAt, domain)
  }

  class ProfileAgent<C, Q, D, M> {
    const memory: MemoryBank?<UserProfile<C>, Q, D, M>

    constructor(memory: MemoryBank?<UserProfile<C>, Q, D, M>)
      ensures this.memory == memory
    {
      this.memory := memory;
    }

    /** `analyze`: the profile, saved to the memory when one is set. */
    method Analyze(input: UserInput<C>) returns (profile: UserProfile<C>)
      modifies memory
      ensures profile == ProfileOf(input)
      ensures memory != null ==>
        memory.userProfile == Some(profile)
        && memory.recommendations == old(memory.recommendations) && memory.dailyPlans == old(memory.dailyPlans)
        && memory.performance == old(memory.performance)
    {
      profile := ProfileOf(input);
      if memory != null {
        memory.SaveUserProfile(profile);
      }
    }
  }
}

=== FILE: programs.dfy ===
/**
 * The learning programs of the first tree: three registered programs, each a map from week
 * number to a week with a map from day number to the day's content, and the lookups that
 * return `None` wherever a key is missing. Lesson bodies, quizzes and projects are left
 * opaque; only the keys and the day themes are kept.
 */
module Programs {
  import opened Wrappers
  import opened Text

  /** A day's content; its lessons, quiz, objectives and tip are not modelled. */
  datatype DayEntry = DayEntry(theme: string)

  datatype WeekEntry = WeekEntry(title: string, days: map<int, DayEntry>)

  datatype Program = Program(programId: string, durationWeeks: int, curriculum: map<int, WeekEntry>)

  /** The days `{i: {"theme": f"Gün {i}", ...} for i in range(1, 8)}` of the short weeks. */
  function NumberedDays(): (days: map<int, DayEntry>)
    ensures forall d :: d in days <==> 1 <= d <= 7
  {
    map i | 1 <= i <= 7 :: DayEntry("Gün " + IntToString(i))
  }

  const PythonWeek1: WeekEntry := WeekEntry("Python'a Giriş ve Temel Kavramlar", map[
    1 := DayEntry("Python Kurulumu ve İlk Program"),
    2 := DayEntry("Değişkenler ve Veri Tipleri"),
    3 := DayEntry("String İşlemleri"),
    4 := DayEntry("Sayısal İşlemler ve Operatörler"),
    5 := DayEntry("Kullanıcı Girdisi (input)"),
    6 := DayEntry("Hafta 1 Tekrar ve Mini Proje"),
    7 := DayEntry("Hafta 1 Final Quiz ve Değerlendirme")])

  const PythonWeek2: WeekEntry := WeekEntry("Kontrol Yapıları", map[
    1 := DayEntry("if-else Koşulları"),
    2 := DayEntry("for Döngüsü"),
    3 := DayEntry("while Döngüsü"),
    4 := DayEntry("Döngü Alıştırmaları"),
    5 := DayEntry("İç İçe Döngüler"),
    6 := DayEntry("Hafta 2 Tekrar"),
    7 := DayEntry("Hafta 2 Final Quiz")])

  const PythonBasics: Program := Program("python_basics", 4, map[
    1 := PythonWeek1,
    2 := PythonWeek2,
    3 := WeekEntry("Veri Yapıları", NumberedDays()),
    4 := WeekEntry("Fonksiyonlar ve Modüller", NumberedDays())])

  const WebDevelopment: Program := Program("web_development", 6, map[
    1 := WeekEntry("HTML Temelleri", map[]),
    2 := WeekEntry("CSS Temelleri", map[]),
    3 := WeekEntry("CSS İleri", map[]),
    4 := WeekEntry("JavaScript Temelleri", map[]),
    5 := WeekEntry("DOM Manipülasyonu", map[]),
    6 := WeekEntry("Final Proje", map[])])

  const DataScience: Program := Program("data_science", 8, map[])

  const AllPrograms: map<string, Program> := map[
    "python_basics" := PythonBasics,
    "web_development" := WebDevelopment,
    "data_science" := DataScience]

  /** `get_program`: the registered program, `None` for any other id. */
  function GetProgram(programId: string): (r: Option<Program>)
    ensures r.Some? <==> programId == "python_basics" || programId == "web_development" || programId == "data_science"
    ensures r.Some? ==> r.value.programId == programId
  {
    if programId in AllPrograms then Some(AllPrograms[programId]) else None
  }

  /** `get_week_content`: the week of a registered program, `None` for an unknown program or
   *  week. */
  function GetWeekContent(programId: string, week: int): (r: Option<WeekEntry>)
    ensures GetProgram(programId).None? ==> r.None?
    ensures GetProgram(programId).Some? ==>
      (r.Some? <==> week in GetProgram(programId).value.curriculum)
  {
    match GetProgram(programId)
    case None => None
    case Some(program) => if week in program.curriculum then Some(program.curriculum[week]) else None
  }

  /** `get_day_content`: the day of a week of a registered program, `None` when the program,
   *  the week or the day is missing. */
  function GetDayContent(programId: string, week: int, day: int): (r: Option<DayEntry>)
    ensures r.Some? <==> GetWeekContent(programId, week).Some? && day in GetWeekContent(programId, week).value.days
  {
    match GetProgram(programId)
    case None => None
    case Some(program) =>
      var days := if week in program.curriculum then program.curriculum[week].days else map[];
      if day in days then Some(days[day]) else None
  }

  /** Every day of the four Python weeks has content. */
  lemma PythonBasicsComplete(week: int, day: int)
    requires 1 <= week <= 4 && 1 <= day <= 7
    ensures GetDayContent("python_basics", week, day).Some?
  {
    assert GetProgram("python_basics") == Some(PythonBasics);
    var w := PythonBasics.curriculum[week];
    assert GetWeekContent("python_basics", week) == Some(w);
    if week == 1 {
      assert w.days.Keys == {1, 2, 3, 4, 5, 6, 7};
    } else if week == 2 {
      assert w.days.Keys == {1, 2, 3, 4, 5, 6, 7};
    } else {
      assert w.days == NumberedDays();
    }
  }

  /** The six web weeks exist but have no days, so no web day has content. */
  lemma WebDevelopmentHasNoDays(week: int, day: int)
    ensures GetWeekContent("web_development", week).Some? <==> 1 <= week <= 6
    ensures GetDayContent("web_development", week, day).None?
  {
    assert GetProgram("web_development") == Some(WebDevelopment);
  }

  /** The data science program has no weeks at all. */
  lemma DataScienceHasNoWeeks(week: int, day: int)
    ensures GetWeekContent("data_science", week).None?
    ensures GetDayContent("data_science", week, day).None?
  {
    assert GetProgram("data_science") == Some(DataScience);
  }
}

=== FILE: progress_agent.dfy ===
/**
 * The progress agent of the second tree: the daily score with a performance level and
 * suggestions, the same evaluation with a quiz analysis attached, and the summary of the
 * scores kept in the memory.
 */
module Progress {
  import opened Wrappers
  import opened Text
  import opened DayReports
  import opened MemoryStore
  import opened QuizScoring

  /** The quiz part of an evaluation with a quiz. */
  datatype QuizAnalysis = QuizAnalysis(scorePercentage: int, correctCount: int, totalQuestions: int,
                                       topicScores: seq<TopicScore>, weakTopics: seq<string>, strongTopics: seq<string>)

  datatype ProgressMetrics = ProgressMetrics(dailyScore: int, performanceLevel: string, suggestions: seq<string>,
                                             raw: DayReport, quizAnalysis: Option<QuizAnalysis>)

  // ------------------------------------------------------------------ the level

  /** `_determine_performance_level`: the first rule that holds. */
  function PerformanceLevel(score: int, quiz: Option<int>): (r: string)
    ensures r in {"excellent", "good", "average", "needs_improvement"}
    ensures r == "excellent" <==> score >= 40 && (quiz.None? || quiz.value >= 80)
    ensures r == "good" <==>
      !(score >= 40 && (quiz.None? || quiz.value >= 80)) && score >= 30 && (quiz.None? || quiz.value >= 60)
    ensures r == "needs_improvement" <==> score < 20
    ensures quiz.Some? && quiz.value < 60 ==> r != "excellent" && r != "good"
  {
    if score >= 40 && (quiz.None? || quiz.value >= 80) then "excellent"
    else if score >= 30 && (quiz.None? || quiz.value >= 60) then "good"
    else if score >= 20 then "average"
    else "needs_improvement"
  }

  /** The levels from worst to best. */
  function LevelRank(level: string): int
  {
    if level == "excellent" then 3 else if level == "good" then 2 else if level == "average" then 1 else 0
  }

  /** A higher score or a better quiz never gives a worse level; without a quiz the level
   *  follows the score alone, at 40, 30 and 20. */
  lemma PerformanceLevelMonotone(score: int, score': int, quiz: Option<int>, quiz': Option<int>)
    requires score <= score'
    requires quiz.None? <==> quiz'.None?
    requires quiz.Some? ==> quiz.value <= quiz'.value
    ensures LevelRank(PerformanceLevel(score, quiz)) <= LevelRank(PerformanceLevel(score', quiz'))
    ensures quiz.None? ==> (PerformanceLevel(score, quiz) == "excellent" <==> score >= 40)
    ensures quiz.None? ==> (PerformanceLevel(score, quiz) == "good" <==> 30 <= score < 40)
    ensures quiz.None? ==> (PerformanceLevel(score, quiz) == "average" <==> 20 <= score < 30)
    ensures quiz.None? ==> (PerformanceLevel(score, quiz) == "needs_improvement" <==> score < 20)
  {
  }

  // ------------------------------------------------------------------ the suggestions

  const FewTasks: string := "📋 Daha fazla görev tamamlamaya çalışın."
  const ManyTasks: string := "✅ Görevleri tamamlamada başarılısınız!"
  const QuizLow: string := "📚 Konuları tekrar gözden geçirmenizi öneririz."
  const QuizMiddle: string := "📖 İyi gidiyorsunuz, biraz daha pratik yapın."
  const QuizHigh: string := "🌟 Quiz performansınız harika!"
  const TooHard: string := "💡 Zorluk yüksek görünüyor, daha basit konularla başlayabilirsiniz."
  const TooEasy: string := "🚀 Hazırsanız daha ileri konulara geçebilirsiniz."

  /** The message of each rule, if it fires. */
  function TaskRule(completed: int): seq<string>
  {
    if completed < 2 then [FewTasks] else if completed >= 3 then [ManyTasks] else []
  }

  function QuizRule(quiz: Option<int>): seq<string>
  {
    match quiz
    case None => []
    case Some(q) => if q < 50 then [QuizLow] else if q < 70 then [QuizMiddle] else [QuizHigh]
  }

  function DifficultyRule(diff: int): seq<string>
  {
    if diff >= 4 then [TooHard] else if diff <= 2 then [TooEasy] else []
  }

  /** The three rules in order. */
  function SuggestionsFor(quiz: Option<int>, diff: int, completed: int): seq<string>
  {
    TaskRule(completed) + QuizRule(quiz) + DifficultyRule(diff)
  }

  /** One message per rule that fires: the task rule is silent only at exactly two tasks, the
   *  quiz rule only without a quiz, the difficulty rule only at difficulty 3; so at most
   *  three messages. */
  lemma SuggestionsCount(quiz: Option<int>, diff: int, completed: int)
    ensures |SuggestionsFor(quiz, diff, completed)|
      == (if completed != 2 then 1 else 0) + (if quiz.Some? then 1 else 0) + (if diff != 3 then 1 else 0)
    ensures |SuggestionsFor(quiz, diff, completed)| <= 3
  {
  }

  /** `_generate_suggestions`: the appends in rule order. */
  method GenerateSuggestions(quiz: Option<int>, diff: int, completed: int) returns (suggestions: seq<string>)
    ensures suggestions == SuggestionsFor(quiz, diff, completed)
  {
    suggestions := [];
    if completed < 2 {
      suggestions := suggestions + [FewTasks];
    } else if completed >= 3 {
      suggestions := suggestions + [ManyTasks];
    }
    assert suggestions == TaskRule(completed);
    if quiz.Some? {
      if quiz.value < 50 {
        suggestions := suggestions + [QuizLow];
      } else if quiz.value < 70 {
        suggestions := suggestions + [QuizMiddle];
      } else {
        suggestions := suggestions + [QuizHigh];
      }
    }
    assert suggestions == TaskRule(completed) + QuizRule(quiz);
    if diff >= 4 {
      suggestions := suggestions + [TooHard];
    } else if diff <= 2 {
      suggestions := suggestions + [TooEasy];
    }
  }

  // ------------------------------------------------------------------ the evaluations

  /** `evaluate`'s metrics. */
  function EvaluationOf(report: DayReport): (m: ProgressMetrics)
    ensures m.dailyScore == DailyScore(report) && m.raw == report && m.quizAnalysis.None?
    ensures m.performanceLevel == PerformanceLevel(m.dailyScore, report.quizScore)
    ensures m.suggestions == SuggestionsFor(report.quizScore, Difficulty(report), Completed(report))
    ensures |m.suggestions| <= 3
  {
    var score := DailyScore(report);
    SuggestionsCount(report.quizScore, Difficulty(report), Completed(report));
    ProgressMetrics(score, PerformanceLevel(score, report.quizScore),
                    SuggestionsFor(report.quizScore, Difficulty(report), Completed(report)), report, None)
  }

  function AnalysisOf(result: QuizResult): QuizAnalysis
  {
    QuizAnalysis(result.scorePercentage, result.correctCount, result.totalQuestions, result.topicScores,
                 result.weakTopics, result.strongTopics)
  }

  /** `evaluate_with_quiz`'s metrics: `evaluate`'s, with the quiz analysis and the quiz
   *  suggestions after the day's own. */
  function EvaluationWithQuizOf(report: DayReport, result: QuizResult): ProgressMetrics
  {
    var base := EvaluationOf(report);
    base.(quizAnalysis := Some(AnalysisOf(result)), suggestions := base.suggestions + Suggestions(result))
  }

  /** With a quiz analysis the suggestions start with the day's own and add one headline
   *  plus one message per weak and per strong topic; score and level are the day's. */
  lemma EvaluationWithQuizExtends(report: DayReport, result: QuizResult)
    ensures var m, base := EvaluationWithQuizOf(report, result), EvaluationOf(report);
      m.dailyScore == base.dailyScore && m.performanceLevel == base.performanceLevel
      && base.suggestions <= m.suggestions
      && |m.suggestions| == |base.suggestions| + 1 + |result.weakTopics| + |result.strongTopics|
      && |base.suggestions| <= 3
  {
    SuggestionsCount(report.quizScore, Difficulty(report), Completed(report));
  }

  // ------------------------------------------------------------------ the summary

  datatype ProgressSummary = NoMemory | NoData | Summary(totalDays: int, bestScore: int, improving: bool)

  function Scores(history: seq<ProgressMetrics>): (scores: seq<int>)
    ensures |scores| == |history| && forall i :: 0 <= i < |history| ==> scores[i] == history[i].dailyScore
  {
    seq(|history|, i requires 0 <= i < |history| => history[i].dailyScore)
  }

  /** `max` of a non-empty list. */
  function MaxOf(s: seq<int>): (m: int)
    requires s != []
    ensures m in s && forall x :: x in s ==> x <= m
    decreases |s|
  {
    if |s| == 1 then s[0]
    else
      var m := MaxOf(s[..|s| - 1]);
      assert forall x :: x in s ==> x in s[..|s| - 1] || x == s[|s| - 1];
      Max(m, s[|s| - 1])
  }

  /** The list logic of `get_progress_summary`: the number of days, the best score, and an
   *  improving trend when the last score beats the first. */
  function SummaryOf(history: seq<ProgressMetrics>): (r: ProgressSummary)
    ensures r.NoData? <==> history == []
    ensures r.Summary? ==>
      r.totalDays == |history| && r.bestScore in Scores(history)
      && (forall i :: 0 <= i < |history| ==> history[i].dailyScore <= r.bestScore)
      && (r.improving <==> |history| > 1 && history[|history| - 1].dailyScore > history[0].dailyScore)
  {
    if history == [] then NoData
    else
      var scores := Scores(history);
      assert forall i :: 0 <= i < |history| ==> scores[i] in scores;
      Summary(|history|, MaxOf(scores), |scores| > 1 && scores[|scores| - 1] > scores[0])
  }

  /** The progress agent; `memory` is the optional memory service. */
  class ProgressAgent<P, Q, D> {
    const memory: MemoryBank?<P, Q, D, ProgressMetrics>
    const quizScorer: QuizScorer

    constructor(memory: MemoryBank?<P, Q, D, ProgressMetrics>)
      ensures this.memory == memory && fresh(quizScorer) && quizScorer.quizHistory == []
    {
      this.memory := memory;
      quizScorer := new QuizScorer();
    }

    /** `evaluate`: the metrics, appended to the memory exactly once when one is set. */
    method Evaluate(report: DayReport) returns (metrics: ProgressMetrics)
      modifies memory
      ensures metrics == EvaluationOf(report)
      ensures memory != null ==>
        memory.performance == Some(old(memory.performance).GetOr([]) + [metrics])
        && memory.userProfile == old(memory.userProfile) && memory.recommendations == old(memory.recommendations)
        && memory.dailyPlans == old(memory.dailyPlans)
    {
      var score := 0;
      var completed := Completed(report);
      var quiz := report.quizScore;
      var diff := Difficulty(report);
      score := completed * 10;
      if quiz.Some? {
        score := score + TruncDiv(quiz.value, 10);
        score := Max(0, score - (diff - 3) * 5);
      }
      var level := PerformanceLevel(score, quiz);
      var suggestions := GenerateSuggestions(quiz, diff, completed);
      metrics := ProgressMetrics(score, level, suggestions, report, None);
      if memory != null {
        memory.AppendPerformance(metrics);
      }
    }

    /** `evaluate_with_quiz`: the quiz is analysed (and recorded in the scorer's history),
     *  the day is evaluated (and the plain metrics stored), then the analysis and the quiz
     *  suggestions are added to the returned metrics only. */
    method EvaluateWithQuiz(report: DayReport, answers: Answers, questions: seq<QuizQuestion>)
      returns (metrics: ProgressMetrics)
      modifies memory, quizScorer
      ensures metrics == EvaluationWithQuizOf(report, Analyze(answers, questions))
      ensures quizScorer.quizHistory == old(quizScorer.quizHistory) + [Analyze(answers, questions)]
      ensures memory != null ==>
        memory.performance == Some(old(memory.performance).GetOr([]) + [EvaluationOf(report)])
        && memory.userProfile == old(memory.userProfile) && memory.recommendations == old(memory.recommendations)
        && memory.dailyPlans == old(memory.dailyPlans)
    {
      var result := quizScorer.AnalyzeQuiz(answers, questions);
      metrics := Evaluate(report);
      var quizSuggestions := quizScorer.GetImprovementSuggestions(result);
      metrics := metrics.(quizAnalysis := Some(AnalysisOf(result)), suggestions := metrics.suggestions + quizSuggestions);
    }

    /** `get_progress_summary`, read from the memory's performance list. */
    function GetProgressSummary(): ProgressSummary
      reads memory
    {
      if memory == null then NoMemory else SummaryOf(memory.performance.GetOr([]))
    }
  }
}

=== FILE: quiz_scoring.dfy ===
/**
 * The quiz scorer: percentage scoring against an answer key, per-topic analysis with
 * weak/strong topic lists, the sample quiz generator and the improvement suggestions.
 */
module QuizScoring {
  import opened Wrappers
  import opened Text
  import opened Percentages

  datatype QuizQuestion = QuizQuestion(
    questionId: string,
    question: string,
    options: seq<string>,
    correctAnswer: string,
    topic: string,
    difficulty: int)

  datatype TopicScore = TopicScore(topic: string, score: int)

  /** `topicScores` is the ordered `topic_scores` dict: one entry per topic, in first-appearance order. */
  datatype QuizResult = QuizResult(
    totalQuestions: int,
    correctCount: int,
    wrongCount: int,
    scorePercentage: int,
    topicScores: seq<TopicScore>,
    weakTopics: seq<string>,
    strongTopics: seq<string>)

  /** Question id to answer. */
  type Answers = map<string, string>

  /** `d.get(k, 0)` on a counter dict. */
  function GetCount(m: map<string, int>, k: string): int
  {
    if k in m then m[k] else 0
  }

  // ---------------------------------------------------------------- score_quiz

  /** The key entries the answers match (`answers.get(k) == v`). */
  function CorrectIds(answers: Answers, key: Answers): (ids: set<string>)
    ensures ids <= key.Keys
  {
    set k | k in key && k in answers && answers[k] == key[k]
  }

  /** `score_quiz`: the percentage of key entries answered correctly, 0 for an empty key.
   *  The module-level `score_quiz` builds a fresh scorer and calls this. */
  function ScoreQuiz(answers: Answers, key: Answers): (r: int)
    ensures 0 <= r <= 100
    ensures |key| == 0 ==> r == 0
    ensures |key| > 0 ==> r * |key| <= 100 * |CorrectIds(answers, key)| < (r + 1) * |key|
  {
    if |key| == 0 then 0
    else
      var c := |CorrectIds(answers, key)|;
      SubsetCardinality(CorrectIds(answers, key), key.Keys);
      PercentBounds(c, |key|);
      PercentAtLeast(c, |key|, Percent(c, |key|));
      PercentAtLeast(c, |key|, Percent(c, |key|) + 1);
      Percent(c, |key|)
  }

  /** Answers to ids outside the key never change the score. */
  lemma ScoreQuizIgnoresOtherAnswers(answers: Answers, key: Answers, extra: Answers)
    requires forall k :: k in extra ==> k !in key
    ensures ScoreQuiz(answers + extra, key) == ScoreQuiz(answers, key)
  {
    assert CorrectIds(answers + extra, key) == CorrectIds(answers, key);
  }

  /** A non-empty key scores 100 exactly when every key entry is answered with its value;
   *  in particular the key itself scores 100. */
  lemma ScoreQuizPerfect(answers: Answers, key: Answers)
    requires |key| > 0
    ensures ScoreQuiz(answers, key) == 100 <==> forall k :: k in key ==> k in answers && answers[k] == key[k]
    ensures ScoreQuiz(key, key) == 100
  {
    var c := CorrectIds(answers, key);
    SubsetCardinality(c, key.Keys);
    PercentFull(|c|, |key|);
    if forall k :: k in key ==> k in answers && answers[k] == key[k] {
      assert c == key.Keys;
    }
    assert CorrectIds(key, key) == key.Keys;
    PercentFull(|key|, |key|);
  }

  /** Correcting one wrong answer never lowers the score. */
  lemma ScoreQuizCorrectingNeverLowers(answers: Answers, key: Answers, k: string)
    requires k in key
    ensures ScoreQuiz(answers[k := key[k]], key) >= ScoreQuiz(answers, key)
  {
    var before, after := CorrectIds(answers, key), CorrectIds(answers[k := key[k]], key);
    assert before <= after;
    SubsetCardinality(before, after);
    PercentMonotone(|before|, |after|, |key|);
  }

  // ---------------------------------------------------------------- analyze_quiz

  /** `q.topic or "general"`. */
  function TopicOf(q: QuizQuestion): string
  {
    if q.topic == "" then "general" else q.topic
  }

  /** `answers.get(q.question_id) == q.correct_answer`. */
  predicate Answered(answers: Answers, q: QuizQuestion)
  {
    q.questionId in answers && answers[q.questionId] == q.correctAnswer
  }

  function CorrectCount(answers: Answers, qs: seq<QuizQuestion>): (n: int)
    ensures 0 <= n <= |qs|
    decreases |qs|
  {
    if qs == [] then 0
    else CorrectCount(answers, qs[..|qs| - 1]) + (if Answered(answers, qs[|qs| - 1]) then 1 else 0)
  }

  /** How many questions are counted under topic `t`. */
  function TopicTotal(qs: seq<QuizQuestion>, t: string): (n: int)
    ensures 0 <= n <= |qs|
    decreases |qs|
  {
    if qs == [] then 0
    else TopicTotal(qs[..|qs| - 1], t) + (if TopicOf(qs[|qs| - 1]) == t then 1 else 0)
  }

  /** How many questions under topic `t` are answered correctly. */
  function TopicCorrect(answers: Answers, qs: seq<QuizQuestion>, t: string): (n: int)
    ensures 0 <= n
    decreases |qs|
  {
    if qs == [] then 0
    else
      TopicCorrect(answers, qs[..|qs| - 1], t)
      + (if TopicOf(qs[|qs| - 1]) == t && Answered(answers, qs[|qs| - 1]) then 1 else 0)
  }

  /** A topic never has more correct answers than questions, so its score is a percentage. */
  lemma {:induction false} TopicScoreBounds(answers: Answers, qs: seq<QuizQuestion>, t: string)
    ensures TopicCorrect(answers, qs, t) <= TopicTotal(qs, t)
    ensures 0 <= TopicPercent(answers, qs, t) <= 100
    decreases |qs|
  {
    if qs != [] {
      TopicScoreBounds(answers, qs[..|qs| - 1], t);
    }
    PercentBounds(TopicCorrect(answers, qs, t), TopicTotal(qs, t));
  }

  /** The topics in first-appearance order (the key order of `topic_total`). */
  function Topics(qs: seq<QuizQuestion>): seq<string>
    decreases |qs|
  {
    if qs == [] then []
    else
      var prev := Topics(qs[..|qs| - 1]);
      var t := TopicOf(qs[|qs| - 1]);
      if t in prev then prev else prev + [t]
  }

  /** The topic list names each topic that has a question, and each only once. */
  lemma {:induction false} TopicsSpec(qs: seq<QuizQuestion>)
    ensures forall t :: t in Topics(qs) <==> TopicTotal(qs, t) > 0
    ensures NoDuplicates(Topics(qs))
    decreases |qs|
  {
    if qs != [] {
      TopicsSpec(qs[..|qs| - 1]);
    }
  }

  function TopicPercent(answers: Answers, qs: seq<QuizQuestion>, t: string): int
  {
    Percent(TopicCorrect(answers, qs, t), TopicTotal(qs, t))
  }

  /** `topic_scores` over the topics `ts`, in order. */
  function ScoresFor(answers: Answers, qs: seq<QuizQuestion>, ts: seq<string>): (r: seq<TopicScore>)
    ensures |r| == |ts|
    decreases |ts|
  {
    if ts == [] then []
    else ScoresFor(answers, qs, ts[..|ts| - 1]) + [TopicScore(ts[|ts| - 1], TopicPercent(answers, qs, ts[|ts| - 1]))]
  }

  lemma ScoresForAppend(answers: Answers, qs: seq<QuizQuestion>, ts: seq<string>, t: string)
    ensures ScoresFor(answers, qs, ts + [t]) == ScoresFor(answers, qs, ts) + [TopicScore(t, TopicPercent(answers, qs, t))]
  {
    assert (ts + [t])[..|ts|] == ts;
  }

  /** `score < 60`: the topic goes to `weak_topics`. */
  function IsWeak(answers: Answers, qs: seq<QuizQuestion>): string -> bool
  {
    t => TopicPercent(answers, qs, t) < 60
  }

  /** `score >= 80` (reached only when not weak): the topic goes to `strong_topics`. */
  function IsStrong(answers: Answers, qs: seq<QuizQuestion>): string -> bool
  {
    t => TopicPercent(answers, qs, t) >= 80
  }

  /** The result `analyze_quiz` computes. */
  function Analyze(answers: Answers, qs: seq<QuizQuestion>): QuizResult
  {
    var c := CorrectCount(answers, qs);
    var ts := Topics(qs);
    QuizResult(|qs|, c, |qs| - c, if |qs| > 0 then Percent(c, |qs|) else 0,
               ScoresFor(answers, qs, ts), Filter(ts, IsWeak(answers, qs)), Filter(ts, IsStrong(answers, qs)))
  }

  /** Right and wrong answers add up to the question count; the score is a percentage and is
   *  0 for an empty quiz. */
  lemma AnalyzeCounts(answers: Answers, qs: seq<QuizQuestion>)
    ensures var r := Analyze(answers, qs);
      r.totalQuestions == |qs| && 0 <= r.correctCount <= r.totalQuestions
      && r.correctCount + r.wrongCount == r.totalQuestions
      && 0 <= r.scorePercentage <= 100
      && (|qs| == 0 ==> r.scorePercentage == 0)
  {
    PercentBounds(CorrectCount(answers, qs), |qs|);
  }

  /** How the per-question folds change when the quiz grows by one question. */
  lemma FoldsStep(answers: Answers, qs: seq<QuizQuestion>, i: int)
    requires 0 <= i < |qs|
    ensures var q, pre, post := qs[i], qs[..i], qs[..i + 1];
      CorrectCount(answers, post) == CorrectCount(answers, pre) + (if Answered(answers, q) then 1 else 0)
      && Topics(post) == (if TopicOf(q) in Topics(pre) then Topics(pre) else Topics(pre) + [TopicOf(q)])
      && (forall t :: TopicTotal(post, t) == TopicTotal(pre, t) + (if TopicOf(q) == t then 1 else 0))
      && (forall t :: TopicCorrect(answers, post, t)
                      == TopicCorrect(answers, pre, t) + (if TopicOf(q) == t && Answered(answers, q) then 1 else 0))
  {
    assert qs[..i + 1][..i] == qs[..i];
  }

  /** Every question is counted under some topic: an untitled one under "general". */
  lemma {:induction false} QuestionHasTopic(qs: seq<QuizQuestion>, i: int)
    requires 0 <= i < |qs|
    ensures TopicTotal(qs, TopicOf(qs[i])) > 0
    ensures TopicOf(qs[i]) in Topics(qs)
    ensures qs[i].topic == "" ==> "general" in Topics(qs)
    decreases |qs|
  {
    if i < |qs| - 1 {
      assert qs[..|qs| - 1][i] == qs[i];
      QuestionHasTopic(qs[..|qs| - 1], i);
    }
    TopicsSpec(qs);
  }

  /** Total of `TopicTotal` over a list of topics. */
  function SumTotals(qs: seq<QuizQuestion>, ts: seq<string>): int
    decreases |ts|
  {
    if ts == [] then 0 else SumTotals(qs, ts[..|ts| - 1]) + TopicTotal(qs, ts[|ts| - 1])
  }

  /** Adding one question to the quiz adds one to exactly the sum over a duplicate-free topic
   *  list that holds its topic. */
  lemma {:induction false} SumTotalsStep(qs: seq<QuizQuestion>, q: QuizQuestion, ts: seq<string>)
    requires NoDuplicates(ts)
    ensures SumTotals(qs + [q], ts) == SumTotals(qs, ts) + (if TopicOf(q) in ts then 1 else 0)
    decreases |ts|
  {
    if ts != [] {
      var init := ts[..|ts| - 1];
      assert NoDuplicates(init);
      SumTotalsStep(qs, q, init);
      assert (qs + [q])[..|qs + [q]| - 1] == qs;
      if TopicOf(q) == ts[|ts| - 1] {
        assert TopicOf(q) !in init;
      } else {
        assert TopicOf(q) in ts <==> TopicOf(q) in init;
      }
    }
  }

  /** Summed over the topic list, the per-topic totals give the number of questions. */
  lemma {:induction false} TopicTotalsSum(qs: seq<QuizQuestion>)
    ensures SumTotals(qs, Topics(qs)) == |qs|
    decreases |qs|
  {
    if qs != [] {
      var init, q := qs[..|qs| - 1], qs[|qs| - 1];
      assert qs == init + [q];
      TopicTotalsSum(init);
      var prev := Topics(init);
      TopicsSpec(init);
      SumTotalsStep(init, q, prev);
      if TopicOf(q) !in prev {
        SumTotalsStep(init, q, prev + [TopicOf(q)]);
        assert (prev + [TopicOf(q)])[..|prev|] == prev;
        assert TopicTotal(init, TopicOf(q)) == 0;
        assert SumTotals(qs, prev + [TopicOf(q)]) == SumTotals(qs, prev) + TopicTotal(qs, TopicOf(q));
        assert TopicTotal(qs, TopicOf(q)) == 1;
      }
    }
  }

  /** A topic is weak iff it scores below 60 and strong iff it scores at least 80; no topic is
   *  both, and both lists keep first-appearance order. */
  lemma AnalyzeWeakStrong(answers: Answers, qs: seq<QuizQuestion>)
    ensures var r := Analyze(answers, qs);
      (forall t :: t in r.weakTopics <==> t in Topics(qs) && TopicPercent(answers, qs, t) < 60)
      && (forall t :: t in r.strongTopics <==> t in Topics(qs) && TopicPercent(answers, qs, t) >= 80)
      && (forall t :: !(t in r.weakTopics && t in r.strongTopics))
      && IsSubsequence(r.weakTopics, Topics(qs)) && IsSubsequence(r.strongTopics, Topics(qs))
  {
    FilterMembers(Topics(qs), IsWeak(answers, qs));
    FilterMembers(Topics(qs), IsStrong(answers, qs));
    FilterOrder(Topics(qs), IsWeak(answers, qs));
    FilterOrder(Topics(qs), IsStrong(answers, qs));
  }

  // ---------------------------------------------------------------- generate_sample_quiz

  /** The five fixed Python questions of `generate_sample_quiz`. */
  const PythonQuestions: seq<QuizQuestion> := [
    QuizQuestion("py_1", "Python'da liste oluşturmak için hangi parantez kullanılır?",
                 ["()", "[]", "{}", "<>"], "[]", "python_basics", 1),
    QuizQuestion("py_2", "Python'da yorum satırı nasıl başlar?",
                 ["//", "#", "/*", "--"], "#", "python_basics", 1),
    QuizQuestion("py_3", "'len()' fonksiyonu ne döndürür?",
                 ["Veri tipi", "Uzunluk", "Değer", "İndeks"], "Uzunluk", "python_functions", 2),
    QuizQuestion("py_4", "Python'da dictionary oluşturmak için hangi parantez kullanılır?",
                 ["()", "[]", "{}", "<>"], "{}", "python_data_structures", 2),
    QuizQuestion("py_5", "'for i in range(5):' döngüsü kaç kez çalışır?",
                 ["4", "5", "6", "Sonsuz"], "5", "python_loops", 2)
  ]

  /** The i-th generic question for `topic` (`gen_{i}`, answer "A"). */
  function GenericQuestion(topic: string, i: nat): QuizQuestion
  {
    QuizQuestion("gen_" + NatToString(i), "Örnek soru " + NatToString(i + 1) + " - " + topic,
                 ["A", "B", "C", "D"], "A", topic, 1)
  }

  /** `generate_sample_quiz`: a prefix of the fixed Python questions when the topic mentions
   *  Python (any case), otherwise `n` generic questions on the topic, each answerable, with
   *  distinct ids. */
  function GenerateSampleQuiz(topic: string, n: int): (r: seq<QuizQuestion>)
    ensures Contains(Lower(topic), "python") ==>
      |r| <= |PythonQuestions| && r == PythonQuestions[..|r|] && (n >= 0 ==> |r| == Min(n, 5))
    ensures !Contains(Lower(topic), "python") ==>
      |r| == RangeLen(n)
      && (forall i :: 0 <= i < |r| ==> r[i].correctAnswer == "A" && r[i].correctAnswer in r[i].options
                                       && r[i].topic == topic)
      && (forall i, j :: 0 <= i < j < |r| ==> r[i].questionId != r[j].questionId)
  {
    if Contains(Lower(topic), "python") then Take(PythonQuestions, n)
    else
      var r := seq(RangeLen(n), i requires 0 <= i => GenericQuestion(topic, i));
      assert forall i, j :: 0 <= i < j < |r| ==> r[i].questionId != r[j].questionId by {
        forall i, j | 0 <= i < j < |r| ensures r[i].questionId != r[j].questionId {
          NumberedDistinct("gen_", i, j);
        }
      }
      r
  }

  /** Every fixed Python question is answerable and the ids are distinct. */
  lemma PythonQuestionsWellFormed()
    ensures forall q :: q in PythonQuestions ==> q.correctAnswer in q.options
    ensures forall i, j :: 0 <= i < j < |PythonQuestions| ==> PythonQuestions[i].questionId != PythonQuestions[j].questionId
  {
  }

  // ---------------------------------------------------------------- get_improvement_suggestions

  /** The opening suggestion, chosen by the score band. */
  function Headline(score: int): string
  {
    if score < 50 then "📚 Temel konuları tekrar gözden geçirmenizi öneririz."
    else if score < 70 then "📖 İyi gidiyorsunuz! Biraz daha pratik yaparak pekiştirebilirsiniz."
    else "🌟 Harika! Bu konuda güçlü bir temele sahipsiniz."
  }

  function WeakMessage(topic: string): string
  {
    "⚠️ '" + topic + "' konusunda daha fazla çalışmanız gerekiyor."
  }

  function StrongMessage(topic: string): string
  {
    "✅ '" + topic + "' konusunda başarılısınız!"
  }

  /** One message per topic, in order. */
  function Messages(topics: seq<string>, message: string -> string): (r: seq<string>)
    ensures |r| == |topics|
    ensures forall i :: 0 <= i < |r| ==> r[i] == message(topics[i])
  {
    seq(|topics|, i requires 0 <= i < |topics| => message(topics[i]))
  }

  /** The suggestions for a result: the band headline, one line per weak topic, then one per
   *  strong topic. */
  function Suggestions(result: QuizResult): (r: seq<string>)
    ensures |r| == 1 + |result.weakTopics| + |result.strongTopics|
  {
    [Headline(result.scorePercentage)]
    + Messages(result.weakTopics, WeakMessage) + Messages(result.strongTopics, StrongMessage)
  }

  /** The append loops of `get_improvement_suggestions`: one message per topic, in order,
   *  after what is already there. */
  method AppendEach(prefix: seq<string>, topics: seq<string>, message: string -> string) returns (r: seq<string>)
    ensures r == prefix + Messages(topics, message)
  {
    r := prefix;
    var i := 0;
    while i < |topics|
      invariant 0 <= i <= |topics|
      invariant r == prefix + seq(i, j requires 0 <= j < i => message(topics[j]))
    {
      r := r + [message(topics[i])];
      i := i + 1;
    }
  }

  /** The counters of `analyze_quiz` agree with the folds over the questions `qs` seen so far. */
  ghost predicate Tallied(answers: Answers, qs: seq<QuizQuestion>, correctCount: int,
                          topicCorrect: map<string, int>, topicTotal: map<string, int>, topicOrder: seq<string>)
  {
    correctCount == CorrectCount(answers, qs)
    && topicOrder == Topics(qs)
    && (forall t :: t in topicTotal <==> t in topicOrder)
    && (forall t :: GetCount(topicTotal, t) == TopicTotal(qs, t))
    && (forall t :: GetCount(topicCorrect, t) == TopicCorrect(answers, qs, t))
  }

  /** Counting question `i` keeps the counters in step with the folds. */
  lemma TallyStep(answers: Answers, qs: seq<QuizQuestion>, i: int, correctCount: int,
                  topicCorrect: map<string, int>, topicTotal: map<string, int>, topicOrder: seq<string>)
    requires 0 <= i < |qs|
    requires Tallied(answers, qs[..i], correctCount, topicCorrect, topicTotal, topicOrder)
    ensures var q := qs[i];
      var topic := TopicOf(q);
      Tallied(answers, qs[..i + 1],
              if Answered(answers, q) then correctCount + 1 else correctCount,
              if Answered(answers, q) then topicCorrect[topic := GetCount(topicCorrect, topic) + 1] else topicCorrect,
              topicTotal[topic := GetCount(topicTotal, topic) + 1],
              if topic in topicTotal then topicOrder else topicOrder + [topic])
  {
    FoldsStep(answers, qs, i);
  }

  /** The counting loop of `analyze_quiz`: the number of correct answers and the
   *  `topic_total` / `topic_correct` dicts, with the key order of `topic_total`. */
  method TallyTopics(answers: Answers, questions: seq<QuizQuestion>)
    returns (correctCount: int, topicCorrect: map<string, int>, topicTotal: map<string, int>, topicOrder: seq<string>)
    ensures correctCount == CorrectCount(answers, questions)
    ensures topicOrder == Topics(questions)
    ensures forall t :: t in topicTotal <==> t in topicOrder
    ensures forall t :: GetCount(topicTotal, t) == TopicTotal(questions, t)
    ensures forall t :: GetCount(topicCorrect, t) == TopicCorrect(answers, questions, t)
  {
    correctCount := 0;
    topicCorrect := map[];
    topicTotal := map[];
    topicOrder := [];
    var i := 0;
    while i < |questions|
      invariant 0 <= i <= |questions|
      invariant Tallied(answers, questions[..i], correctCount, topicCorrect, topicTotal, topicOrder)
    {
      correctCount, topicCorrect, topicTotal, topicOrder := TallyOne(answers, questions, i, correctCount, topicCorrect, topicTotal, topicOrder);
      i := i + 1;
    }
    assert questions[..i] == questions;
  }

  /** One pass of the counting loop of `analyze_quiz`: question `i` is counted under its
   *  topic, and as correct when its answer matches. */
  method TallyOne(answers: Answers, questions: seq<QuizQuestion>, i: int, correctCount: int,
                  topicCorrect: map<string, int>, topicTotal: map<string, int>, topicOrder: seq<string>)
    returns (correctCount': int, topicCorrect': map<string, int>, topicTotal': map<string, int>, topicOrder': seq<string>)
    requires 0 <= i < |questions|
    requires Tallied(answers, questions[..i], correctCount, topicCorrect, topicTotal, topicOrder)
    ensures Tallied(answers, questions[..i + 1], correctCount', topicCorrect', topicTotal', topicOrder')
  {
    var q := questions[i];
    var topic := if q.topic == "" then "general" else q.topic;
    assert topic == TopicOf(q);
    assert (q.questionId in answers && answers[q.questionId] == q.correctAnswer) == Answered(answers, q);
    TallyStep(answers, questions, i, correctCount, topicCorrect, topicTotal, topicOrder);
    correctCount', topicCorrect', topicOrder' := correctCount, topicCorrect, topicOrder;
    if topic !in topicTotal {
      topicOrder' := topicOrder + [topic];
    }
    topicTotal' := topicTotal[topic := GetCount(topicTotal, topic) + 1];
    if q.questionId in answers && answers[q.questionId] == q.correctAnswer {
      correctCount' := correctCount + 1;
      topicCorrect' := topicCorrect[topic := GetCount(topicCorrect, topic) + 1];
    }
  }

  /** The score list and the weak and strong lists agree with the topics `ts` seen so far. */
  ghost predicate Classified(answers: Answers, qs: seq<QuizQuestion>, ts: seq<string>,
                             scores: seq<TopicScore>, weak: seq<string>, strong: seq<string>)
  {
    scores == ScoresFor(answers, qs, ts)
    && weak == Filter(ts, IsWeak(answers, qs))
    && strong == Filter(ts, IsStrong(answers, qs))
  }

  /** Scoring topic `k` keeps the lists in step with the topics seen. */
  lemma ClassifyStep(answers: Answers, qs: seq<QuizQuestion>, ts: seq<string>, k: int,
                     scores: seq<TopicScore>, weak: seq<string>, strong: seq<string>)
    requires 0 <= k < |ts|
    requires Classified(answers, qs, ts[..k], scores, weak, strong)
    ensures var t := ts[k];
      var p := TopicPercent(answers, qs, t);
      Classified(answers, qs, ts[..k + 1], scores + [TopicScore(t, p)],
                 if p < 60 then weak + [t] else weak,
                 if p >= 80 then strong + [t] else strong)
  {
    assert ts[..k + 1] == ts[..k] + [ts[k]];
    ScoresForAppend(answers, qs, ts[..k], ts[k]);
    FilterAppend(ts[..k], ts[k], IsWeak(answers, qs));
    FilterAppend(ts[..k], ts[k], IsStrong(answers, qs));
  }

  /** The scoring loop of `analyze_quiz`: one score per topic in `topic_total` order, and the
   *  weak (< 60) and strong (>= 80) topics. */
  method ClassifyTopics(answers: Answers, questions: seq<QuizQuestion>, topicOrder: seq<string>,
                        topicTotal: map<string, int>, topicCorrect: map<string, int>)
    returns (topicScores: seq<TopicScore>, weakTopics: seq<string>, strongTopics: seq<string>)
    requires forall t :: GetCount(topicTotal, t) == TopicTotal(questions, t)
    requires forall t :: GetCount(topicCorrect, t) == TopicCorrect(answers, questions, t)
    ensures topicScores == ScoresFor(answers, questions, topicOrder)
    ensures weakTopics == Filter(topicOrder, IsWeak(answers, questions))
    ensures strongTopics == Filter(topicOrder, IsStrong(answers, questions))
  {
    topicScores, weakTopics, strongTopics := [], [], [];
    var k := 0;
    while k < |topicOrder|
      invariant 0 <= k <= |topicOrder|
      invariant Classified(answers, questions, topicOrder[..k], topicScores, weakTopics, strongTopics)
    {
      var topic := topicOrder[k];
      var totalQ := GetCount(topicTotal, topic);
      var correctQ := GetCount(topicCorrect, topic);
      var score := if totalQ > 0 then Percent(correctQ, totalQ) else 0;
      assert score == TopicPercent(answers, questions, topic);
      ClassifyStep(answers, questions, topicOrder, k, topicScores, weakTopics, strongTopics);
      topicScores := topicScores + [TopicScore(topic, score)];
      if score < 60 {
        weakTopics := weakTopics + [topic];
      } else if score >= 80 {
        strongTopics := strongTopics + [topic];
      }
      k := k + 1;
    }
    assert topicOrder[..k] == topicOrder;
  }


  /** The scorer's state: every result analysed so far, oldest first. */
  class QuizScorer {
    var quizHistory: seq<QuizResult>

    constructor()
      ensures quizHistory == []
    {
      quizHistory := [];
    }

    /** `analyze_quiz`: computes `Analyze(answers, questions)` with the source's counter
     *  dicts and records it as the newest history entry. */
    method AnalyzeQuiz(answers: Answers, questions: seq<QuizQuestion>) returns (result: QuizResult)
      modifies this
      ensures result == Analyze(answers, questions)
      ensures quizHistory == old(quizHistory) + [result]
    {
      var total := |questions|;
      var correctCount, topicCorrect, topicTotal, topicOrder := TallyTopics(answers, questions);
      var topicScores, weakTopics, strongTopics := ClassifyTopics(answers, questions, topicOrder, topicTotal, topicCorrect);
      result := QuizResult(total, correctCount, total - correctCount,
                           if total > 0 then Percent(correctCount, total) else 0,
                           topicScores, weakTopics, strongTopics);
      quizHistory := quizHistory + [result];
    }

    /** `get_improvement_suggestions`: the headline, then the weak-topic lines, then the
     *  strong-topic lines, built with the source's append loops. */
    method GetImprovementSuggestions(result: QuizResult) returns (suggestions: seq<string>)
      ensures suggestions == Suggestions(result)
      ensures |suggestions| == 1 + |result.weakTopics| + |result.strongTopics|
      ensures suggestions[0] == Headline(result.scorePercentage)
    {
      suggestions := [Headline(result.scorePercentage)];
      suggestions := AppendEach(suggestions, result.weakTopics, WeakMessage);
      suggestions := AppendEach(suggestions, result.strongTopics, StrongMessage);
    }
  }
}

=== FILE: quiz_validation_agent.dfy ===
/**
 * The quiz-and-validation agent: quiz generation through the AI service with a placeholder
 * fallback, and grading of a submitted quiz by the quiz scorer, whose history it extends.
 */
module QuizValidation {
  import opened Wrappers
  import opened Text
  import opened AiService
  import opened AgentQuiz
  import opened QuizScoring

  /** A question dict as the agent receives it; `None` is a missing key, and `id` holds
   *  `str()` of the dict's "id" entry when there is one. */
  datatype QuestionDict = QuestionDict(questionId: Option<string>, id: Option<string>, question: Option<string>,
                                       options: Option<seq<string>>, correctAnswer: Option<string>,
                                       correct: Option<string>, topic: Option<string>)

  /** The report `validate_quiz` returns. */
  datatype Validation = Validation(score: int, correctCount: int, totalQuestions: int, passed: bool,
                                   weakTopics: seq<string>, strongTopics: seq<string>,
                                   suggestions: seq<string>, analysis: QuizResult)

  /** The scorer's question built from a dict: the id from "question_id", else `str(id)`
   *  (the text "None" without one); the answer from "correct_answer", else "correct"; every
   *  question weighs 1. */
  function ToQuizQuestion(q: QuestionDict): QuizQuestion
  {
    QuizQuestion(q.questionId.GetOr(q.id.GetOr("None")), q.question.GetOr(""), q.options.GetOr([]),
                 q.correctAnswer.GetOr(q.correct.GetOr("")), q.topic.GetOr(""), 1)
  }

  function Converted(qs: seq<QuestionDict>): seq<QuizQuestion>
  {
    seq(|qs|, i requires 0 <= i < |qs| => ToQuizQuestion(qs[i]))
  }

  /** The conversion takes the key spellings of both agent trees: "question_id" before `id`,
   *  "correct_answer" before "correct". */
  lemma ConversionPrecedence(q: QuestionDict)
    ensures var c := ToQuizQuestion(q);
      (q.questionId.Some? ==> c.questionId == q.questionId.value)
      && (q.questionId.None? ==> c.questionId == q.id.GetOr("None"))
      && (q.correctAnswer.Some? ==> c.correctAnswer == q.correctAnswer.value)
      && (q.correctAnswer.None? ==> c.correctAnswer == q.correct.GetOr(""))
      && c.difficulty == 1
  {
  }

  /** The report for a scorer result. */
  function ValidationOf(result: QuizResult): (v: Validation)
    ensures v.passed <==> v.score >= 70
    ensures v.analysis == result && v.score == result.scorePercentage
    ensures |v.suggestions| == 1 + |v.weakTopics| + |v.strongTopics|
  {
    Validation(result.scorePercentage, result.correctCount, result.totalQuestions, result.scorePercentage >= 70,
               result.weakTopics, result.strongTopics, Suggestions(result), result)
  }

  /** A graded quiz: the score is a percentage of the questions, a quiz passes exactly at 70,
   *  an empty quiz scores 0 and fails, and a sheet with every question answered as keyed
   *  passes. */
  lemma ValidationFacts(answers: Answers, questions: seq<QuestionDict>)
    ensures var v := ValidationOf(Analyze(answers, Converted(questions)));
      v.totalQuestions == |questions| && 0 <= v.correctCount <= v.totalQuestions
      && 0 <= v.score <= 100
      && (questions == [] ==> v.score == 0 && !v.passed)
      && (v.passed <==> v.score >= 70)
  {
    AnalyzeCounts(answers, Converted(questions));
  }

  class QuizValidationAgent {
    const service: Option<Service>
    const scorer: QuizScorer

    /** `__init__`: the shared AI service, if it could be obtained, and a fresh scorer. */
    constructor(service: Option<Service>)
      ensures this.service == service && fresh(scorer) && scorer.quizHistory == []
    {
      this.service := service;
      scorer := new QuizScorer();
    }

    /** The placeholder wording of this agent names the topic. */
    function FallbackText(topic: string): (text: string)
      ensures Contains(text, topic)
    {
      ContainsMiddle("⚠️ AI servisi çalışmıyor (", topic, "). Lütfen GEMINI_API_KEY'i yapılandırın.");
      "⚠️ AI servisi çalışmıyor (" + topic + "). Lütfen GEMINI_API_KEY'i yapılandırın."
    }

    /** `generate_quiz`: the AI questions when the service is configured and returns some,
     *  else at most three placeholders whose question names the topic. */
    function GenerateQuiz(topic: string, n: int, reply: Option<string>, parse: string -> QuizParse): (q: Quiz)
      ensures q.AiQuiz? <==> AiAvailable(service) && |QuizQuestions(service.value, topic, n, reply, parse)| > 0
      ensures q.AiQuiz? ==> q.items == QuizQuestions(service.value, topic, n, reply, parse)
      ensures q.FallbackQuiz? ==>
        |q.fallback| == RangeLen(Min(n, 3)) && forall i :: 0 <= i < |q.fallback| ==> Contains(q.fallback[i].question, topic)
    {
      AgentQuiz.GenerateQuiz(service, topic, n, reply, parse, FallbackText(topic))
    }

    /** The conversion loop of `validate_quiz`. */
    static method ConvertQuestions(questions: seq<QuestionDict>) returns (converted: seq<QuizQuestion>)
      ensures converted == Converted(questions)
    {
      converted := [];
      var i := 0;
      while i < |questions|
        invariant 0 <= i <= |questions|
        invariant converted == Converted(questions[..i])
      {
        converted := converted + [ToQuizQuestion(questions[i])];
        assert questions[..i + 1][..i] == questions[..i];
        i := i + 1;
      }
      assert questions[..i] == questions;
    }

    /** `validate_quiz`: grades the converted questions with the scorer, which records the
     *  result as its newest history entry, and reports score, pass mark and suggestions. */
    method ValidateQuiz(answers: Answers, questions: seq<QuestionDict>) returns (v: Validation)
      modifies scorer
      ensures v == ValidationOf(Analyze(answers, Converted(questions)))
      ensures scorer.quizHistory == old(scorer.quizHistory) + [v.analysis]
    {
      var quizQuestions := ConvertQuestions(questions);
      var result := scorer.AnalyzeQuiz(answers, quizQuestions);
      var suggestions := scorer.GetImprovementSuggestions(result);
      v := Validation(result.scorePercentage, result.correctCount, result.totalQuestions,
                      result.scorePercentage >= 70, result.weakTopics, result.strongTopics, suggestions, result);
    }
  }
}

=== FILE: research_agent.dfy ===
/**
 * The research agent of the first tree: the catalogue list for a profile, stored in full in
 * the memory and returned cut to five entries, and the list for a topic.
 */
module Research {
  import opened Wrappers
  import opened Text
  import opened MemoryStore
  import opened ResourceCatalogue

  /** The research agent; `catalogue` holds the agent's resource lists (opaque entries of
   *  type `R`), `memory` the optional memory service. */
  class ResearchAgent<R, P, D, M> {
    const memory: MemoryBank?<P, R, D, M>
    const catalogue: Category -> seq<R>

    constructor(memory: MemoryBank?<P, R, D, M>, catalogue: Category -> seq<R>)
      requires forall c :: |catalogue(c)| == CatalogueSize(c)
      ensures this.memory == memory && this.catalogue == catalogue
    {
      this.memory := memory;
      this.catalogue := catalogue;
    }

    /** `find_resources`: the chosen list goes to the memory in full, under the goal as given,
     *  exactly once when a memory is set; at most its first five entries are returned. */
    method FindResources(profile: ResourceProfile) returns (resources: seq<R>)
      modifies memory
      ensures var all := catalogue(CategoryForProfile(profile));
        resources == FirstFive(all) && |resources| <= 5 && resources == all[..|resources|]
      ensures memory != null ==>
        memory.recommendations
          == Some(old(memory.recommendations).GetOr([]) + [Recommendation(profile.goal, catalogue(CategoryForProfile(profile)))])
        && memory.userProfile == old(memory.userProfile) && memory.dailyPlans == old(memory.dailyPlans)
        && memory.performance == old(memory.performance)
    {
      var all := catalogue(CategoryForProfile(profile));
      if memory != null {
        memory.SaveRecommendations(profile.goal, all);
      }
      resources := FirstFive(all);
    }

    /** `get_resources_for_topic`: at most the first five entries of the topic's list. */
    function GetResourcesForTopic(topic: string): (r: seq<R>)
      ensures var all := catalogue(CategoryForTopic(topic));
        r == all[..Min(5, |all|)]
    {
      FirstFive(catalogue(CategoryForTopic(topic)))
    }
  }
}

=== FILE: resource_catalogue.dfy ===
/**
 * The resource catalogue shared by the research agent of the first tree and the content
 * curator of the second (the two carry the same catalogue code): the search query built
 * from a profile, and the ordered keyword routing that picks a catalogue list for a profile
 * or a topic. The catalogue entries themselves are opaque.
 */
module ResourceCatalogue {
  import opened Wrappers
  import opened Text
  import opened Routing

  /** The profile keys the agents read; a missing key is `None`. */
  datatype ResourceProfile = ResourceProfile(goal: Option<string>, domain: Option<string>, level: Option<string>)

  /** The lists of the catalogue, keyed `python`, `web`, `veri`, `ingilizce` and `genel`. */
  datatype Category = PythonList | WebList | DataList | EnglishList | GeneralList

  /** The number of entries of each list. */
  function CatalogueSize(c: Category): nat
  {
    match c
    case PythonList => 7
    case WebList => 6
    case DataList => 5
    case EnglishList => 5
    case GeneralList => 4
  }

  /** `build_query`: level, domain and goal (by default `beginner`, `programming` and the
   *  empty goal) separated by spaces, then ` tutorial`. */
  function BuildQuery(p: ResourceProfile): (q: string)
    ensures var level := p.level.GetOr("beginner");
      |q| >= |level| + 1 + 9 && q[..|level| + 1] == level + " " && q[|q| - 9..] == " tutorial"
    ensures Contains(q, p.domain.GetOr("programming")) && Contains(q, p.goal.GetOr(""))
  {
    var level, domain, goal := p.level.GetOr("beginner"), p.domain.GetOr("programming"), p.goal.GetOr("");
    var q := level + " " + domain + " " + goal + " tutorial";
    assert q == (level + " ") + domain + (" " + goal + " tutorial");
    ContainsMiddle(level + " ", domain, " " + goal + " tutorial");
    assert q == (level + " " + domain + " ") + goal + " tutorial";
    ContainsMiddle(level + " " + domain + " ", goal, " tutorial");
    q
  }

  const ProfileRoutes: seq<Route<Category>> := [
    Route(["python"], PythonList),
    Route(["web", "html", "css", "javascript", "site"], WebList),
    Route(["veri", "data", "analiz", "pandas"], DataList),
    Route(["ingilizce", "english", "dil"], EnglishList)
  ]

  const TopicRoutes: seq<Route<Category>> := [
    Route(["python"], PythonList),
    Route(["web", "html", "css"], WebList),
    Route(["veri", "data"], DataList),
    Route(["ingilizce", "english"], EnglishList)
  ]

  /** The list `find_resources` picks: the first keyword group found in the lowercased goal
   *  or the lowercased domain (by default `general`), else the general list. */
  function CategoryForProfile(p: ResourceProfile): (c: Category)
    ensures var goal, domain := Lower(p.goal.GetOr("")), Lower(p.domain.GetOr("general"));
      c == GeneralList <==>
        forall j :: 0 <= j < |ProfileRoutes| ==> !ContainsAny(goal, ProfileRoutes[j].keywords) && !ContainsAny(domain, ProfileRoutes[j].keywords)
  {
    FirstMatchEither(Lower(p.goal.GetOr("")), Lower(p.domain.GetOr("general")), ProfileRoutes, GeneralList)
  }

  /** A goal or domain mentioning Python gets the Python list, whatever else they mention. */
  lemma PythonProfileGetsPythonList(p: ResourceProfile)
    requires Contains(Lower(p.goal.GetOr("")), "python") || Contains(Lower(p.domain.GetOr("general")), "python")
    ensures CategoryForProfile(p) == PythonList
  {
    ContainsAnySingle(Lower(p.goal.GetOr("")), "python");
    ContainsAnySingle(Lower(p.domain.GetOr("general")), "python");
  }

  /** The list `get_resources_for_topic` picks: the first (shorter) keyword group found in
   *  the lowercased topic, else the general list. */
  function CategoryForTopic(topic: string): (c: Category)
    ensures c == GeneralList <==> forall j :: 0 <= j < |TopicRoutes| ==> !ContainsAny(Lower(topic), TopicRoutes[j].keywords)
  {
    FirstMatch(Lower(topic), TopicRoutes, GeneralList)
  }

  /** A topic mentioning Python gets the Python list, whatever else it mentions. */
  lemma PythonTopicGetsPythonList(topic: string)
    requires Contains(Lower(topic), "python")
    ensures CategoryForTopic(topic) == PythonList
  {
    ContainsAnySingle(Lower(topic), "python");
    FirstMatchAt(Lower(topic), TopicRoutes, GeneralList, 0);
  }

  /** `resources[:5]`: the first five entries of a list. */
  function FirstFive<R>(resources: seq<R>): (r: seq<R>)
    ensures |r| == Min(5, |resources|) && r == resources[..|r|]
  {
    Take(resources, 5)
  }
}

=== FILE: roadmap_agent.dfy ===
/**
 * The roadmap agent of the second tree: a static curriculum chosen by keyword from the goal,
 * stretched to `weeks * 7` days by cycling through its lesson templates, and the plan of a
 * single day taken from a four-week stretch of it.
 */
module Roadmap {
  import opened Wrappers
  import opened Text
  import opened Routing
  import opened Percentages

  /** A task of a template; the later templates leave out the description. */
  datatype RoadmapTask = RoadmapTask(task: string, kind: string, durationMin: int, description: Option<string>)

  /** A stored lesson template: no day number yet. */
  datatype Template = Template(theme: string, tasks: seq<RoadmapTask>, objectives: seq<string>, tip: string)

  /** A lesson handed out: a copy of a template with its day number. */
  datatype DayLesson = DayLesson(day: int, theme: string, tasks: seq<RoadmapTask>, objectives: seq<string>, tip: string)

  datatype RoadmapDoc = RoadmapDoc(goal: string, level: string, durationWeeks: int, dailyLessons: seq<DayLesson>,
                                   summary: string)

  /** The keys of the stored curricula. */
  datatype Key = PythonKey | WebKey | DataKey | EnglishKey | GeneralKey

  // ------------------------------------------------------------------ the stored curricula

  const PythonBase: seq<Template> := [
    Template("Python'a Giriş ve Kurulum", [
      RoadmapTask("Python Kurulumu", "theory", 15, Some("python.org'dan Python indirip kurun.")),
      RoadmapTask("İlk Program", "practice", 20, Some("print('Merhaba Dünya') yazın.")),
      RoadmapTask("Quiz: Temeller", "quiz", 10, Some("Temel kavramları test edin."))],
      ["Kurulum", "İlk kod"], "Python'u PATH'e eklemeyi unutmayın."),
    Template("Değişkenler ve Veri Tipleri", [
      RoadmapTask("Değişkenler", "theory", 20, Some("int, float, str tiplerini öğrenin.")),
      RoadmapTask("Pratik", "practice", 25, Some("Kendi bilgilerinizi değişkenlerde saklayın.")),
      RoadmapTask("Quiz: Veri Tipleri", "quiz", 10, None)],
      ["Değişken tanımlama"], "type() fonksiyonunu kullanın."),
    Template("Koşullu İfadeler", [
      RoadmapTask("if-else", "theory", 20, Some("Karar yapılarını öğrenin.")),
      RoadmapTask("Not Hesaplama", "practice", 30, Some("Girilen nota göre harf notu verin.")),
      RoadmapTask("Quiz: Koşullar", "quiz", 10, None)],
      ["Akış kontrolü"], "Girintilere dikkat."),
    Template("Döngüler", [
      RoadmapTask("for ve while", "theory", 20, Some("Döngü mantığını kavrayın.")),
      RoadmapTask("Çarpım Tablosu", "practice", 30, Some("İç içe döngülerle tablo yapın.")),
      RoadmapTask("Quiz: Döngüler", "quiz", 10, None)],
      ["Tekrarlı işlemler"], "Sonsuz döngüden kaçının."),
    Template("Fonksiyonlar", [
      RoadmapTask("Fonksiyon Tanımlama", "theory", 20, Some("def keyword'ü ve parametreler.")),
      RoadmapTask("Hesap Makinesi", "practice", 30, Some("Fonksiyonlarla hesap makinesi yapın.")),
      RoadmapTask("Quiz: Fonksiyonlar", "quiz", 10, None)],
      ["Kod tekrarını önleme"], "Fonksiyonlar küçük ve odaklı olsun.")]

  const WebBase: seq<Template> := [
    Template("HTML Temelleri", [
      RoadmapTask("HTML Yapısı", "theory", 20, Some("Tagler, head, body.")),
      RoadmapTask("İlk Sayfa", "practice", 30, Some("Basit bir web sayfası yapın.")),
      RoadmapTask("Quiz: HTML", "quiz", 10, None)],
      ["HTML iskeleti"], "<!DOCTYPE html> ile başlayın."),
    Template("CSS Temelleri", [
      RoadmapTask("CSS Seçiciler", "theory", 20, Some("Class, id, element seçicileri.")),
      RoadmapTask("Stil Verme", "practice", 30, Some("Sayfanızı renklendirin.")),
      RoadmapTask("Quiz: CSS", "quiz", 10, None)],
      ["Stil temelleri"], "External CSS kullanın.")]

  const DataBase: seq<Template> := [
    Template("Veri Bilimine Giriş", [
      RoadmapTask("Kavramlar", "theory", 20, Some("Veri analitiği nedir?")),
      RoadmapTask("Pandas Kurulum", "practice", 20, Some("pip install pandas")),
      RoadmapTask("Quiz: Veri", "quiz", 10, None)],
      ["Ortam hazırlığı"], "Jupyter Notebook kullanın."),
    Template("Pandas DataFrame", [
      RoadmapTask("DataFrame", "theory", 20, Some("Satır ve sütunlar.")),
      RoadmapTask("Veri Okuma", "practice", 30, Some("CSV dosyası okuyun.")),
      RoadmapTask("Quiz: Pandas", "quiz", 10, None)],
      ["Veri manipülasyonu"], "head() ile veriye bakın.")]

  const EnglishBase: seq<Template> := [
    Template("Temel Tanışma", [
      RoadmapTask("Selamlaşma", "theory", 15, Some("Hello, Hi, Good morning.")),
      RoadmapTask("Kendini Tanıtma", "practice", 20, Some("I am... sentences.")),
      RoadmapTask("Quiz: Tanışma", "quiz", 10, None)],
      ["İletişim"], "Yüksek sesle tekrar edin.")]

  const GeneralBase: seq<Template> := [
    Template("Öğrenmeyi Öğrenmek", [
      RoadmapTask("Hedef Belirleme", "theory", 15, Some("SMART hedefler.")),
      RoadmapTask("Plan Yapma", "practice", 20, Some("Haftalık program çıkarın.")),
      RoadmapTask("Quiz: Planlama", "quiz", 10, None)],
      ["Planlı çalışma"], "Pomodoro tekniği kullanın.")]

  /** The stored curriculum of a key; every key is stored, so the `general` default of the
   *  lookup is never used. Five Python days, two web, two data, one English, one general. */
  function BaseLessons(key: Key): (base: seq<Template>)
    ensures |base| == match key
                      case PythonKey => 5
                      case WebKey => 2
                      case DataKey => 2
                      case EnglishKey => 1
                      case GeneralKey => 1
  {
    match key
    case PythonKey => PythonBase
    case WebKey => WebBase
    case DataKey => DataBase
    case EnglishKey => EnglishBase
    case GeneralKey => GeneralBase
  }

  // ------------------------------------------------------------------ the key

  const KeyRoutes: seq<Route<Key>> := [
    Route(["python"], PythonKey),
    Route(["web", "html", "css", "js"], WebKey),
    Route(["data", "veri", "analiz"], DataKey),
    Route(["english", "ingilizce"], EnglishKey)
  ]

  /** The key of a goal: the first keyword group found in the lowercased goal, else general. */
  function KeyFor(goal: string): (key: Key)
    ensures key == GeneralKey <==> forall j :: 0 <= j < |KeyRoutes| ==> !ContainsAny(Lower(goal), KeyRoutes[j].keywords)
  {
    FirstMatch(Lower(goal), KeyRoutes, GeneralKey)
  }

  /** A goal mentioning Python gets the Python curriculum, whatever else it mentions. */
  lemma PythonGoalGetsPythonKey(goal: string)
    requires Contains(Lower(goal), "python")
    ensures KeyFor(goal) == PythonKey
  {
    ContainsAnySingle(Lower(goal), "python");
    FirstMatchAt(Lower(goal), KeyRoutes, GeneralKey, 0);
  }

  // ------------------------------------------------------------------ the stretched curriculum

  const RepeatSuffix: string := " (Tekrar/Pratik)"

  /** Day `i + 1`: a copy of template `i mod |base|`, its theme marked as a repeat from the
   *  second pass through the templates on. */
  function LessonAt(base: seq<Template>, i: nat): DayLesson
    requires |base| > 0
  {
    var t := base[i % |base|];
    DayLesson(i + 1, if i >= |base| then t.theme + RepeatSuffix else t.theme, t.tasks, t.objectives, t.tip)
  }

  /** The lessons for `range(totalDays)`. */
  function StretchedLessons(base: seq<Template>, totalDays: int): seq<DayLesson>
    requires |base| > 0
  {
    seq(RangeLen(totalDays), i requires 0 <= i => LessonAt(base, i))
  }

  function Summary(goal: string, weeks: int): string
  {
    goal + " için " + IntToString(weeks) + " haftalık hazırlanan program."
  }

  /** `_generate_fallback_curriculum` as a value. */
  function FallbackCurriculum(goal: string, level: string, weeks: int): RoadmapDoc
  {
    RoadmapDoc(goal, level, weeks, StretchedLessons(BaseLessons(KeyFor(goal)), weeks * 7), Summary(goal, weeks))
  }

  /** The stretched curriculum has `weeks * 7` days numbered 1, 2, ... without gaps; day
   *  `i + 1` carries the tasks, objectives and tip of template `i mod |base|`, and its theme is
   *  that template's theme, with the repeat mark exactly when `i >= |base|`. */
  lemma StretchedShape(base: seq<Template>, totalDays: int)
    requires |base| > 0
    ensures var ls := StretchedLessons(base, totalDays);
      |ls| == RangeLen(totalDays)
      && forall i :: 0 <= i < |ls| ==>
           var t := base[i % |base|];
           ls[i].day == i + 1 && ls[i].tasks == t.tasks && ls[i].objectives == t.objectives && ls[i].tip == t.tip
           && (i < |base| ==> ls[i].theme == t.theme)
           && (i >= |base| ==> ls[i].theme == t.theme + RepeatSuffix)
  {
    var ls := StretchedLessons(base, totalDays);
    forall i | 0 <= i < |ls|
      ensures var t := base[i % |base|];
        ls[i].day == i + 1 && ls[i].tasks == t.tasks && ls[i].objectives == t.objectives && ls[i].tip == t.tip
        && (i < |base| ==> ls[i].theme == t.theme)
        && (i >= |base| ==> ls[i].theme == t.theme + RepeatSuffix)
    {
      assert ls[i] == LessonAt(base, i);
    }
  }

  /** Days `|base|` apart share their template: the curriculum repeats with the period of
   *  its template count. */
  lemma StretchedPeriodic(base: seq<Template>, totalDays: int, i: int)
    requires |base| > 0
    requires 0 <= i && i + |base| < RangeLen(totalDays)
    ensures var ls := StretchedLessons(base, totalDays);
      ls[i + |base|].tasks == ls[i].tasks && ls[i + |base|].objectives == ls[i].objectives
      && ls[i + |base|].tip == ls[i].tip && ls[i + |base|].day == ls[i].day + |base|
  {
    var ls := StretchedLessons(base, totalDays);
    assert ls[i] == LessonAt(base, i);
    assert ls[i + |base|] == LessonAt(base, i + |base|);
    ModPeriod(i, |base|);
  }

  /** `_generate_fallback_curriculum`: the chosen templates stretched to `weeks * 7` days. */
  method BuildFallbackCurriculum(goal: string, level: string, weeks: int) returns (doc: RoadmapDoc)
    ensures doc == FallbackCurriculum(goal, level, weeks)
  {
    var lessons := Stretch(BaseLessons(KeyFor(goal)), weeks * 7);
    doc := RoadmapDoc(goal, level, weeks, lessons, Summary(goal, weeks));
  }

  /** The loop of the fallback: one copied, numbered and possibly marked template per day. */
  method Stretch(base: seq<Template>, totalDays: int) returns (lessons: seq<DayLesson>)
    requires |base| > 0
    ensures lessons == StretchedLessons(base, totalDays)
  {
    lessons := [];
    var i := 0;
    while i < totalDays
      invariant 0 <= i <= RangeLen(totalDays)
      invariant lessons == StretchedLessons(base, i)
    {
      var template := base[i % |base|];
      var lesson := DayLesson(i + 1, template.theme, template.tasks, template.objectives, template.tip);
      if i >= |base| {
        lesson := lesson.(theme := lesson.theme + RepeatSuffix);
      }
      lessons := lessons + [lesson];
      i := i + 1;
    }
  }

  /** `generate_curriculum`: the model branch asks the service for a method it does not
   *  define, so it always raises and the fallback is returned. */
  method GenerateCurriculum(goal: string, level: string, weeks: int) returns (doc: RoadmapDoc)
    ensures doc == FallbackCurriculum(goal, level, weeks)
    ensures weeks >= 0 ==> |doc.dailyLessons| == weeks * 7
  {
    doc := BuildFallbackCurriculum(goal, level, weeks);
    StretchedShape(BaseLessons(KeyFor(goal)), weeks * 7);
  }

  // ------------------------------------------------------------------ one day

  /** The lesson `get_day_plan` picks from a list: day `day` when it exists, else the last
   *  one, else nothing (`{}`). */
  function PickDay(lessons: seq<DayLesson>, day: int): (r: Option<DayLesson>)
    ensures r.None? <==> lessons == []
    ensures 0 < day <= |lessons| ==> r == Some(lessons[day - 1])
    ensures lessons != [] && !(0 < day <= |lessons|) ==> r == Some(lessons[|lessons| - 1])
  {
    if 0 < day <= |lessons| then Some(lessons[day - 1])
    else if lessons != [] then Some(lessons[|lessons| - 1])
    else None
  }

  /** `get_day_plan`: the day from a four-week fallback curriculum. */
  function DayPlan(day: int, goal: string, level: string): Option<DayLesson>
  {
    PickDay(FallbackCurriculum(goal, level, 4).dailyLessons, day)
  }

  /** A day plan always exists; days 1 to 28 get their own lesson, every other day (also zero
   *  and negative days) gets day 28's. */
  lemma DayPlanClamps(day: int, goal: string, level: string)
    ensures var base := BaseLessons(KeyFor(goal));
      DayPlan(day, goal, level).Some?
      && (1 <= day <= 28 ==> DayPlan(day, goal, level).value == LessonAt(base, day - 1))
      && (!(1 <= day <= 28) ==> DayPlan(day, goal, level).value == LessonAt(base, 27))
  {
    var base := BaseLessons(KeyFor(goal));
    var ls := StretchedLessons(base, 28);
    assert |ls| == 28;
    if 1 <= day <= 28 {
      assert ls[day - 1] == LessonAt(base, day - 1);
    } else {
      assert ls[27] == LessonAt(base, 27);
    }
  }
}

=== FILE: routing.dfy ===
/**
 * Ordered keyword dispatch: the `if "a" in s: ... elif any(x in s for x in [...]): ...`
 * chains the agents use to pick a domain or a resource list. The first group with a
 * keyword occurring in the text wins; no hit gives the default.
 */
module Routing {
  import opened Text

  datatype Route<T> = Route(keywords: seq<string>, target: T)

  /** The first route any of whose keywords occurs in `text`, else `default`. */
  function FirstMatch<T>(text: string, routes: seq<Route<T>>, default: T): T
    decreases |routes|
  {
    if routes == [] then default
    else if ContainsAny(text, routes[0].keywords) then routes[0].target
    else FirstMatch(text, routes[1..], default)
  }

  /** The chosen route hits and no earlier one does; with no hit at all the default is chosen. */
  lemma {:induction false} FirstMatchSpec<T>(text: string, routes: seq<Route<T>>, default: T)
    ensures var r := FirstMatch(text, routes, default);
      (exists i :: 0 <= i < |routes| && ContainsAny(text, routes[i].keywords) && r == routes[i].target
         && forall j :: 0 <= j < i ==> !ContainsAny(text, routes[j].keywords))
      || (r == default && forall j :: 0 <= j < |routes| ==> !ContainsAny(text, routes[j].keywords))
    decreases |routes|
  {
    if routes != [] && !ContainsAny(text, routes[0].keywords) {
      FirstMatchSpec(text, routes[1..], default);
      assert forall j :: 1 <= j < |routes| ==> routes[j] == routes[1..][j - 1];
      var r := FirstMatch(text, routes[1..], default);
      if i :| 0 <= i < |routes[1..]| && ContainsAny(text, routes[1..][i].keywords) && r == routes[1..][i].target
               && forall j :: 0 <= j < i ==> !ContainsAny(text, routes[1..][j].keywords) {
        assert routes[i + 1] == routes[1..][i];
        assert forall j :: 0 <= j < i + 1 ==> !ContainsAny(text, routes[j].keywords);
      }
    }
  }

  /** The route at index `i` wins exactly when it hits and no earlier route does. */
  lemma {:induction false} FirstMatchAt<T>(text: string, routes: seq<Route<T>>, default: T, i: int)
    requires 0 <= i < |routes| && ContainsAny(text, routes[i].keywords)
    requires forall j :: 0 <= j < i ==> !ContainsAny(text, routes[j].keywords)
    ensures FirstMatch(text, routes, default) == routes[i].target
    decreases i
  {
    if i > 0 {
      assert !ContainsAny(text, routes[0].keywords);
      assert routes[1..][i - 1] == routes[i];
      FirstMatchAt(text, routes[1..], default, i - 1);
    }
  }

  /** A single-keyword group hits exactly when its keyword occurs. */
  lemma ContainsAnySingle(text: string, k: string)
    ensures ContainsAny(text, [k]) <==> Contains(text, k)
  {
    if Contains(text, k) {
      assert k in [k];
    }
  }

  /** The first route any of whose keywords occurs in `a` or in `b`, else `default`: the
   *  chains that test a topic and a goal together. */
  function FirstMatchEither<T>(a: string, b: string, routes: seq<Route<T>>, default: T): T
    decreases |routes|
  {
    if routes == [] then default
    else if ContainsAny(a, routes[0].keywords) || ContainsAny(b, routes[0].keywords) then routes[0].target
    else FirstMatchEither(a, b, routes[1..], default)
  }

  /** The route at index `i` wins exactly when it hits either text and no earlier route does. */
  lemma {:induction false} FirstMatchEitherAt<T>(a: string, b: string, routes: seq<Route<T>>, default: T, i: int)
    requires 0 <= i < |routes| && (ContainsAny(a, routes[i].keywords) || ContainsAny(b, routes[i].keywords))
    requires forall j :: 0 <= j < i ==> !ContainsAny(a, routes[j].keywords) && !ContainsAny(b, routes[j].keywords)
    ensures FirstMatchEither(a, b, routes, default) == routes[i].target
    decreases i
  {
    if i > 0 {
      assert !ContainsAny(a, routes[0].keywords) && !ContainsAny(b, routes[0].keywords);
      assert routes[1..][i - 1] == routes[i];
      FirstMatchEitherAt(a, b, routes[1..], default, i - 1);
    }
  }

  /** With no route hitting either text the default is chosen. */
  lemma {:induction false} FirstMatchEitherNone<T>(a: string, b: string, routes: seq<Route<T>>, default: T)
    requires forall j :: 0 <= j < |routes| ==> !ContainsAny(a, routes[j].keywords) && !ContainsAny(b, routes[j].keywords)
    ensures FirstMatchEither(a, b, routes, default) == default
    decreases |routes|
  {
    if routes != [] {
      assert forall j :: 0 <= j < |routes| - 1 ==> routes[1..][j] == routes[j + 1];
      FirstMatchEitherNone(a, b, routes[1..], default);
    }
  }
}

=== FILE: session_service.dfy ===
/** The in-memory session: a key-value dict that can be set, read with a default, and cleared. */
module SessionService {

  class InMemorySessionService<K(==), V> {
    var session: map<K, V>

    constructor()
      ensures session == map[]
    {
      session := map[];
    }

    /** `get(key, default)`. */
    function Get(key: K, default: V): (r: V)
      reads this
      ensures key in session ==> r == session[key]
      ensures key !in session ==> r == default
    {
      if key in session then session[key] else default
    }

    /** `set(key, value)`: a later `get(key)` returns `value`; every other key keeps its value. */
    method Set(key: K, value: V)
      modifies this
      ensures session == old(session)[key := value]
      ensures forall d :: Get(key, d) == value
      ensures forall k, d :: k != key ==> Get(k, d) == (if k in old(session) then old(session)[k] else d)
    {
      session := session[key := value];
    }

    /** `clear()`: afterwards every `get` returns its default. */
    method Clear()
      modifies this
      ensures session == map[]
      ensures forall k, d :: Get(k, d) == d
    {
      session := map[];
    }
  }
}

=== FILE: tally.dfy ===
/**
 * Keyed counters: the `d[k] = d.get(k, 0) + 1` loops that count items and hits per key,
 * and the key order of such a dict (the order in which keys first appear).
 */
module Tallies {
  import opened Text

  /** `d.get(k, 0)` on a counter dict. */
  function CountOf(m: map<string, int>, k: string): int
  {
    if k in m then m[k] else 0
  }

  /** How many items have key `k`. */
  function CountKey<T>(xs: seq<T>, key: T -> string, k: string): (n: int)
    ensures 0 <= n <= |xs|
    decreases |xs|
  {
    if xs == [] then 0
    else CountKey(xs[..|xs| - 1], key, k) + (if key(xs[|xs| - 1]) == k then 1 else 0)
  }

  /** How many items have key `k` and are hits. */
  function CountKeyHits<T>(xs: seq<T>, key: T -> string, hit: T -> bool, k: string): (n: int)
    ensures 0 <= n
    decreases |xs|
  {
    if xs == [] then 0
    else CountKeyHits(xs[..|xs| - 1], key, hit, k) + (if key(xs[|xs| - 1]) == k && hit(xs[|xs| - 1]) then 1 else 0)
  }

  /** The keys in order of first appearance: the key order of the counting dict. */
  function KeysInOrder<T>(xs: seq<T>, key: T -> string): seq<string>
    decreases |xs|
  {
    if xs == [] then []
    else
      var prev := KeysInOrder(xs[..|xs| - 1], key);
      var k := key(xs[|xs| - 1]);
      if k in prev then prev else prev + [k]
  }

  /** How the counters change when one more item is counted. */
  lemma CountStep<T>(xs: seq<T>, key: T -> string, hit: T -> bool, i: int)
    requires 0 <= i < |xs|
    ensures var x, pre, post := xs[i], xs[..i], xs[..i + 1];
      KeysInOrder(post, key) == (if key(x) in KeysInOrder(pre, key) then KeysInOrder(pre, key) else KeysInOrder(pre, key) + [key(x)])
      && (forall k :: CountKey(post, key, k) == CountKey(pre, key, k) + (if key(x) == k then 1 else 0))
      && (forall k :: CountKeyHits(post, key, hit, k) == CountKeyHits(pre, key, hit, k) + (if key(x) == k && hit(x) then 1 else 0))
  {
    assert xs[..i + 1][..i] == xs[..i];
  }

  /** A key has no more hits than items. */
  lemma {:induction false} HitsAtMostCount<T>(xs: seq<T>, key: T -> string, hit: T -> bool, k: string)
    ensures CountKeyHits(xs, key, hit, k) <= CountKey(xs, key, k)
    decreases |xs|
  {
    if xs != [] {
      HitsAtMostCount(xs[..|xs| - 1], key, hit, k);
    }
  }

  /** Every hit of a key whose items are all hits: the counts agree. */
  lemma {:induction false} AllHitsCount<T>(xs: seq<T>, key: T -> string, hit: T -> bool, k: string)
    requires forall i :: 0 <= i < |xs| ==> hit(xs[i])
    ensures CountKeyHits(xs, key, hit, k) == CountKey(xs, key, k)
    decreases |xs|
  {
    if xs != [] {
      AllHitsCount(xs[..|xs| - 1], key, hit, k);
    }
  }

  /** The key list names exactly the keys that occur, each once. */
  lemma {:induction false} KeysInOrderSpec<T>(xs: seq<T>, key: T -> string)
    ensures forall k :: k in KeysInOrder(xs, key) <==> CountKey(xs, key, k) > 0
    ensures NoDuplicates(KeysInOrder(xs, key))
    decreases |xs|
  {
    if xs != [] {
      KeysInOrderSpec(xs[..|xs| - 1], key);
    }
  }
}

=== FILE: text.dfy ===
/**
 * The Python string builtins the coach relies on, stated once: `str.lower`, the
 * substring test `t in s`, `str.split(sep)`, `str.strip()`, prefix slicing `s[:n]`
 * and `str(n)` for integers.
 */
module Text {
  import opened Wrappers

  /** `str.lower` on one character: ASCII capitals and the Turkish capitals Ç, Ğ, Ö, Ş, Ü. */
  function LowerChar(c: char): char
  {
    if 'A' <= c <= 'Z' then (c as int + 32) as char
    else if c == 'Ç' then 'ç'
    else if c == 'Ğ' then 'ğ'
    else if c == 'Ö' then 'ö'
    else if c == 'Ş' then 'ş'
    else if c == 'Ü' then 'ü'
    else c
  }

  /** `s.lower()`, character by character. */
  function Lower(s: string): string
  {
    seq(|s|, i requires 0 <= i < |s| => LowerChar(s[i]))
  }

  /** `t` occurs in `s` starting at index `i`. */
  predicate OccursAt(s: string, t: string, i: int)
  {
    0 <= i && i + |t| <= |s| && s[i..i + |t|] == t
  }

  /** Python's `t in s` for two strings. */
  predicate Contains(s: string, t: string)
  {
    exists i :: 0 <= i <= |s| - |t| && OccursAt(s, t, i)
  }

  /** `kw in s` for at least one keyword of the list: the test behind every routing chain. */
  predicate ContainsAny(s: string, keywords: seq<string>)
  {
    exists k :: k in keywords && Contains(s, k)
  }

  /** `s.find(t)` restricted to the hits at or after `from`: the first index where `t` occurs. */
  function FindFrom(s: string, t: string, from: nat): (r: Option<nat>)
    ensures r.Some? ==> from <= r.value && OccursAt(s, t, r.value)
    ensures r.Some? ==> forall j :: from <= j < r.value ==> !OccursAt(s, t, j)
    ensures r.None? ==> forall j :: from <= j ==> !OccursAt(s, t, j)
    decreases |s| - from
  {
    if from + |t| > |s| then None
    else if OccursAt(s, t, from) then Some(from)
    else FindFrom(s, t, from + 1)
  }

  /** `s.find(t)`: the first index where `t` occurs, or nothing when `t in s` is false. */
  function Find(s: string, t: string): (r: Option<nat>)
    ensures r.Some? <==> Contains(s, t)
    ensures r.Some? ==> OccursAt(s, t, r.value) && forall j :: 0 <= j < r.value ==> !OccursAt(s, t, j)
  {
    FindFrom(s, t, 0)
  }

  /** Any first occurrence is the one `Find` reports. */
  lemma FindIsFirst(s: string, t: string, i: nat)
    requires OccursAt(s, t, i)
    requires forall j :: 0 <= j < i ==> !OccursAt(s, t, j)
    ensures Find(s, t) == Some(i)
  {
  }

  /** `s.split(sep)` for a non-empty separator: the pieces between successive occurrences. */
  function Split(s: string, sep: string): (r: seq<string>)
    requires sep != []
    ensures |r| >= 1
    decreases |s|
  {
    match Find(s, sep)
    case None => [s]
    case Some(i) => [s[..i]] + Split(s[i + |sep|..], sep)
  }

  /** The first piece of a split never contains the separator. */
  lemma SplitHeadHasNoSeparator(s: string, sep: string)
    requires sep != []
    ensures !Contains(Split(s, sep)[0], sep)
  {
    match Find(s, sep)
    case None =>
    case Some(i) =>
      var h := s[..i];
      assert Split(s, sep)[0] == h;
      forall j | 0 <= j <= |h| - |sep|
        ensures !OccursAt(h, sep, j)
      {
        assert forall k :: j <= k < j + |sep| ==> h[k] == s[k];
        assert h[j..j + |sep|] == s[j..j + |sep|];
        assert !OccursAt(s, sep, j);
      }
  }

  /** A string without the separator splits into itself alone. */
  lemma SplitWithoutSeparator(s: string, sep: string)
    requires sep != [] && !Contains(s, sep)
    ensures Split(s, sep) == [s]
  {
  }

  /** When the separator occurs, the split has a second piece: the text after the first
   *  occurrence, cut at the next one. */
  lemma SplitSecond(s: string, sep: string)
    requires sep != [] && Contains(s, sep)
    ensures |Split(s, sep)| >= 2
    ensures Split(s, sep)[1] == Split(s[Find(s, sep).value + |sep|..], sep)[0]
  {
  }

  /** `t` is an infix of `s` iff `t in s`; an infix of an infix is an infix. */
  lemma ContainsTransitive(a: string, b: string, c: string)
    requires Contains(a, b) && Contains(b, c)
    ensures Contains(a, c)
  {
    var i :| 0 <= i <= |a| - |b| && OccursAt(a, b, i);
    var j :| 0 <= j <= |b| - |c| && OccursAt(b, c, j);
    assert forall k :: 0 <= k < |c| ==> c[k] == b[j + k] == a[i + j + k];
    assert a[i + j..i + j + |c|] == c;
    assert OccursAt(a, c, i + j);
  }

  /** Every slice of a string is an infix of it. */
  lemma SliceIsInfix(s: string, i: nat, j: nat)
    requires i <= j <= |s|
    ensures Contains(s, s[i..j])
  {
    assert OccursAt(s, s[i..j], i);
  }

  /** The characters Python's `str.strip()` removes (`str.isspace`). */
  predicate IsSpace(c: char)
  {
    c == ' ' || ('\t' <= c <= '\r') || ('\U{1C}' <= c <= '\U{1F}') || c == '\U{85}' || c == '\U{A0}'
    || c == '\U{1680}' || ('\U{2000}' <= c <= '\U{200A}') || c == '\U{2028}' || c == '\U{2029}'
    || c == '\U{202F}' || c == '\U{205F}' || c == '\U{3000}'
  }

  /** `s.lstrip()`: how many leading characters it removes. */
  function LeadingSpaces(s: string): (n: nat)
    ensures n <= |s|
    ensures forall k :: 0 <= k < n ==> IsSpace(s[k])
    ensures n < |s| ==> !IsSpace(s[n])
    decreases |s|
  {
    if |s| > 0 && IsSpace(s[0]) then 1 + LeadingSpaces(s[1..]) else 0
  }

  /** `s.rstrip()`: how many characters it keeps. */
  function KeptBeforeTrailingSpaces(s: string): (n: nat)
    ensures n <= |s|
    ensures forall k :: n <= k < |s| ==> IsSpace(s[k])
    ensures n > 0 ==> !IsSpace(s[n - 1])
    decreases |s|
  {
    if |s| > 0 && IsSpace(s[|s| - 1]) then KeptBeforeTrailingSpaces(s[..|s| - 1]) else |s|
  }

  /** `s.strip()`. */
  function Strip(s: string): (r: string)
    ensures Contains(s, r)
    ensures r != [] ==> !IsSpace(r[0]) && !IsSpace(r[|r| - 1])
    ensures (forall k :: 0 <= k < |s| ==> !IsSpace(s[k])) ==> r == s
  {
    var rest := s[LeadingSpaces(s)..];
    var r := rest[..KeptBeforeTrailingSpaces(rest)];
    assert r == s[LeadingSpaces(s)..LeadingSpaces(s) + |r|];
    SliceIsInfix(s, LeadingSpaces(s), LeadingSpaces(s) + |r|);
    r
  }

  /** Python's prefix slice `s[:n]`, negative `n` counting from the end. */
  function Take<T>(s: seq<T>, n: int): (r: seq<T>)
    ensures |r| <= |s| && r == s[..|r|]
    ensures n >= 0 ==> |r| == if n <= |s| then n else |s|
    ensures n < 0 ==> |r| == if |s| + n >= 0 then |s| + n else 0
  {
    if n >= 0 then (if n <= |s| then s[..n] else s)
    else if |s| + n >= 0 then s[..|s| + n]
    else []
  }

  /** How many iterations `range(n)` makes. */
  function RangeLen(n: int): nat
  {
    if n >= 0 then n else 0
  }

  function Min(a: int, b: int): int { if a <= b then a else b }

  function Max(a: int, b: int): int { if a >= b then a else b }

  function DigitChar(d: nat): char
    requires d < 10
  {
    ('0' as int + d) as char
  }

  /** `str(n)` for a natural number: its decimal digits, without leading zeros. */
  function NatToString(n: nat): (r: string)
    ensures 1 <= |r|
    ensures n >= 10 ==> 2 <= |r|
    ensures forall k :: 0 <= k < |r| ==> '0' <= r[k] <= '9'
    decreases n
  {
    if n < 10 then [DigitChar(n)] else NatToString(n / 10) + [DigitChar(n % 10)]
  }

  /** Distinct numbers print differently, so numbered ids such as `q1`, `q2`, ... never clash. */
  lemma {:induction false} NatToStringInjective(a: nat, b: nat)
    requires NatToString(a) == NatToString(b)
    ensures a == b
    decreases a
  {
    if a >= 10 && b >= 10 {
      var sa, sb := NatToString(a), NatToString(b);
      assert sa[|sa| - 1] == sb[|sb| - 1];
      assert DigitChar(a % 10) == DigitChar(b % 10);
      assert NatToString(a / 10) == sa[..|sa| - 1] == sb[..|sb| - 1] == NatToString(b / 10);
      NatToStringInjective(a / 10, b / 10);
      assert a == 10 * (a / 10) + a % 10 && b == 10 * (b / 10) + b % 10;
    } else if a < 10 && b < 10 {
      assert DigitChar(a) == NatToString(a)[0] == NatToString(b)[0] == DigitChar(b);
    }
  }

  /** `str(n)` for any integer. */
  function IntToString(n: int): string
  {
    if n < 0 then "-" + NatToString(-n) else NatToString(n)
  }

  /** `prefix + str(n)` for distinct `n` gives distinct strings. */
  lemma NumberedDistinct(prefix: string, a: nat, b: nat)
    requires a != b
    ensures prefix + NatToString(a) != prefix + NatToString(b)
  {
    if prefix + NatToString(a) == prefix + NatToString(b) {
      assert NatToString(a) == (prefix + NatToString(a))[|prefix|..];
      assert NatToString(b) == (prefix + NatToString(b))[|prefix|..];
      NatToStringInjective(a, b);
    }
  }
  /** `a` lists some of the elements of `b`, in the order they have in `b`. */
  predicate IsSubsequence<T(==)>(a: seq<T>, b: seq<T>)
    decreases |b|
  {
    a == [] ||
    (b != [] &&
     ((a[|a| - 1] == b[|b| - 1] && IsSubsequence(a[..|a| - 1], b[..|b| - 1])) || IsSubsequence(a, b[..|b| - 1])))
  }

  /** No element is listed twice. */
  predicate NoDuplicates<T(==)>(s: seq<T>)
  {
    forall i, j :: 0 <= i < j < |s| ==> s[i] != s[j]
  }

  lemma SubsetCardinality<T>(a: set<T>, b: set<T>)
    requires a <= b
    ensures |a| <= |b|
    ensures a < b ==> |a| < |b|
    decreases |b|
  {
    if a < b {
      var x :| x in b && x !in a;
      SubsetCardinality(a, b - {x});
      assert b == (b - {x}) + {x};
      assert |b| == |b - {x}| + 1;
    } else {
      assert a == b;
    }
  }
  /** `[x for x in s if keep(x)]`, built element by element as the source's append loops do. */
  function Filter<T>(s: seq<T>, keep: T -> bool): (r: seq<T>)
    ensures |r| <= |s|
    decreases |s|
  {
    if s == [] then [] else Filter(s[..|s| - 1], keep) + (if keep(s[|s| - 1]) then [s[|s| - 1]] else [])
  }

  lemma FilterAppend<T>(s: seq<T>, x: T, keep: T -> bool)
    ensures Filter(s + [x], keep) == Filter(s, keep) + (if keep(x) then [x] else [])
  {
    assert (s + [x])[..|s|] == s;
  }

  /** The filtered list holds exactly the kept elements. */
  lemma {:induction false} FilterMembers<T>(s: seq<T>, keep: T -> bool)
    ensures forall x :: x in Filter(s, keep) <==> x in s && keep(x)
    decreases |s|
  {
    if s != [] {
      var init, last := s[..|s| - 1], s[|s| - 1];
      assert s == init + [last];
      FilterMembers(init, keep);
    }
  }

  /** Nothing is kept from a list none of whose elements is kept. */
  lemma {:induction false} FilterNone<T>(s: seq<T>, keep: T -> bool)
    requires forall i :: 0 <= i < |s| ==> !keep(s[i])
    ensures Filter(s, keep) == []
    decreases |s|
  {
    if s != [] {
      FilterNone(s[..|s| - 1], keep);
    }
  }

  /** The filtered list keeps the original order. */
  lemma {:induction false} FilterOrder<T>(s: seq<T>, keep: T -> bool)
    ensures IsSubsequence(Filter(s, keep), s)
    decreases |s|
  {
    if s != [] {
      var init, last := s[..|s| - 1], s[|s| - 1];
      assert s == init + [last];
      FilterOrder(init, keep);
      FilterAppend(init, last, keep);
      if keep(last) {
        SubsequenceBothExtend(Filter(init, keep), init, last);
      } else {
        SubsequenceExtend(Filter(init, keep), init, last);
        assert Filter(s, keep) == Filter(init, keep);
      }
    }
  }

  lemma {:induction false} SubsequenceReflexive<T>(s: seq<T>)
    ensures IsSubsequence(s, s)
    decreases |s|
  {
    if s != [] {
      SubsequenceReflexive(s[..|s| - 1]);
    }
  }

  /** A prefix lists elements of the sequence in their order. */
  lemma {:induction false} PrefixIsSubsequence<T>(s: seq<T>, k: int)
    requires 0 <= k <= |s|
    ensures IsSubsequence(s[..k], s)
    decreases |s|
  {
    if k == |s| {
      assert s[..k] == s;
      SubsequenceReflexive(s);
    } else {
      var init := s[..|s| - 1];
      PrefixIsSubsequence(init, k);
      assert init[..k] == s[..k];
      SubsequenceExtend(s[..k], init, s[|s| - 1]);
      assert init + [s[|s| - 1]] == s;
    }
  }

  lemma {:induction false} SubsequenceTransitive<T>(a: seq<T>, b: seq<T>, c: seq<T>)
    requires IsSubsequence(a, b) && IsSubsequence(b, c)
    ensures IsSubsequence(a, c)
    decreases |c|
  {
    if a != [] && c != [] {
      var c0 := c[..|c| - 1];
      if IsSubsequence(b, c0) {
        SubsequenceTransitive(a, b, c0);
      } else {
        var b0 := b[..|b| - 1];
        if a[|a| - 1] == b[|b| - 1] && IsSubsequence(a[..|a| - 1], b0) {
          SubsequenceTransitive(a[..|a| - 1], b0, c0);
        } else {
          SubsequenceTransitive(a, b0, c0);
        }
      }
    }
  }

  lemma SubsequenceExtend<T>(a: seq<T>, b: seq<T>, x: T)
    requires IsSubsequence(a, b)
    ensures IsSubsequence(a, b + [x])
  {
    assert (b + [x])[..|b|] == b;
  }

  lemma SubsequenceBothExtend<T>(a: seq<T>, b: seq<T>, x: T)
    requires IsSubsequence(a, b)
    ensures IsSubsequence(a + [x], b + [x])
  {
    assert (b + [x])[..|b|] == b;
    assert (a + [x])[..|a|] == a;
  }
  /** A string built around a piece contains that piece: the f-string templates embed their
   *  arguments. */
  lemma ContainsMiddle(a: string, b: string, c: string)
    ensures Contains(a + b + c, b)
  {
    assert (a + b + c)[|a|..|a| + |b|] == b;
    assert OccursAt(a + b + c, b, |a|);
  }

  /** Whatever a string contains, the string with a prefix in front still contains. */
  lemma SuffixContains(prefix: string, s: string)
    ensures forall t :: Contains(s, t) ==> Contains(prefix + s, t)
  {
    forall t | Contains(s, t) ensures Contains(prefix + s, t) {
      SliceIsInfix(prefix + s, |prefix|, |prefix + s|);
      assert (prefix + s)[|prefix|..|prefix + s|] == s;
      ContainsTransitive(prefix + s, s, t);
    }
  }

  /** One placeholder of a template: the text before it, the value, and the rest. */
  function Fill(before: string, x: string, after: string): (text: string)
    ensures Contains(text, x)
    ensures forall t :: Contains(after, t) ==> Contains(text, t)
  {
    ContainsMiddle(before, x, after);
    SuffixContains(before + x, after);
    before + x + after
  }

  /** `sep.join(parts)`. */
  function Join(parts: seq<string>, sep: string): (r: string)
    ensures parts == [] ==> r == ""
    ensures |parts| == 1 ==> r == parts[0]
    decreases |parts|
  {
    if parts == [] then ""
    else if |parts| == 1 then parts[0]
    else Join(parts[..|parts| - 1], sep) + sep + parts[|parts| - 1]
  }

  /** Every joined part appears in the joined string. */
  lemma {:induction false} JoinContainsParts(parts: seq<string>, sep: string)
    ensures forall i :: 0 <= i < |parts| ==> Contains(Join(parts, sep), parts[i])
    decreases |parts|
  {
    if |parts| > 1 {
      var init, last := parts[..|parts| - 1], parts[|parts| - 1];
      var j := Join(parts, sep);
      var head := Join(init, sep);
      JoinContainsParts(init, sep);
      assert j == head + sep + last;
      SliceIsInfix(j, 0, |head|);
      assert j[0..|head|] == head;
      forall i | 0 <= i < |parts| ensures Contains(j, parts[i]) {
        if i < |parts| - 1 {
          assert parts[i] == init[i];
          ContainsTransitive(j, head, init[i]);
        } else {
          SliceIsInfix(j, |j| - |last|, |j|);
          assert j[|j| - |last|..|j|] == last;
        }
      }
    } else if |parts| == 1 {
      SliceIsInfix(parts[0], 0, |parts[0]|);
      assert parts[0][0..|parts[0]|] == parts[0];
    }
  }
}

=== FILE: user_store.dfy ===
/**
 * The user store: one JSON document mapping user ids to user records. Every operation reads
 * the record it needs (running the record's post-load migration), changes that copy and
 * writes it back under the same id. The store is the object's state, an ordered list of
 * records keyed by their ids (a JSON object keeps its insertion order); the clock and the
 * password hash are inputs.
 */
module Users {
  import opened Wrappers
  import opened Text

  /** A JSON value, as the user file holds it. */
  datatype Json = JNull | JBool(b: bool) | JNum(r: real) | JStr(s: string) | JList(items: seq<Json>)
                | JObj(fields: map<string, Json>)

  /** A JSON object: the curriculum, goal input, level and quiz-completion dicts. */
  type Doc = map<string, Json>

  /** The two readings of the clock one operation takes: the `%Y%m%d%H%M%S` stamp used in
   *  ids and the ISO timestamp stored in records. */
  datatype Clock = Clock(stamp: string, iso: string)

  /** One entry of `quiz_scores`. */
  datatype QuizEntry = QuizEntry(lessonId: string, score: int, date: string)

  /** One entry of `curriculums`. */
  datatype Entry = Entry(id: string, curriculum: Doc, goalInput: Option<Doc>, userLevel: Option<Doc>,
                         currentDay: int, completedDays: seq<int>, dayQuizCompleted: Doc,
                         createdAt: string, status: string, archivedAt: Option<string>)

  /** A user record. List fields stored as `null` read as empty lists, as the post-load step
   *  makes them; the three legacy curriculum fields mirror the active curriculum. */
  datatype User = User(userId: string, username: string, email: string, passwordHash: string,
                       createdAt: string, selectedProgram: Option<string>, currentWeek: int, currentDay: int,
                       totalStudyHours: real, completedLessons: seq<string>, quizScores: seq<QuizEntry>,
                       dailyTimePreference: real, learningStyle: string,
                       curriculum: Option<Doc>, userLevel: Option<Doc>, goalInput: Option<Doc>,
                       completedDays: seq<int>, curriculums: seq<Entry>, activeCurriculumId: Option<string>)

  /** What `load_curriculum` returns: a stored entry, or the view built from the legacy fields. */
  datatype Loaded = Stored(entry: Entry)
                  | LegacyView(curriculum: Doc, goalInput: Option<Doc>, userLevel: Option<Doc>,
                               currentDay: int, completedDays: seq<int>)

  function LoadedDay(l: Loaded): int
  {
    match l
    case Stored(e) => e.currentDay
    case LegacyView(_, _, _, d, _) => d
  }

  function LoadedDays(l: Loaded): seq<int>
  {
    match l
    case Stored(e) => e.completedDays
    case LegacyView(_, _, _, _, ds) => ds
  }

  /** Python truthiness of an optional string and of an optional dict. */
  predicate Truthy(s: Option<string>)
  {
    s.Some? && s.value != ""
  }

  predicate HasDoc(d: Option<Doc>)
  {
    d.Some? && |d.value| > 0
  }

  const EmailTaken: string := "Bu email zaten kayıtlı!"
  const NameTaken: string := "Bu kullanıcı adı zaten alınmış!"

  // ---------------------------------------------------------------- lookups

  function UserKey(u: User): string { u.userId }

  function EntryKey(e: Entry): string { e.id }

  /** The first index whose key is `k`: a dict lookup, or the `for ... if ...get("id") == k`
   *  searches over `curriculums`. */
  function FirstKey<T>(xs: seq<T>, key: T -> string, k: string): (r: Option<nat>)
    ensures r.Some? ==> r.value < |xs| && key(xs[r.value]) == k && forall j :: 0 <= j < r.value ==> key(xs[j]) != k
    ensures r.None? ==> forall j :: 0 <= j < |xs| ==> key(xs[j]) != k
    decreases |xs|
  {
    if xs == [] then None
    else match FirstKey(xs[..|xs| - 1], key, k)
      case Some(i) => Some(i)
      case None => if key(xs[|xs| - 1]) == k then Some(|xs| - 1) else None
  }

  /** The search loop over `curriculums`: the first entry with id `id`. */
  method Locate(entries: seq<Entry>, id: string) returns (r: Option<nat>)
    ensures r == FirstKey(entries, EntryKey, id)
  {
    var i := 0;
    while i < |entries| && entries[i].id != id
      invariant 0 <= i <= |entries|
      invariant forall j :: 0 <= j < i ==> entries[j].id != id
    {
      i := i + 1;
    }
    r := if i < |entries| then Some(i) else None;
  }

  // ---------------------------------------------------------------- User.__post_init__

  /** A record whose legacy curriculum has been carried over to the curriculum list. */
  predicate Migrated(u: User)
  {
    !(HasDoc(u.curriculum) && u.curriculums == [])
  }

  /** `User.__post_init__`: a record with a legacy curriculum and no curriculum list gets one
   *  active entry built from the legacy fields, and that entry becomes the active one. */
  function PostInit(u: User, now: Clock): User
  {
    if HasDoc(u.curriculum) && u.curriculums == [] then
      var id := "curr_" + now.stamp;
      u.(curriculums := [Entry(id, u.curriculum.value, u.goalInput, u.userLevel, u.currentDay, u.completedDays,
                               map[], now.iso, "active", None)],
         activeCurriculumId := Some(id))
    else u
  }

  /** The migration creates exactly one active entry copying the legacy day and completed
   *  days, makes it the active one and changes nothing else; a migrated record is left alone,
   *  so running the step twice is running it once. */
  lemma PostInitMigrates(u: User, now: Clock, later: Clock)
    ensures var r := PostInit(u, now);
      Migrated(r)
      && r == u.(curriculums := r.curriculums, activeCurriculumId := r.activeCurriculumId)
      && PostInit(r, later) == r
      && (Migrated(u) ==> r == u)
      && (!Migrated(u) ==>
            |r.curriculums| == 1 && r.curriculums[0].status == "active"
            && r.curriculums[0].currentDay == u.currentDay && r.curriculums[0].completedDays == u.completedDays
            && Some(r.curriculums[0].curriculum) == u.curriculum
            && r.curriculums[0].goalInput == u.goalInput && r.curriculums[0].userLevel == u.userLevel
            && r.curriculums[0].id == "curr_" + now.stamp && r.curriculums[0].createdAt == now.iso
            && r.curriculums[0].dayQuizCompleted == map[] && r.curriculums[0].archivedAt.None?
            && r.activeCurriculumId == Some(r.curriculums[0].id))
  {
  }

  // ---------------------------------------------------------------- register / login

  /** The message `register` refuses with: the first stored user holding the email or the
   *  username decides, the email being checked first. */
  function Clash(users: seq<User>, username: string, email: string): Option<string>
    decreases |users|
  {
    if users == [] then None
    else if users[0].email == email then Some(EmailTaken)
    else if users[0].username == username then Some(NameTaken)
    else Clash(users[1..], username, email)
  }

  /** The id `register` gives the `n+1`-th user. */
  function NewUserId(n: nat, now: Clock): string
  {
    "user_" + NatToString(n + 1) + "_" + now.stamp
  }

  /** A freshly registered user: the dataclass defaults around the given name, email and hash. */
  function NewUser(id: string, username: string, email: string, passwordHash: string, now: Clock): User
  {
    User(id, username, email, passwordHash, now.iso, None, 1, 1, 0.0, [], [], 1.0, "karma",
         None, None, None, [], [], None)
  }

  /** `data["users"][u.user_id] = u`: replaces the record with that id in place, else appends. */
  function Put(users: seq<User>, u: User): (r: seq<User>)
    ensures FirstKey(users, UserKey, u.userId).Some? ==>
      var i := FirstKey(users, UserKey, u.userId).value;
      |r| == |users| && r[i] == u && forall j :: 0 <= j < |users| && j != i ==> r[j] == users[j]
    ensures FirstKey(users, UserKey, u.userId).None? ==> |r| == |users| + 1 && r[..|users|] == users && r[|users|] == u
    ensures u in r
  {
    match FirstKey(users, UserKey, u.userId)
    case Some(i) =>
      var r := users[i := u];
      assert r[i] == u;
      r
    case None => users + [u]
  }

  /** The first stored user with this email and password hash. */
  function LoginMatch(users: seq<User>, email: string, passwordHash: string): (r: Option<nat>)
    ensures r.Some? ==> r.value < |users| && users[r.value].email == email && users[r.value].passwordHash == passwordHash
    ensures r.Some? ==> forall j :: 0 <= j < r.value ==> !(users[j].email == email && users[j].passwordHash == passwordHash)
    ensures r.None? ==> forall j :: 0 <= j < |users| ==> !(users[j].email == email && users[j].passwordHash == passwordHash)
    decreases |users|
  {
    if users == [] then None
    else match LoginMatch(users[..|users| - 1], email, passwordHash)
      case Some(i) => Some(i)
      case None =>
        var u := users[|users| - 1];
        if u.email == email && u.passwordHash == passwordHash then Some(|users| - 1) else None
  }

  // ---------------------------------------------------------------- record_progress / advance_day

  /** `record_progress` on one record: the lesson is added once, the hours are added, and a
   *  quiz entry is appended exactly when a score is given. */
  function WithProgress(u: User, lessonId: string, studyHours: real, quizScore: Option<int>, now: Clock): User
  {
    u.(completedLessons := if lessonId in u.completedLessons then u.completedLessons else u.completedLessons + [lessonId],
       totalStudyHours := u.totalStudyHours + studyHours,
       quizScores := if quizScore.Some? then u.quizScores + [QuizEntry(lessonId, quizScore.value, now.iso)] else u.quizScores)
  }

  /** The lesson list never gets a duplicate and always ends up holding the lesson; the quiz
   *  list grows by one entry exactly when a score is given; nothing else changes. */
  lemma ProgressSpec(u: User, lessonId: string, studyHours: real, quizScore: Option<int>, now: Clock)
    ensures var r := WithProgress(u, lessonId, studyHours, quizScore, now);
      (NoDuplicates(u.completedLessons) ==> NoDuplicates(r.completedLessons))
      && lessonId in r.completedLessons
      && (forall l :: l in r.completedLessons <==> l in u.completedLessons || l == lessonId)
      && r.totalStudyHours == u.totalStudyHours + studyHours
      && |r.quizScores| == |u.quizScores| + (if quizScore.Some? then 1 else 0)
      && r.quizScores[..|u.quizScores|] == u.quizScores
      && r == u.(completedLessons := r.completedLessons, totalStudyHours := r.totalStudyHours, quizScores := r.quizScores)
  {
    var r := WithProgress(u, lessonId, studyHours, quizScore, now);
    if lessonId !in u.completedLessons && NoDuplicates(u.completedLessons) {
      assert r.completedLessons == u.completedLessons + [lessonId];
      forall i, j | 0 <= i < j < |r.completedLessons|
        ensures r.completedLessons[i] != r.completedLessons[j]
      {
        if j == |u.completedLessons| {
          assert r.completedLessons[i] in u.completedLessons;
        }
      }
    }
  }

  /** `advance_day` on one record: the next day, wrapping after day 7 into the next week. */
  function Advanced(u: User): User
  {
    if u.currentDay + 1 > 7 then u.(currentDay := 1, currentWeek := u.currentWeek + 1)
    else u.(currentDay := u.currentDay + 1)
  }

  /** The running day number: week `w`, day `d` is day `7 * (w - 1) + d` of the program. */
  function DayNumber(u: User): int
  {
    7 * (u.currentWeek - 1) + u.currentDay
  }

  /** From any day up to 7, advancing moves the running day number on by exactly one, and a
   *  day in 1..7 stays in 1..7. */
  lemma AdvanceSpec(u: User)
    requires u.currentDay <= 7
    ensures DayNumber(Advanced(u)) == DayNumber(u) + 1
    ensures 1 <= u.currentDay ==> 1 <= Advanced(u).currentDay <= 7
    ensures Advanced(u) == u.(currentDay := Advanced(u).currentDay, currentWeek := Advanced(u).currentWeek)
  {
  }

  // ---------------------------------------------------------------- save_curriculum

  /** `goal_input.get("goal", "")` applies to a goal that is text or absent. */
  predicate GoalIsText(goalInput: Doc)
  {
    "goal" in goalInput ==> goalInput["goal"].JStr?
  }

  function GoalOf(goalInput: Doc): string
    requires GoalIsText(goalInput)
  {
    if "goal" in goalInput then goalInput["goal"].s else ""
  }

  /** The id `save_curriculum` uses: the given one when non-empty, else one from the clock. */
  function CurriculumIdFor(curriculumId: Option<string>, now: Clock): (id: string)
    ensures id != ""
    ensures Truthy(curriculumId) ==> id == curriculumId.value
  {
    if Truthy(curriculumId) then curriculumId.value else "curr_" + now.stamp
  }

  /** The entry `save_curriculum` writes. */
  function NewEntry(id: string, curriculum: Doc, goalInput: Doc, userLevel: Doc, currentDay: int,
                    completedDays: Option<seq<int>>, now: Clock): Entry
  {
    Entry(id, curriculum, Some(goalInput), Some(userLevel), currentDay, completedDays.GetOr([]), map[], now.iso, "active", None)
  }

  /** An entry list with `e` in place of the first entry sharing its id, or `e` appended. */
  function Upsert(entries: seq<Entry>, e: Entry): seq<Entry>
  {
    match FirstKey(entries, EntryKey, e.id)
    case Some(i) => entries[i := e]
    case None => entries + [e]
  }

  /** Replacing keeps every other entry and the length; appending keeps every entry and adds
   *  one; either way the first entry with the id is `e`. */
  lemma UpsertSpec(entries: seq<Entry>, e: Entry)
    ensures var r := Upsert(entries, e);
      FirstKey(r, EntryKey, e.id) == Some(FirstKey(entries, EntryKey, e.id).GetOr(|entries|))
      && r[FirstKey(r, EntryKey, e.id).value] == e
      && (FirstKey(entries, EntryKey, e.id).Some? ==>
            |r| == |entries| && forall j :: 0 <= j < |r| && j != FirstKey(entries, EntryKey, e.id).value ==> r[j] == entries[j])
      && (FirstKey(entries, EntryKey, e.id).None? ==> r == entries + [e])
  {
    var r := Upsert(entries, e);
    match FirstKey(entries, EntryKey, e.id)
    case Some(i) =>
      assert r == entries[i := e];
      assert forall j :: 0 <= j < |entries| ==> r[j].id == entries[j].id;
      FirstKeySameKeys(entries, r, e.id);
    case None =>
      assert r == entries + [e];
      assert r[..|r| - 1] == entries;
  }

  /** `save_curriculum` on one record: the entry is stored and made active, and the legacy
   *  fields mirror it, with the program named after the first 50 characters of the goal. */
  function WithCurriculum(u: User, e: Entry, curriculum: Doc, goalInput: Doc, userLevel: Doc,
                          currentDay: int, completedDays: Option<seq<int>>): User
    requires GoalIsText(goalInput)
  {
    u.(curriculums := Upsert(u.curriculums, e), activeCurriculumId := Some(e.id),
       curriculum := Some(curriculum), goalInput := Some(goalInput), userLevel := Some(userLevel),
       currentDay := currentDay, completedDays := completedDays.GetOr([]),
       selectedProgram := Some(Take(GoalOf(goalInput), 50)))
  }

  // ---------------------------------------------------------------- load_curriculum

  /** `load_curriculum` on one record: an explicit id gives that entry or nothing; otherwise
   *  the active entry, else the view of the legacy fields, else nothing. */
  function CurriculumView(u: User, curriculumId: Option<string>): (r: Option<Loaded>)
    ensures Truthy(curriculumId) ==>
      (r.Some? <==> exists j :: 0 <= j < |u.curriculums| && u.curriculums[j].id == curriculumId.value)
      && (r.Some? ==> r.value.Stored? && r.value.entry.id == curriculumId.value && r.value.entry in u.curriculums)
    ensures !Truthy(curriculumId) && r.Some? && r.value.Stored? ==>
      Truthy(u.activeCurriculumId) && r.value.entry.id == u.activeCurriculumId.value && r.value.entry in u.curriculums
    ensures r.Some? && r.value.LegacyView? ==>
      !Truthy(curriculumId) && HasDoc(u.curriculum) && Some(r.value.curriculum) == u.curriculum
      && r.value.goalInput == u.goalInput && r.value.userLevel == u.userLevel
      && r.value.currentDay == u.currentDay && r.value.completedDays == u.completedDays
    ensures !Truthy(curriculumId) ==>
      var active := Truthy(u.activeCurriculumId)
        && exists j :: 0 <= j < |u.curriculums| && u.curriculums[j].id == u.activeCurriculumId.value;
      (r.Some? && r.value.Stored? <==> active)
      && (r.Some? && r.value.LegacyView? <==> !active && HasDoc(u.curriculum))
      && (r.None? <==> !active && !HasDoc(u.curriculum))
  {
    if Truthy(curriculumId) then
      match FirstKey(u.curriculums, EntryKey, curriculumId.value)
      case Some(k) => Some(Stored(u.curriculums[k]))
      case None => None
    else if Truthy(u.activeCurriculumId) && FirstKey(u.curriculums, EntryKey, u.activeCurriculumId.value).Some? then
      Some(Stored(u.curriculums[FirstKey(u.curriculums, EntryKey, u.activeCurriculumId.value).value]))
    else if HasDoc(u.curriculum) then
      Some(LegacyView(u.curriculum.value, u.goalInput, u.userLevel, u.currentDay, u.completedDays))
    else None
  }

  /** After a save, loading without an id gives back exactly the saved entry. */
  lemma SaveThenLoad(u: User, id: Option<string>, curriculum: Doc, goalInput: Doc, userLevel: Doc,
                     currentDay: int, completedDays: Option<seq<int>>, now: Clock, later: Clock)
    requires GoalIsText(goalInput)
    ensures var e := NewEntry(CurriculumIdFor(id, now), curriculum, goalInput, userLevel, currentDay, completedDays, now);
      var saved := WithCurriculum(PostInit(u, now), e, curriculum, goalInput, userLevel, currentDay, completedDays);
      CurriculumView(PostInit(saved, later), None) == Some(Stored(e))
      && CurriculumView(PostInit(saved, later), Some(e.id)) == Some(Stored(e))
  {
    var e := NewEntry(CurriculumIdFor(id, now), curriculum, goalInput, userLevel, currentDay, completedDays, now);
    UpsertSpec(PostInit(u, now).curriculums, e);
  }

  // ---------------------------------------------------------------- set_active / archive / update_progress

  /** `set_active_curriculum` on one record: the entry becomes active and the legacy fields
   *  take its values. */
  function Activated(u: User, e: Entry): User
  {
    u.(activeCurriculumId := Some(e.id), curriculum := Some(e.curriculum), goalInput := e.goalInput,
       userLevel := e.userLevel, currentDay := e.currentDay, completedDays := e.completedDays)
  }

  /** After switching to an entry with a non-empty id, loading without an id gives it back. */
  lemma ActivateThenLoad(u: User, k: nat, later: Clock)
    requires Migrated(u) && k < |u.curriculums| && u.curriculums[k].id != ""
    requires FirstKey(u.curriculums, EntryKey, u.curriculums[k].id) == Some(k)
    ensures CurriculumView(PostInit(Activated(u, u.curriculums[k]), later), None) == Some(Stored(u.curriculums[k]))
  {
  }

  /** `archive_curriculum` on one entry list: entry `k` is marked archived, with the time. */
  function ArchivedAt(entries: seq<Entry>, k: nat, now: Clock): (r: seq<Entry>)
    requires k < |entries|
    ensures |r| == |entries|
    ensures forall j :: 0 <= j < |r| ==> r[j].id == entries[j].id && r[j].curriculum == entries[j].curriculum
    ensures r[k].status == "archived" && r[k].archivedAt == Some(now.iso)
    ensures forall j :: 0 <= j < |r| && j != k ==> r[j] == entries[j]
  {
    entries[k := entries[k].(status := "archived", archivedAt := Some(now.iso))]
  }

  /** `update_progress` on one record: the first entry with the active id, when there is one,
   *  takes the new day, days and (when given) quiz map; the legacy day and days follow. */
  function WithDayProgress(u: User, currentDay: int, completedDays: seq<int>, dayQuiz: Option<Doc>): User
  {
    var entries :=
      if Truthy(u.activeCurriculumId) && u.curriculums != [] then
        match FirstKey(u.curriculums, EntryKey, u.activeCurriculumId.value)
        case Some(k) =>
          u.curriculums[k := u.curriculums[k].(currentDay := currentDay, completedDays := completedDays,
                                               dayQuizCompleted := dayQuiz.GetOr(u.curriculums[k].dayQuizCompleted))]
        case None => u.curriculums
      else u.curriculums;
    u.(curriculums := entries, currentDay := currentDay, completedDays := completedDays)
  }

  /** Only the active entry and the legacy day fields change, no entry is added or removed, and
   *  a later load finds a curriculum exactly when it did before, now at the new day. */
  lemma UpdateThenLoad(u: User, currentDay: int, completedDays: seq<int>, dayQuiz: Option<Doc>, later: Clock)
    requires Migrated(u)
    ensures var r := WithDayProgress(u, currentDay, completedDays, dayQuiz);
      var loaded := CurriculumView(PostInit(r, later), None);
      |r.curriculums| == |u.curriculums|
      && (forall j :: 0 <= j < |r.curriculums| ==>
            r.curriculums[j].id == u.curriculums[j].id && r.curriculums[j].status == u.curriculums[j].status)
      && (forall j :: 0 <= j < |r.curriculums| && !(Truthy(u.activeCurriculumId) && r.curriculums[j].id == u.activeCurriculumId.value)
            ==> r.curriculums[j] == u.curriculums[j])
      && r == u.(curriculums := r.curriculums, currentDay := currentDay, completedDays := completedDays)
      && (loaded.Some? <==> CurriculumView(u, None).Some?)
      && (loaded.Some? ==> LoadedDay(loaded.value) == currentDay && LoadedDays(loaded.value) == completedDays)
  {
    var r := WithDayProgress(u, currentDay, completedDays, dayQuiz);
    assert PostInit(r, later) == r;
    assert forall j :: 0 <= j < |r.curriculums| ==> r.curriculums[j].id == u.curriculums[j].id;
    assert FirstKey(r.curriculums, EntryKey, u.activeCurriculumId.GetOr("")) == FirstKey(u.curriculums, EntryKey, u.activeCurriculumId.GetOr("")) by {
      FirstKeySameKeys(u.curriculums, r.curriculums, u.activeCurriculumId.GetOr(""));
    }
  }

  /** Two lists with the same keys position by position agree on every lookup. */
  lemma {:induction false} FirstKeySameKeys(a: seq<Entry>, b: seq<Entry>, k: string)
    requires |a| == |b| && forall j :: 0 <= j < |a| ==> a[j].id == b[j].id
    ensures FirstKey(a, EntryKey, k) == FirstKey(b, EntryKey, k)
    decreases |a|
  {
    if a != [] {
      FirstKeySameKeys(a[..|a| - 1], b[..|b| - 1], k);
    }
  }

  // ---------------------------------------------------------------- the manager

  /** The user manager; `users` is the document's `users` object in key order, `hash` the
   *  password hash. */
  class UserManager {
    var users: seq<User>
    const hash: string -> string

    /** The record ids are the dict's keys, so no two are equal. */
    ghost predicate Valid()
      reads this
    {
      forall i, j :: 0 <= i < j < |users| ==> users[i].userId != users[j].userId
    }

    /** A manager whose file does not exist yet: the empty document is written. */
    constructor Fresh(hash: string -> string)
      ensures users == [] && this.hash == hash && Valid()
    {
      users := [];
      this.hash := hash;
    }

    /** A manager over an existing file. */
    constructor Existing(stored: seq<User>, hash: string -> string)
      requires forall i, j :: 0 <= i < j < |stored| ==> stored[i].userId != stored[j].userId
      ensures users == stored && this.hash == hash && Valid()
    {
      users := stored;
      this.hash := hash;
    }

    /** `get_user`: the record under the id, after its post-load step. */
    function GetUser(userId: string, now: Clock): (r: Option<User>)
      reads this
      ensures r.Some? <==> exists j :: 0 <= j < |users| && users[j].userId == userId
      ensures r.Some? ==> r.value.userId == userId
      ensures r.Some? ==> r.value == PostInit(users[FirstKey(users, UserKey, userId).value], now)
    {
      match FirstKey(users, UserKey, userId)
      case Some(i) => Some(PostInit(users[i], now))
      case None => None
    }

    /** `register`: refused, with nothing written, when any stored user has the email or the
     *  username; otherwise a new record is stored under `user_<n+1>_<stamp>` and that id is
     *  returned. */
    method Register(username: string, email: string, password: string, now: Clock) returns (ok: bool, message: string)
      requires Valid()
      modifies this
      ensures Valid()
      ensures ok <==> forall j :: 0 <= j < |old(users)| ==> old(users)[j].email != email && old(users)[j].username != username
      ensures !ok ==> users == old(users) && Some(message) == Clash(old(users), username, email)
      ensures ok ==>
        message == NewUserId(|old(users)|, now)
        && users == Put(old(users), NewUser(message, username, email, hash(password), now))
    {
      var i := 0;
      while i < |users|
        invariant 0 <= i <= |users|
        invariant forall j :: 0 <= j < i ==> users[j].email != email && users[j].username != username
        invariant Clash(users, username, email) == Clash(users[i..], username, email)
      {
        assert users[i..][1..] == users[i + 1..];
        if users[i].email == email {
          return false, EmailTaken;
        }
        if users[i].username == username {
          return false, NameTaken;
        }
        i := i + 1;
      }
      message := NewUserId(|users|, now);
      var user := NewUser(message, username, email, hash(password), now);
      PutKeepsKeysDistinct(users, user);
      users := Put(users, user);
      ok := true;
    }

    /** `login`: succeeds exactly when some stored user has the email and the hash of the
     *  password, and then gives the first such user after its post-load step. */
    method Login(email: string, password: string, now: Clock) returns (ok: bool, user: Option<User>)
      ensures ok <==> exists j :: 0 <= j < |users| && users[j].email == email && users[j].passwordHash == hash(password)
      ensures ok ==> user == Some(PostInit(users[LoginMatch(users, email, hash(password)).value], now))
      ensures !ok ==> user == None
    {
      var passwordHash := hash(password);
      var i := 0;
      while i < |users|
        invariant 0 <= i <= |users|
        invariant forall j :: 0 <= j < i ==> !(users[j].email == email && users[j].passwordHash == passwordHash)
      {
        if users[i].email == email && users[i].passwordHash == passwordHash {
          return true, Some(PostInit(users[i], now));
        }
        i := i + 1;
      }
      return false, None;
    }

    /** `record_progress`: for a known id the record takes the lesson, the hours and the
     *  optional quiz entry (see `ProgressSpec`); an unknown id changes nothing. */
    method RecordProgress(userId: string, lessonId: string, studyHours: real, quizScore: Option<int>, now: Clock)
      requires Valid()
      modifies this
      ensures Valid()
      ensures FirstKey(old(users), UserKey, userId).None? ==> users == old(users)
      ensures FirstKey(old(users), UserKey, userId).Some? ==>
        var i := FirstKey(old(users), UserKey, userId).value;
        users == old(users)[i := WithProgress(PostInit(old(users)[i], now), lessonId, studyHours, quizScore, now)]
    {
      var found := FirstKey(users, UserKey, userId);
      if found.Some? {
        var i := found.value;
        var user := PostInit(users[i], now);
        if lessonId !in user.completedLessons {
          user := user.(completedLessons := user.completedLessons + [lessonId]);
        }
        user := user.(totalStudyHours := user.totalStudyHours + studyHours);
        if quizScore.Some? {
          user := user.(quizScores := user.quizScores + [QuizEntry(lessonId, quizScore.value, now.iso)]);
        }
        users := users[i := user];
      }
    }

    /** `advance_day`: for a known id the next day (see `AdvanceSpec`); an unknown id
     *  changes nothing. */
    method AdvanceDay(userId: string, now: Clock)
      requires Valid()
      modifies this
      ensures Valid()
      ensures FirstKey(old(users), UserKey, userId).None? ==> users == old(users)
      ensures FirstKey(old(users), UserKey, userId).Some? ==>
        var i := FirstKey(old(users), UserKey, userId).value;
        users == old(users)[i := Advanced(PostInit(old(users)[i], now))]
    {
      var found := FirstKey(users, UserKey, userId);
      if found.Some? {
        var i := found.value;
        var user := PostInit(users[i], now);
        user := user.(currentDay := user.currentDay + 1);
        if user.currentDay > 7 {
          user := user.(currentDay := 1, currentWeek := user.currentWeek + 1);
        }
        users := users[i := user];
      }
    }

    /** `save_curriculum`: for a known id the entry is stored in place of the first entry
     *  with its id, or appended, and made active (see `SaveThenLoad`); the id is returned.
     *  An unknown id changes nothing and gives nothing back. */
    method SaveCurriculum(userId: string, curriculum: Doc, goalInput: Doc, userLevel: Doc, currentDay: int,
                          completedDays: Option<seq<int>>, curriculumId: Option<string>, now: Clock)
      returns (id: Option<string>)
      requires Valid() && GoalIsText(goalInput)
      modifies this
      ensures Valid()
      ensures FirstKey(old(users), UserKey, userId).None? ==> users == old(users) && id == None
      ensures FirstKey(old(users), UserKey, userId).Some? ==>
        var i := FirstKey(old(users), UserKey, userId).value;
        var e := NewEntry(CurriculumIdFor(curriculumId, now), curriculum, goalInput, userLevel, currentDay, completedDays, now);
        id == Some(e.id)
        && users == old(users)[i := WithCurriculum(PostInit(old(users)[i], now), e, curriculum, goalInput, userLevel,
                                                   currentDay, completedDays)]
    {
      var found := FirstKey(users, UserKey, userId);
      if found.None? {
        return None;
      }
      var i := found.value;
      var user := PostInit(users[i], now);
      var cid := CurriculumIdFor(curriculumId, now);
      var entry := NewEntry(cid, curriculum, goalInput, userLevel, currentDay, completedDays, now);
      user := ApplySave(user, entry, curriculum, goalInput, userLevel, currentDay, completedDays);
      users := users[i := user];
      id := Some(cid);
    }

    /** `load_curriculum`: nothing for an unknown id, else the record's view (see
     *  `CurriculumView`). */
    method LoadCurriculum(userId: string, curriculumId: Option<string>, now: Clock) returns (r: Option<Loaded>)
      ensures GetUser(userId, now).None? ==> r == None
      ensures GetUser(userId, now).Some? ==> r == CurriculumView(GetUser(userId, now).value, curriculumId)
    {
      var found := GetUser(userId, now);
      if found.None? {
        return None;
      }
      var user := found.value;
      if Truthy(curriculumId) {
        var k := Locate(user.curriculums, curriculumId.value);
        return if k.Some? then Some(Stored(user.curriculums[k.value])) else None;
      }
      if Truthy(user.activeCurriculumId) {
        var k := Locate(user.curriculums, user.activeCurriculumId.value);
        if k.Some? {
          return Some(Stored(user.curriculums[k.value]));
        }
      }
      if HasDoc(user.curriculum) {
        return Some(LegacyView(user.curriculum.value, user.goalInput, user.userLevel, user.currentDay, user.completedDays));
      }
      return None;
    }

    /** `set_active_curriculum`: true, with the entry made active, exactly when the user and
     *  an entry with that id exist; otherwise false and nothing changes. */
    method SetActiveCurriculum(userId: string, curriculumId: string, now: Clock) returns (ok: bool)
      requires Valid()
      modifies this
      ensures Valid()
      ensures ok <==>
        var f := FirstKey(old(users), UserKey, userId);
        f.Some? && FirstKey(PostInit(old(users)[f.value], now).curriculums, EntryKey, curriculumId).Some?
      ensures !ok ==> users == old(users)
      ensures ok ==>
        var i := FirstKey(old(users), UserKey, userId).value;
        var u := PostInit(old(users)[i], now);
        users == old(users)[i := Activated(u, u.curriculums[FirstKey(u.curriculums, EntryKey, curriculumId).value])]
    {
      var found := FirstKey(users, UserKey, userId);
      if found.None? {
        return false;
      }
      var i := found.value;
      var user := PostInit(users[i], now);
      var k := Locate(user.curriculums, curriculumId);
      if k.None? {
        return false;
      }
      var e := user.curriculums[k.value];
      user := user.(activeCurriculumId := Some(curriculumId));
      user := user.(curriculum := Some(e.curriculum), goalInput := e.goalInput, userLevel := e.userLevel,
                    currentDay := e.currentDay, completedDays := e.completedDays);
      users := users[i := user];
      ok := true;
    }

    /** `archive_curriculum`: true exactly when the user and an entry with that id exist, and
     *  then that entry is marked archived and nothing is removed (see `ArchivedAt`);
     *  otherwise false and nothing changes. */
    method ArchiveCurriculum(userId: string, curriculumId: string, now: Clock) returns (ok: bool)
      requires Valid()
      modifies this
      ensures Valid()
      ensures ok <==>
        var f := FirstKey(old(users), UserKey, userId);
        f.Some? && FirstKey(PostInit(old(users)[f.value], now).curriculums, EntryKey, curriculumId).Some?
      ensures !ok ==> users == old(users)
      ensures ok ==>
        var i := FirstKey(old(users), UserKey, userId).value;
        var u := PostInit(old(users)[i], now);
        users == old(users)[i := u.(curriculums := ArchivedAt(u.curriculums, FirstKey(u.curriculums, EntryKey, curriculumId).value, now))]
    {
      var found := FirstKey(users, UserKey, userId);
      if found.None? {
        return false;
      }
      var i := found.value;
      var user := PostInit(users[i], now);
      if user.curriculums == [] {
        return false;
      }
      var k := Locate(user.curriculums, curriculumId);
      if k.None? {
        return false;
      }
      var e := user.curriculums[k.value];
      e := e.(status := "archived");
      e := e.(archivedAt := Some(now.iso));
      user := user.(curriculums := user.curriculums[k.value := e]);
      users := users[i := user];
      ok := true;
    }

    /** `update_progress`: for a known id the active entry and the legacy day fields take the
     *  new progress (see `UpdateThenLoad`); an unknown id changes nothing. */
    method UpdateProgress(userId: string, currentDay: int, completedDays: seq<int>, dayQuiz: Option<Doc>, now: Clock)
      requires Valid()
      modifies this
      ensures Valid()
      ensures FirstKey(old(users), UserKey, userId).None? ==> users == old(users)
      ensures FirstKey(old(users), UserKey, userId).Some? ==>
        var i := FirstKey(old(users), UserKey, userId).value;
        users == old(users)[i := WithDayProgress(PostInit(old(users)[i], now), currentDay, completedDays, dayQuiz)]
    {
      var found := FirstKey(users, UserKey, userId);
      if found.None? {
        return;
      }
      var i := found.value;
      var user := PostInit(users[i], now);
      if Truthy(user.activeCurriculumId) && user.curriculums != [] {
        var k := Locate(user.curriculums, user.activeCurriculumId.value);
        if k.Some? {
          var e := user.curriculums[k.value];
          e := e.(currentDay := currentDay, completedDays := completedDays);
          if dayQuiz.Some? {
            e := e.(dayQuizCompleted := dayQuiz.value);
          }
          user := user.(curriculums := user.curriculums[k.value := e]);
        }
      }
      user := user.(currentDay := currentDay, completedDays := completedDays);
      users := users[i := user];
    }
  }

  /** The body of `save_curriculum` on the loaded record: the entry replaces the first one
   *  with its id or is appended, becomes active, and the legacy fields are mirrored. */
  method ApplySave(u: User, e: Entry, curriculum: Doc, goalInput: Doc, userLevel: Doc, currentDay: int,
                   completedDays: Option<seq<int>>) returns (r: User)
    requires GoalIsText(goalInput)
    ensures r == WithCurriculum(u, e, curriculum, goalInput, userLevel, currentDay, completedDays)
  {
    r := u;
    var k := Locate(r.curriculums, e.id);
    if k.Some? {
      r := r.(curriculums := r.curriculums[k.value := e]);
    } else {
      r := r.(curriculums := r.curriculums + [e]);
    }
    r := r.(activeCurriculumId := Some(e.id));
    r := r.(curriculum := Some(curriculum), goalInput := Some(goalInput), userLevel := Some(userLevel),
            currentDay := currentDay, completedDays := completedDays.GetOr([]),
            selectedProgram := Some(Take(GoalOf(goalInput), 50)));
  }

  /** Storing a record under its own id keeps the ids distinct. */
  lemma PutKeepsKeysDistinct(users: seq<User>, u: User)
    requires forall i, j :: 0 <= i < j < |users| ==> users[i].userId != users[j].userId
    ensures var r := Put(users, u);
      forall i, j :: 0 <= i < j < |r| ==> r[i].userId != r[j].userId
  {
  }
}

=== FILE: wrappers.dfy ===
/** Python's `None`-or-value, as it appears in optional dict entries and optional arguments. */
module Wrappers {

  datatype Option<T> = None | Some(value: T)
  {
    /** `x if x is not None else default` / `d.get(k, default)` once the lookup is done. */
    function GetOr(default: T): T
    {
      match this
      case Some(v) => v
      case None => default
    }
  }
}
